=== FILE: README.md ===
# Pandemic outbreak tracker: simulation store, epidemic analytics and map helpers

This project models the computational core of the pandemic outbreak tracker API in Dafny and proves properties of it.

The core has three parts:

- **The simulation store and its endpoints** (`api/routes/simulations.py`).
  - An in-memory dictionary from simulation ids to simulation records.
  - `create` seeds the S/E/I/R/D histories and the mock agents.
  - `run_step` advances one tick:
    - draws the transitions;
    - recomputes S so the five counts add up to the population;
    - appends one entry to every history and to the Rt history;
    - reconciles the agents' states with the new counts, walking non-deceased, non-isolated agents inside the grid;
    - marks the simulation Completed once no one is infectious or exposed.
  - The step endpoint guards against unknown and completed simulations. The run endpoint repeats `run_step` up to a step budget.
- **The configuration validator and the epidemic analytics** (`api/services/simulation_service.py`, `api/services/stats_utils.py`).
  - A fail-fast validator.
  - Attack rate and case-fatality rate.
  - R0, Rt and growth-rate sentinels.
  - Two doubling-time searches, which differ from each other.
  - Peak and duration.
  - Trends, smoothing, secondary cases, and averaging per location.
- **Classification and aggregation helpers** (`api/services/data_transform.py`, `api/routes/danger_zones.py`, `api/services/prediction_service.py`).
  - Agent state counts and statistics, and the SEIRD pivot table.
  - Danger levels, colours and radii, and the composite risk score.
  - The danger-zone filter and sort.
  - The prediction trend, location ids, the summary and the top-N selection.

How the Python is represented:

- **Imperative code stays imperative.**
  - `SimulationStore` is a class. Its dictionary field is an insertion-ordered `Dict` value that `Create`, `Delete` and `RunStep` reassign.
  - The loops of `run_step`, `_create_mock_agents`, `_count_states`, `aggregate_agent_statistics`, `create_seird_pivot_table`, the doubling-time search, `aggregate_simulations_by_location`, `get_all_predictions`, `get_danger_zones` and the run loop are methods with invariants.
  - Each of these methods is proved equal to a pure function that defines its result.
- **Pure code becomes functions and lemmas.**
- **Randomness.** `random.random()` and `random.uniform` draws are arbitrary values in their documented ranges, chosen with `:|`. The properties therefore hold for every outcome of the draws.
- **Numbers.**
  - Python floats are modelled as exact reals.
  - `int()` truncates toward zero.
  - `round(x, n)` rounds half to even.
  - `np.log` and `np.exp` are function parameters.

Every record in the store keeps the invariant `SimulationModel.WellFormed`. It says:

- the configuration passes the validator;
- the five histories have one entry per step plus one, they add up to the population at every step, and R and D never fall;
- the Rt history is non-negative;
- the current day is `dt` added once per step;
- the status agrees with the last counts;
- there is one agent per member of the population, numbered from 0 and inside the grid;
- the census of the agents equals the last counts.

## Model

| member | source | states |
|---|---|---|
| Simulations.SimulationStore.constructor | api/routes/simulations.py:57-58 | The store starts valid and empty. |
| Simulations.SimulationStore.CreateMockAgents | api/routes/simulations.py:93-107 | There are exactly `population_size` agents with ids 0..n-1. Agent k is infectious iff k < initial_infected, otherwise susceptible. Every agent has 0 days in state, is not isolated, and has a position inside [0, grid_size]. |
| Simulations.SimulationStore.Create | api/routes/simulations.py:60-91 | The id is `"sim_"` followed by the hex digits. The stored record is the initial one: status Created, day 0, no steps, histories `[pop - initial]`, `[0]`, `[initial]`, `[0]`, `[0]`, Rt history `[0.0]` and the mock agents. Only that key changes, and the store stays valid. |
| Simulations.SimulationStore.Get | api/routes/simulations.py:109-111 | Returns a record iff the id is stored. The record returned is well formed and carries that id. |
| Simulations.SimulationStore.Delete | api/routes/simulations.py:119-124 | Returns true iff the id was present. The id is absent afterwards and every other entry is unchanged. |
| Simulations.SimulationStore.ListAll | api/routes/simulations.py:126-128 | Returns the records in insertion order, one per stored id. Each is well formed and is what `Get` returns for its id. |
| Simulations.SimulationStore.RunStep | api/routes/simulations.py:130-248 | For an unknown id: returns false and changes nothing. For a known id: returns true, replaces only that record, with `Step` of it for draws within the current counts and moves within [-1, 1], and keeps the store valid. |
| Simulations.CountHits | api/routes/simulations.py:162-176 | The number of successes in n Bernoulli trials lies between 0 and n. It is 0 when p <= 0 and n when p >= 1. |
| Simulations.CountOutcomes | api/routes/simulations.py:179-188 | Recoveries plus deaths are at most n. No one dies when the mortality rate is at most 0, and no one recovers when it is at least 1. |
| Simulations.DrawTransitions | api/routes/simulations.py:160-188 | The draws fit the counts: new infections ≤ S, E→I ≤ E, I→R + I→D ≤ I. There are no infections when beta is 0, and the mortality rate of 0 or 1 decides the outcome. |
| Simulations.FindRoom | api/routes/simulations.py:227-232 | The search over D, R, I, E, S returns the first compartment still below its target, or none when every compartment is full. |
| Simulations.SettleAgent | api/routes/simulations.py:221-232 | One agent keeps its state while that state has room, and otherwise moves to the first compartment with room, its days reset. The running tally follows. |
| Simulations.ReconcileAgent | api/routes/simulations.py:221-241 | The settling step, followed by the clamped random walk and the day count, for one move in [-1, 1]². |
| Simulations.ReconcileAgents | api/routes/simulations.py:217-241 | The in-place loop keeps every agent, in order, with its id and isolation flag, and equals `Reconciled` for some moves, all within [-1, 1]. |
| Simulations.StoreOkPut | api/routes/simulations.py:70-89 | Storing a well-formed record under its own id keeps every stored record well formed. |
| Simulations.StoreOkRemove | api/routes/simulations.py:119-124 | Deleting an entry keeps the store invariant. |
| Simulations.Detail | api/routes/simulations.py:346-350 | The 400 detail is the validator's message, or the fallback text when that message is empty or missing. It is never empty. |
| Simulations.CreateSimulation | api/routes/simulations.py:341-352 | Rejects iff the validator rejects the configuration. A rejection carries the validator's message and leaves the store unchanged. An acceptance stores a Created simulation with that configuration under `"sim_" + hex`. |
| Simulations.RunSimulationStep | api/routes/simulations.py:441-457 | Returns 404 iff the id is unknown, and 400 iff the simulation is Completed, with the source's messages. Neither changes the store. Otherwise exactly one step is taken (`OneStep`) and stored. |
| Simulations.MaxSteps | api/routes/simulations.py:512-517 | A non-zero `steps` is used as given. Otherwise it is `int(days / dt)` for positive days, or `int(100 / dt)` when days is missing or zero. Each of these is the largest n with n·dt ≤ days. |
| Simulations.StepsIn | api/routes/simulations.py:515 | `int(days / dt)` is the number of whole steps of dt that fit in `days`. |
| Simulations.RanFromRun | api/routes/simulations.py:520-533 | A trace of one-step successors that stops where the loop stops satisfies the run contract `RanFrom`. |
| Simulations.RunStepAdvances | api/routes/simulations.py:522 | A store step on a well-formed record is one `OneStep` of that record and changes only its entry. |
| Simulations.Advance | api/routes/simulations.py:521-529 | One loop iteration extends the run trace by a one-step successor and touches only that entry. |
| Simulations.RunSteps | api/routes/simulations.py:519-533 | The loop runs n steps from the stored record. n ≤ max(0, max_steps), and every step is a `OneStep`. It stops early only when `stop_when_no_infected` is set and the last step left I = E = 0, and never earlier than that. |
| Simulations.RunSimulation | api/routes/simulations.py:491-535 | Returns 404 or 400 on exactly the source's guards and leaves the store unchanged then. Otherwise it runs with the request, or with the default of 100 days stopping on no infected, for the step budget `MaxSteps`, as `RanFrom` describes. |
| SimulationModel.InitialWellFormed | api/routes/simulations.py:66-89 | The record `create` stores, with the mock agents and an accepted configuration, satisfies the store invariant. In particular the agent census equals (pop - initial, 0, initial, 0, 0). |
| SimulationModel.MockAgentsCensusPrefix | api/routes/simulations.py:97-106 | Among the first n mock agents, min(n, initial_infected) are infectious and the rest susceptible. |
| SimulationModel.ElapsedIsProduct | api/routes/simulations.py:148 | Adding dt once per step gives steps·dt days. |
| SimulationModel.NextCounts | api/routes/simulations.py:191-201 | The five new counts always add up to the population. E and I are never negative. R and D grow by exactly the recoveries and deaths drawn. |
| SimulationModel.NextCountsExact | api/routes/simulations.py:191-201 | For draws that fit and conserved counts, no `max(0, ·)` clips anything: S, E, I, R and D change by exactly the flows. |
| SimulationModel.StepRt | api/routes/simulations.py:210-213 | The step's Rt is non-negative for positive dt. With a positive infectious mean, it is 0 iff there was no one infectious or no new infection. |
| SimulationModel.PerCapita | api/routes/simulations.py:211 | New infections per day per infectious agent: non-negative, and 0 iff there were no new infections. |
| SimulationModel.ClampToGrid | api/routes/simulations.py:238-239 | The result is always within [0, grid_size]. A coordinate already inside is unchanged, one below 0 becomes 0, and one above grid_size becomes grid_size. |
| SimulationModel.FirstWithRoom | api/routes/simulations.py:227-232 | A returned compartment has room. None is returned iff no compartment has room. |
| SimulationModel.Reconciled | api/routes/simulations.py:221-241 | Reconciliation keeps the number of agents. |
| SimulationModel.ReconciledSnoc | api/routes/simulations.py:221-241 | Reconciling one more agent appends its reconciled copy and advances the tally by that agent alone. |
| SimulationModel.SettleCounts | api/routes/simulations.py:223-232 | While fewer agents than the targets' total are placed, settling an agent adds it to its compartment of the tally, and no compartment exceeds its target. |
| SimulationModel.ReconciledCounts | api/routes/simulations.py:217-232 | The running tally is the census of the reconciled agents and never exceeds the targets. |
| SimulationModel.ReconciledCensus | api/routes/simulations.py:217-241 | When there are as many agents as the targets' total, the census after reconciliation equals the targets exactly. |
| SimulationModel.ReconciledPrefix | api/routes/simulations.py:221-241 | Reconciling a prefix of the agents gives the prefix of the result, so the loop settles agents in order. |
| SimulationModel.ReconciledAt | api/routes/simulations.py:221-241 | Agent k of the result is agent k settled against the tally of the agents before it. |
| SimulationModel.ReconcileOneFacts | api/routes/simulations.py:221-241 | An agent keeps its id and isolation flag. Its days become dt when its state changed, and otherwise grow by dt. Deceased or isolated agents do not move, and an agent on the grid stays on it. |
| SimulationModel.ReconciledAgentsOk | api/routes/simulations.py:234-239 | After reconciliation the agents are still numbered 0..n-1 and all inside the grid. |
| SimulationModel.ExtendsTrans | api/routes/simulations.py:203-214 | Growing the histories by m entries and then by n grows them by m + n and keeps every earlier entry. |
| SimulationModel.StepAppends | api/routes/simulations.py:148-214 | `Step` models `run_step` on a stored record. A step keeps the id and configuration, adds one step and dt days, and appends exactly one entry to S, E, I, R, D and the Rt history, keeping the earlier entries. |
| SimulationModel.StepCounts | api/routes/simulations.py:191-241 | After a step the appended counts add up to the population and move by exactly the drawn flows. The agents' census equals them. |
| SimulationModel.StepStatus | api/routes/simulations.py:243-245 | After a step the status is Completed iff the new I and E are both 0, and Running otherwise. |
| SimulationModel.StepWellFormed | api/routes/simulations.py:130-248 | A step preserves the whole store invariant: conservation, monotone R and D, history lengths, non-negative Rt, elapsed days, status, agents and census. |
| SimulationModel.HistoryStep | api/routes/simulations.py:203-207 | Appending conserved, non-negative counts with R and D not falling keeps the histories well formed. |
| SimulationModel.RtHistoryStep | api/routes/simulations.py:209-214 | The Rt history stays non-negative after the step's Rt is appended. |
| SimulationModel.CompletedIsAbsorbing | api/routes/simulations.py:160-201 | Stepping a Completed simulation changes no count and leaves it Completed. This is the behaviour the run loop has when it does not stop on no infected. |
| SimulationModel.RunStepExtends | api/routes/simulations.py:520-533 | Each step of a run adds one entry to every history. |
| SimulationModel.RunExtends | api/routes/simulations.py:520-533 | A run of n steps adds exactly n entries to every history and to the Rt history, keeping the earlier ones. |
| SimulationModel.StepsToExtends | api/routes/simulations.py:520-533 | Any n-step successor extends the histories by n entries. |
| SimulationModel.RunNext | api/routes/simulations.py:521-529 | A run followed by one more step is a run. |
| SimulationModel.StepIsOneStep | api/routes/simulations.py:130-248 | `Step` with fitting draws and moves is a one-step successor and extends the histories by one. |
| Agents.CensusTotal | api/routes/simulations.py:217-232 | The per-compartment agent counts add up to the number of agents. |
| Agents.CensusAppend | api/routes/simulations.py:223-231 | One more agent adds one to its own compartment only. |
| Agents.Tally.Inc | api/routes/simulations.py:224 | Increments exactly one compartment's count. |
| Agents.Compartment.Letter | api/routes/simulations.py:98 | Each compartment's state string is one of the five letters "S", "E", "I", "R", "D". |
| Agents.Label.Text | api/services/data_transform.py:52 | The state string of a label. It is one of the five letters iff the label is a compartment. |
| Agents.LabelOf | api/services/data_transform.py:52-53 | Reading a state string gives a label whose string it is. The label is a compartment iff the string is one of the five letters. |
| Agents.LabelOfText | api/services/data_transform.py:52-53 | Reading a label's string gives the label back, so labels and state strings correspond one to one. |
| Validation.Validate | api/services/simulation_service.py:45-98 | Validity and message agree: valid iff no message. |
| Validation.ValidateAcceptsExactlyAdmissible | api/services/simulation_service.py:45-96 | The validator accepts exactly these configurations: population in [10, 10000], grid in [20, 500], beta in [0, 5], positive incubation and infectious means with non-negative deviations, four rates in [0, 1], positive interaction radius, 0 < dt ≤ 1, non-negative home attraction and random movement, disease duration ≤ 365, and 1 ≤ initial_infected < population. |
| Validation.Checks | api/services/simulation_service.py:45-96 | The sixteen checks, each with its message, in the order the source tries them. |
| Validation.FailFast | api/services/simulation_service.py:45-98 | A fail-fast scan reports nothing iff every remaining check passes. |
| Validation.FailFastIsFirst | api/services/simulation_service.py:45-98 | A reported message is that of a failing check, and every earlier check passed. |
| Validation.FailFastSkips | api/services/simulation_service.py:45-98 | Passing checks can be skipped without changing the report. |
| Validation.ValidateIsFailFast | api/services/simulation_service.py:45-98 | The validator's message is exactly the fail-fast report over the ordered checks, so it is the first failing check's message. |
| Validation.ZeroInfectionRateAccepted | api/services/simulation_service.py:52-53 | A configuration with beta = 0 is accepted. |
| Validation.PopulationMinimumIsTen | api/services/simulation_service.py:45-46 | A population of 10 is accepted. A population of 9 is rejected with the population message. |
| Validation.InitialRangeMessageMeansTooFew | api/services/simulation_service.py:92-96 | The last message can only be reached with fewer than one initially infected. |
| ServiceMetrics.AttackRate | api/services/simulation_service.py:176-177 | The result is 0 for a non-positive population. Otherwise it is (R + D)/population·100, stated as r·population = (R + D)·100, and it lies in [0, 100] when R + D is at most the population. |
| ServiceMetrics.CaseFatalityRate | api/services/simulation_service.py:180-182 | The result is 0 when no infection has resolved. Otherwise it is D/(R + D)·100, stated as r·(R + D) = D·100, and it lies in [0, 100] for non-negative counts. |
| ServiceMetrics.EarlyPhaseEnd | api/services/simulation_service.py:266 | `max(min(n // 10, 20), 5)` lies in [5, 20]. |
| ServiceMetrics.EarlyPhase | api/services/simulation_service.py:266-267 | The leading `min(n, early_phase_end)` counts. |
| ServiceMetrics.EstimateR0 | api/services/simulation_service.py:262-284 | The result is 0 for fewer than two counts or a zero population. It is 1.0 when fewer than two early counts are positive, and it is never negative. |
| ServiceMetrics.R0SeesTwoPositiveEarlyCounts | api/services/simulation_service.py:270-273 | Two positive early counts make the growth segment the estimate uses. |
| ServiceMetrics.RtWindowSize | api/services/simulation_service.py:306 | The Rt window is at least two ticks. |
| ServiceMetrics.CalculateRt | api/services/simulation_service.py:302-319 | The result is 0 for fewer than two counts and 1.0 when the window starts at or below 0. It is never negative for a non-negative infectious period. |
| ServiceMetrics.RtOfPositiveWindow | api/services/simulation_service.py:306-319 | For a positive dt and a window that starts and ends at positive counts, the span is positive and Rt is `max(0, 1 + ln(last/first) / span · infectious_period)`. |
| ServiceMetrics.FlatRtWindowGivesOne | api/services/simulation_service.py:306-319 | With ln(1) = 0, a positive dt, and a window that starts positive and ends where it started, Rt is exactly 1. |
| ServiceMetrics.RisingRtWindowAboveOne | api/services/simulation_service.py:306-319 | If the logarithm is positive above 1, a window that ends above its positive start gives Rt > 1 for a positive infectious period. |
| ServiceMetrics.GrowthEndpoint | api/services/simulation_service.py:341-344 | The endpoint is the last later tick whose count exceeds tick i's. It is none iff no later count exceeds it. |
| ServiceMetrics.CalculateDoublingTime | api/services/simulation_service.py:334-349 | The loop with its early return equals the recursive search `DoublingTime` (the value `_calculate_doubling_time` returns), which `DoublingTimeWitness` and `DoublingNoneIff` characterise. |
| ServiceMetrics.DoublingTimeWitness | api/services/simulation_service.py:338-347 | A reported value is (e - i)·dt. Here i is the first tick from the scan's start with a growth start (a[i] > a[i-1] > 0) that doubles, and e is its `GrowthEndpoint`, the last later tick above a[i], with a[e] ≥ 2·a[i]. It is positive for positive dt. |
| ServiceMetrics.DoublingNoneIff | api/services/simulation_service.py:338-349 | The search reports nothing iff no tick both starts growth and has a last exceeding endpoint at double. |
| ServiceMetrics.DoublingOfSteadyGrowth | api/services/simulation_service.py:338-347 | [10, 12, 15, 20, 25, 30] at dt = 1 doubles in 4 days. |
| ServiceMetrics.DoublingMissedWhenSeriesFallsBack | api/services/simulation_service.py:341-345 | [10, 12, 30, 13] reports no doubling, because the last exceeding tick (13) is checked rather than the first doubled one. |
| ServiceMetrics.CalculateTrend | api/services/simulation_service.py:351-373 | "stable" below two metrics. Otherwise "increasing" iff the mean Rt of the last (up to) three metrics exceeds 1.1, and "decreasing" iff it is below 0.9. |
| ServiceMetrics.RecentRtWindow | api/services/simulation_service.py:365 | The averaged values are the last (up to) three Rt values. |
| ServiceMetrics.IncreasingNeedsHighRt | api/services/simulation_service.py:365-369 | An increasing trend implies that one of the last three Rt values exceeds 1.1. |
| ServiceMetrics.DecreasingNeedsLowRt | api/services/simulation_service.py:365-371 | A decreasing trend implies that one of the last three Rt values is below 0.9. |
| ServiceMetrics.SteadyRtIsStable | api/services/simulation_service.py:361-373 | Recent Rt values all within [0.9, 1.1] give "stable". |
| ServiceMetrics.GrowthRate | api/services/simulation_service.py:218-227 | The result is 0 for fewer than two counts. Otherwise, over the last seven counts w, r·(w[0] if w[0] > 0 else 1) = w[-1] - w[0]. When w starts positive and ends non-negative, r is at least -1, and non-negative iff the last count has not fallen below the first. |
| ServiceMetrics.VaccinationCoverage | api/services/simulation_service.py:212-215 | The result is 0 without vaccination. Otherwise r·pop = min(rate·duration·pop, pop)·100, a percentage in [0, 100] for a non-negative duration and a positive population. |
| ServiceMetrics.CalculateEpidemicMetrics | api/services/simulation_service.py:166-243 | Each field is its own metric. The peak is the maximum infected count and occurs in the series, and `peak_day` is `PeakDay` (int(first argmax·dt)). Both are 0, as is current_infected, for an empty series. current_infected, current_recovered and current_deceased are the last entries. `outbreak_duration` is `ActiveDays` with threshold 1 (int(#{I > 0}·dt)). Attack rate, CFR, vaccination coverage (over that duration), growth rate, R0, Rt and doubling time are `AttackRate`, `CaseFatalityRate`, `VaccinationCoverage`, `GrowthRate`, `EstimateR0`, `CalculateRt` and `DoublingTime` of these inputs. R0 and Rt are non-negative. |
| ServiceMetrics.MetricsArePercentages | api/services/simulation_service.py:176-215 | For an accepted configuration and conserved histories, attack rate, CFR and vaccination coverage all lie in [0, 100]. |
| ServiceMetrics.ForLocation | api/services/simulation_service.py:433-445 | A location's outputs, in input order, are never more than the input. |
| ServiceMetrics.ForLocationFacts | api/services/simulation_service.py:433-445 | A location has outputs iff its id occurs, and all of them carry that id. |
| ServiceMetrics.LocationIdsExact | api/services/simulation_service.py:433-436 | The key set is exactly the set of ids that occur. |
| ServiceMetrics.AppendStep | api/services/simulation_service.py:433-445 | One more output extends only its own location's list. |
| ServiceMetrics.SumsAppend | api/services/simulation_service.py:446-449 | One more output adds its R0, Rt, attack rate and deaths to the running totals. |
| ServiceMetrics.OpenEntry | api/services/simulation_service.py:436-449 | A new location's entry, once its first output is added, holds that output's totals. |
| ServiceMetrics.ExtendEntry | api/services/simulation_service.py:446-449 | Adding an output to an entry that holds some outputs' totals gives the totals with that output appended. |
| ServiceMetrics.AccumulateOwnEntry | api/services/simulation_service.py:435-449 | Accumulating an output into its location's entry gives the totals over the longer prefix. |
| ServiceMetrics.OtherEntry | api/services/simulation_service.py:433-449 | The other locations' entries are untouched and still hold their totals. |
| ServiceMetrics.TotalsStep | api/services/simulation_service.py:433-449 | One iteration of the first loop keeps every entry equal to its location's totals. |
| ServiceMetrics.TotalsByLocation | api/services/simulation_service.py:431-449 | After the first loop the keys are the ids that occur, and each entry holds the sums over that location's outputs. |
| ServiceMetrics.AggregateByLocation | api/services/simulation_service.py:431-459 | The keys are the ids that occur. Each entry is the per-location average of R0, Rt and attack rate and the total of deaths over that location's outputs. |
| ServiceMetrics.TotalsBounds | api/services/simulation_service.py:446 | The summed R0 of n outputs that each lie in [lo, hi] lies in [n·lo, n·hi]. |
| ServiceMetrics.AverageR0Between | api/services/simulation_service.py:452-457 | A location's mean R0 lies within the range of its outputs' R0 values. |
| EpidemicStats.WindowSteps | api/services/stats_utils.py:54 | `max(int(window / dt), 2)` is at least 2 and fits the window when larger. |
| EpidemicStats.RtWindow | api/services/stats_utils.py:54-57 | The window is a suffix of the counts, with at least two of them when there are two. |
| EpidemicStats.CalculateRt | api/services/stats_utils.py:47-76 | The result is 0 for fewer than two counts, and otherwise the Rt of the window. |
| EpidemicStats.RtOver | api/services/stats_utils.py:59-76 | The result is 0 when the window starts at or below 0, and 1.0 when dt ≤ 0 or the window ends at or below 0. It is never negative. |
| EpidemicStats.FlatWindowGivesRtOne | api/services/stats_utils.py:63-74 | A window that ends where it started gives Rt = 1. |
| EpidemicStats.EarlyPhaseEnd | api/services/stats_utils.py:106 | `max(min(n // 10, int(20 / dt)), 5)` is at least 5, and when larger it is bounded by both n/10 and 20/dt. |
| EpidemicStats.EarlyPhase | api/services/stats_utils.py:106-107 | The leading counts of the early phase. |
| EpidemicStats.EstimateR0 | api/services/stats_utils.py:100-126 | The result is 0 iff there are fewer than two counts or the population is 0. Otherwise it lies in [0.5, 10], and is 1.0 when fewer than two early counts exceed 5. |
| EpidemicStats.FlatEarlyPhaseGivesR0One | api/services/stats_utils.py:110-124 | Early counts above 5 that are all equal give R0 = 1. |
| EpidemicStats.FirstReaching | api/services/stats_utils.py:157-160 | The first tick from i at or above the threshold, or none iff no such tick exists. |
| EpidemicStats.CalculateDoublingTime | api/services/stats_utils.py:144-164 | The search loop equals the recursive `DoublingTime` (the value `calculate_doubling_time` returns), which `DoublingTimeCharacterised` characterises. |
| EpidemicStats.DoublingFromNoneIff | api/services/stats_utils.py:150-164 | The search reports nothing iff no growth tick is ever followed by a doubled count. |
| EpidemicStats.DoublingFromWitness | api/services/stats_utils.py:150-162 | A reported value comes from the first growth tick i (a[i] > a[i-1] > 5) that is followed by a doubled count, and from the first such count j. The value is (j - i)·dt. |
| EpidemicStats.DoublingTimeCharacterised | api/services/stats_utils.py:144-164 | The doubling time is none iff no tick qualifies. Otherwise it is the first qualifying i with the first j ≥ i at double. |
| EpidemicStats.DoublingOfBriefSurge | api/services/stats_utils.py:150-162 | [10, 12, 30, 13] at dt = 1 doubles in 1 day. |
| EpidemicStats.CalculateAttackRate | api/services/stats_utils.py:185-190 | The result is 0 for no susceptibles at the start and always lies in [0, 100]. It is the exact percentage of susceptibles lost when S falls within range. |
| EpidemicStats.AttackRateGrowsAsSusceptiblesFall | api/services/stats_utils.py:188-190 | Fewer susceptibles at the end never lower the attack rate. |
| EpidemicStats.CalculateCaseFatalityRate | api/services/stats_utils.py:208-212 | The result is 0 for no infections and always lies in [0, 100]. It is the exact percentage of deaths when they do not exceed the infections. |
| EpidemicStats.GrowthWindow | api/services/stats_utils.py:239-242 | The window is a suffix of at least two counts. |
| EpidemicStats.CalculateGrowthRate | api/services/stats_utils.py:233-254 | The result is 0 for fewer than two counts, and otherwise the growth over the window. |
| EpidemicStats.GrowthOver | api/services/stats_utils.py:244-254 | A window starting at 0 gives 1.0 if it ends above 0, and 0.0 otherwise. Any other window gives the relative change, which is at least -1 and non-negative iff the window did not fall. |
| EpidemicStats.RelativeChange | api/services/stats_utils.py:253 | The relative change times the first count is the difference. |
| EpidemicStats.CalculatePeakMetrics | api/services/stats_utils.py:268-276 | Gives (0, 0) on empty input. Otherwise the peak is the maximum, and the peak day is `int(p·dt)` for its first position p. |
| EpidemicStats.CalculateEpidemicDuration | api/services/stats_utils.py:295-302 | `int(#{counts ≥ threshold}·dt)`. It is 0 on empty input and at most the whole series' days. |
| EpidemicStats.RecentValues | api/services/stats_utils.py:320 | The last min(5, n) values. |
| EpidemicStats.CalculateTrend | api/services/stats_utils.py:316-337 | "stable" for fewer than two values. Otherwise "increasing" iff the recent mean minus the baseline exceeds the threshold, and "decreasing" iff it is below -threshold. |
| EpidemicStats.ConstantSeriesIsStable | api/services/stats_utils.py:316-337 | A constant series is stable. |
| EpidemicStats.StepUpIsIncreasing | api/services/stats_utils.py:324-333 | A rise by more than the threshold between the two halves of the last ten values is increasing. |
| EpidemicStats.StepDownIsDecreasing | api/services/stats_utils.py:324-335 | A fall by more than the threshold between the two halves of the last ten values is decreasing. |
| EpidemicStats.SmoothingWidth | api/services/stats_utils.py:354-355 | The window is capped at the data length and is at least 1. |
| EpidemicStats.SmoothSeries | api/services/stats_utils.py:351-365 | Preserves length. The first w-1 values are copied and every later value is the trailing mean of w values. |
| EpidemicStats.TrailingMeanBetween | api/services/stats_utils.py:358 | A trailing mean lies between the data's bounds. |
| EpidemicStats.SmoothWithinBounds | api/services/stats_utils.py:351-365 | Smoothing never leaves the data's range. |
| EpidemicStats.SmoothConstant | api/services/stats_utils.py:351-365 | Smoothing a constant series returns it unchanged. |
| EpidemicStats.EstimateSecondaryCases | api/services/stats_utils.py:384-398 | Preserves length. Each entry is its count's share of contact_rate·infectious_period relative to max(peak, 1). |
| EpidemicStats.PeakOrOne | api/services/stats_utils.py:394-396 | `max(max(counts), 1)` is at least 1 and at least the peak, and equals the peak when the peak is positive. |
| EpidemicStats.SecondaryCasesBounded | api/services/stats_utils.py:390-396 | For non-negative counts every entry lies in [0, contacts]. |
| EpidemicStats.SecondaryCasesPeak | api/services/stats_utils.py:394-396 | At the peak, the estimate equals the total contacts. |
| Series.DaysFor | api/services/stats_utils.py:274 | `int(ticks·dt)` is the whole number of days in those ticks. |
| Series.DaysForMonotone | api/services/stats_utils.py:274 | More ticks never give fewer days. |
| Series.PeakDay | api/services/stats_utils.py:273-274 | The peak day is the days up to the first argmax, within the series' span. |
| Series.ActiveDays | api/services/stats_utils.py:299-300 | Active days never exceed the series' days, and are 0 for an empty series. |
| Series.ActiveDaysShrinkWithThreshold | api/services/stats_utils.py:299-300 | A higher threshold never gives more active days. |
| Transform.RiskLevel | api/services/data_transform.py:41-53 | The risk level is at most 2. It is positive iff the state is E or I, and 2 iff the state is I. |
| Transform.AgentToFeature | api/services/data_transform.py:22-59 | The feature's id, state, days and isolation flag are the agent's, or the `.get` defaults 0, "S", 0 and False. Its risk level is 2 iff the state is I, 1 iff it is E, and 0 otherwise. |
| Transform.Labels | api/services/data_transform.py:224-226 | One state label per agent, where a missing state reads as "S". |
| Transform.StateCountsOneMore | api/services/data_transform.py:108-111 | One more agent increments its own compartment if its state is a known letter. Otherwise it counts as unknown. |
| Transform.CountStates | api/services/data_transform.py:105-112 | The counting loop returns the S/E/I/R/D tally of the known states. |
| Transform.StateCountsPartition | api/services/data_transform.py:105-112 | Known counts plus unknown states equal the number of agents. |
| Transform.StateCountsBound | api/services/data_transform.py:105-112 | The counts sum to at most the number of agents, with equality iff no state is unknown. |
| Transform.StateCountsOfStoreAgents | api/services/data_transform.py:105-112 | Counting the store's agents, written as dicts, gives their census. |
| Transform.AgentsToGeoJson | api/services/data_transform.py:82-102 | Feature k is `AgentToFeature` of agent k, one per agent. `agent_count` is the number of agents, and the state summary is `StateCounts` of the agents (`_count_states`), which counts at most that many. |
| Transform.Isolated | api/services/data_transform.py:228-229 | At most the agents counted are isolated. |
| Transform.Rate | api/services/data_transform.py:239 | The rate lies in [0, 1], and the rate times the total is the count. |
| Transform.AccumulateAgents | api/services/data_transform.py:220-229 | The loop yields the counter of state labels, the total of days in state (0 when missing), and the number of isolated agents. |
| Transform.AggregateAgentStatistics | api/services/data_transform.py:211-240 | Empty input gives zero totals and an empty by_state. Otherwise: total = n, by_state is the label counter, the average days is the total over n, isolated_count is the count, and the isolation rate is count / n. |
| Transform.ByStateCounts | api/services/data_transform.py:224-226 | by_state counts sum to the number of agents. Each label maps to its number of occurrences, and a label that never occurs is absent. |
| Transform.RowStart | api/services/data_transform.py:266 | A row starts as a valid dict holding only the day. |
| Transform.RowOver | api/services/data_transform.py:266-269 | Adding the states' cells keeps the row a valid dict. |
| Transform.CreateSeirdPivotTable | api/services/data_transform.py:258-272 | There is one row per entry of the first series, and none for empty statistics. Row k is the day cell k·dt followed by the lower-cased states' counts at k. |
| Transform.PivotRow | api/services/data_transform.py:265-270 | The inner loop builds exactly `RowOver` of all the states. |
| Transform.RowOverUntouched | api/services/data_transform.py:267-269 | A column that no state lower-cases to keeps its starting value. |
| Transform.RowOverColumn | api/services/data_transform.py:267-269 | A state's column holds its count at day k when that series is long enough, and is absent otherwise. |
| Transform.PivotRowContents | api/services/data_transform.py:264-270 | In row k, "day" is k·dt. Each state's lower-cased column is its count at k, or is missing for a shorter series. |
| Transform.ZoneRadius | api/services/data_transform.py:181 | The radius always lies in [500, 5000]. It is `int(density·1000)` when that lies within the range, 500 below it and 5000 above it. |
| Transform.CreateDangerZoneFeature | api/services/data_transform.py:167-198 | The level and colour are the danger bands at 75/50/25, the same as the route's. The radius is `ZoneRadius(density)`, in [500, 5000]. The id, name, coordinates, risk score, density and infected percentage are the inputs. |
| Transform.DoublingScore | api/services/data_transform.py:303-306 | The score lies in [0, 1]. It is 0 when the doubling time is missing or not positive, 1 - t/14 for 0 < t < 14, and 0 for t ≥ 14. |
| Transform.DoublingScoreAntitone | api/services/data_transform.py:304 | A longer positive doubling time never gives a higher score. |
| Transform.CalculateRiskScore | api/services/data_transform.py:294-316 | The score always lies in [0, 100]. It equals the weighted score ×100 when that is in range, 0 below it and 100 above it. |
| Transform.RiskScoreMonotoneInRt | api/services/data_transform.py:300-316 | A higher Rt never lowers the risk score. |
| Transform.RiskScoreMonotoneInDoubling | api/services/data_transform.py:303-316 | A slower doubling never raises the risk score. |
| DangerZones.GetDangerLevel | api/routes/danger_zones.py:19-28 | Critical iff score ≥ 75, High iff 50 ≤ score < 75, Moderate iff 25 ≤ score < 50, and Low iff score < 25. |
| DangerZones.DangerLevelMonotone | api/routes/danger_zones.py:19-28 | A higher score never gives a lower level. |
| DangerZones.GetDangerColor | api/routes/danger_zones.py:31-39 | Every level has one of the four configured colours. |
| DangerZones.DangerColorsDistinct | api/config.py:65-68 | Different levels have different colours. |
| DangerZones.ZoneRisk | api/routes/danger_zones.py:83-85 | The risk is the raw score clamped to [0, 100]. |
| DangerZones.MakeZone | api/routes/danger_zones.py:83-106 | The zone keeps the location's id, name and coordinates. Its level is that of the clamped score, and its colour is that level's. Its score is `RoundHalfEven(clamped score, 10)`, i.e. rounded to one decimal (within 0.05, in [0, 100]). Its cases are the predicted total, its change is `percent_change or 0`, and its radius is the coordinate's or 40000. |
| DangerZones.Candidates | api/routes/danger_zones.py:75-109 | There are at most as many zones as predictions. |
| DangerZones.CandidatesExact | api/routes/danger_zones.py:75-109 | Every zone comes from an admitted location: one with coordinates, not low when low is excluded, and not below the minimum. Every admitted location has its zone. |
| DangerZones.AdmittedZone | api/routes/danger_zones.py:77-106 | An admitted zone has coordinates and its level's colour. It is not Low when low is excluded, and its risk lies in [0, 100] and within rounding of the minimum. |
| DangerZones.GetDangerZones | api/routes/danger_zones.py:72-112 | The result is the admitted zones sorted by risk in descending order, and is a permutation of them. |
| DangerZones.MinimumRiskMissedAfterRounding | api/routes/danger_zones.py:94-103 | A score of 30.04 passes a minimum of 30.04 and is reported as 30.0, below that minimum. |
| DangerZones.LevelDisagreesWithReportedScore | api/routes/danger_zones.py:87-103 | A score of 74.96 is reported as 75.0 with level High, although 75.0 is Critical. |
| DangerZones.RoundedCandidates | api/routes/danger_zones.py:83-109 | With the skips applied to the reported score: every zone is at or above the minimum, its level is that of its reported score, its colour matches, and it is not Low when low is excluded. |
| Predictions.ChangePercent | api/services/prediction_service.py:55-60 | The percentage exceeds 10 iff the rise exceeds a tenth of max(first, 1), and falls below -10 iff the fall does. |
| Predictions.PredictionTrend | api/services/prediction_service.py:47-62 | "stable" for fewer than two points. Otherwise "increasing" iff the sum of items [4:] exceeds the sum of items [:3] by more than 10% of max(first, 1), and "decreasing" symmetrically. |
| Predictions.TrendIgnoresFourthDay | api/services/prediction_service.py:52-53 | The fourth prediction never affects the trend. |
| Predictions.PredictedFacts | api/services/prediction_service.py:69-93 | About `Predicted`, the entry built for one location. The id is normalised (normalising it again changes nothing) and has the name's length. The total is within half a cent of the summed cases, and non-negative for non-negative cases. |
| Predictions.CasesNonNegative | api/services/prediction_service.py:81 | Non-negative predicted cases sum to a non-negative total. |
| Predictions.GetAllPredictions | api/services/prediction_service.py:64-96 | One prediction per location in file order, each built from that location's points. |
| Predictions.FindByLocation | api/services/prediction_service.py:98-108 | Returns the first prediction that matches by normalised id or case-insensitive name, or none iff nothing matches. |
| Predictions.FindsEveryLocation | api/services/prediction_service.py:102-106 | Every listed location is found by its name and by its id. |
| Predictions.TrendCountsPartition | api/services/prediction_service.py:164-166 | The increasing, decreasing and stable counts add up to the number of locations. |
| Predictions.PredictionsSummary | api/services/prediction_service.py:149-187 | Zero totals without predictions. Otherwise total_locations is n, and each trend count is the number of locations with that trend, so the three add up to n. total_predicted_cases is `round(sum of totals, 2)`, within half a cent of the sum. top_5 holds the name, total and trend of the first min(n, 5) entries of `get_top_risk_locations(5)`, sorted by predicted cases in descending order. |
| Predictions.TopRiskLocations | api/services/prediction_service.py:189-193 | `sorted(...)[:limit]` has Python slice length (negative limits count from the end). It is sorted in descending order and a sub-multiset of the input. |
| Predictions.TopRiskSplit | api/services/prediction_service.py:192-193 | The selection is a prefix of the sorted list, and the rest of the input is the remaining suffix. |
| Predictions.TopRiskAreLargest | api/services/prediction_service.py:189-193 | Every selected location has at least the predicted total of every location left out. |
| Text.Lower | api/services/prediction_service.py:105 | Preserves length. Each upper-case ASCII letter becomes its lower-case letter (code + 32), every other character is unchanged, and no upper-case letter remains. |
| Text.SpacesToUnderscores | api/services/prediction_service.py:70 | Preserves length. Each space becomes '_', every other character is unchanged, and no space remains. |
| Text.LocationId | api/services/prediction_service.py:70 | The name lower-cased with spaces replaced by underscores. Same length; a space becomes '_', an upper-case letter its lower case, and every other character is kept. No space or upper-case letter remains. |
| Text.LocationIdIdempotent | api/services/prediction_service.py:103 | Normalising an id again changes nothing. |
| Text.LocationIdIgnoresCase | api/services/prediction_service.py:103-105 | Names equal up to case have the same id. |
| Dicts.Dict.Put | api/routes/simulations.py:70 | Dict assignment binds the key, keeps every other key, and appends the key to the order only when it is new. |
| Dicts.Dict.Remove | api/routes/simulations.py:122 | `del` unbinds the key, keeps every other key, and drops the key from the order. |
| Dicts.Bump | api/services/data_transform.py:226 | `d[k] = d.get(k, 0) + 1` increments one key only. |
| Dicts.BumpTotal | api/services/data_transform.py:226 | Each bump adds one to the sum of the counts. |
| Dicts.Counter | api/services/data_transform.py:224-226 | Counting into a dict gives a valid dict. |
| Dicts.CounterUpToPrefix | api/services/data_transform.py:224-226 | Counting the first n items one by one gives the counter of the prefix. |
| Dicts.CounterGet | api/services/data_transform.py:226 | Each key maps to its number of occurrences, and keys that do not occur are absent. |
| Dicts.CounterTotal | api/services/data_transform.py:224-231 | The counts add up to the number of items. |
| PyNum.Trunc | api/services/stats_utils.py:274 | `int()` truncates toward zero. |
| PyNum.RoundHalfEven | api/services/prediction_service.py:88 | `round(x, n)`: the result is a multiple of 1/scale within half a unit of x, and on a tie it is the even multiple. This pins it down uniquely. |
| PyNum.RoundStaysBetween | api/routes/danger_zones.py:103 | Rounding never leaves integer bounds on the scaled value. |
| PyNum.Clip | api/services/data_transform.py:316 | `np.clip` lies within the bounds. It is the identity inside them, gives lo below lo and hi above hi. |
| PyNum.Last | api/services/simulation_service.py:219 | `s[-n:]` is the suffix of length min(n, len). |
| PyNum.SliceTo | api/services/prediction_service.py:193 | `s[:k]` is a prefix with Python's length for any k, negative included. |
| PyNum.MaxOf | api/services/stats_utils.py:272 | `np.max` occurs in the series and bounds every entry. |
| PyNum.ArgMax | api/services/stats_utils.py:273 | `np.argmax` is the first position of the maximum. |
| PyNum.ArgMaxHoldsMax | api/services/stats_utils.py:272-273 | The value at the argmax is the max. |
| PyNum.IndicesAbove | api/services/stats_utils.py:110 | `np.where(s > t)[0]` lists only positions above t, in increasing order. |
| PyNum.IndicesAboveComplete | api/services/stats_utils.py:110 | `np.where` lists every position above t, and nothing after its last one is above t. |
| PyNum.IndicesAboveEmpty | api/services/stats_utils.py:110-113 | The list is empty iff no entry exceeds t. |
| PyNum.CountAtLeast | api/services/stats_utils.py:299 | `np.sum(s >= t)` is at most the length. |
| PyNum.CountAtLeastAntitone | api/services/stats_utils.py:299 | A higher threshold never counts more. |
| Ordering.SortDescCorrect | api/services/prediction_service.py:192 | `sorted(..., reverse=True)` returns a permutation sorted in descending order of the key. |
| Ordering.SplitSortedDesc | api/services/prediction_service.py:192-193 | In a descending list, every element of a prefix is at least every element of the rest. |

## Left out

- HTTP plumbing is not part of this model.
  - FastAPI routing, Pydantic schemas and status codes beyond the 404/400 guards.
  - `_build_simulation_state`, `_build_agents_response`, the list/get/stats/agents/delete endpoints and `get_danger_zones_geojson`, which only reshape stored data into responses.
- `SimulationStore.update` and every `created_at`/`last_updated`/`generated_at` timestamp: wall-clock time is not modelled.
- `uuid.uuid4().hex[:12]` is a parameter (`hex`) of `Create`, because randomness is not modelled.
- Random draws are arbitrary values in `random.random()`'s and `random.uniform`'s ranges. Their distribution, and the agent positions' distribution, are not modelled.
- Simulation records and agent dicts are values, not mutable objects shared by reference. `run_step`'s in-place edits are modelled as replacing the stored record, so aliasing of a record the caller still holds is not modelled.
- `np.log` and `np.exp` are function parameters. The R0, Rt and risk-score formulas are modelled, but only their sentinels, clamps and `max(0, ·)` are proved.
- Python floats are exact reals. Float rounding error is not modelled, apart from `round()` and `int()`, which are modelled exactly on the real value. For example, Python's `round(0.15, 1)` is 0.1 because the float lies below the tie, while the model gives 0.2.
- File and cache I/O are not part of this model:
  - `_load_predictions` and the prediction status and update-time functions;
  - `LocationService`;
  - `export_simulation_to_json` and `export_seird_to_csv`.
  `get_all_predictions` takes the decoded JSON as a parameter.
- `statistics_to_timeseries`, `create_comparison_geojson`, `TimeDelta`, `transform_agent_data_to_geojson` and `transform_simulation_to_api_response` are not part of this model. They are date arithmetic, random colours and response reshaping.
- The offline pipeline (`scripts/*.py`) and the remaining `api/config.py` settings are not part of this model.
- `SimulationStatus`, `SimulationRunRequest` and `SimulationConfigRequest` defaults are not part of this model. They are schema defaults, so the configuration is an explicit value.
- Simulations.SimulationStore.Create: requires a configuration the validator accepts. `create` itself accepts any configuration, but its only caller validates first, and the store invariant (conservation, 1 ≤ initial < population) needs it.
- Simulations.SimulationStore.CreateMockAgents: requires non-negative population and grid sizes. Python's `range` of a negative number is empty, and `random.uniform(0, g)` with g < 0 draws from [g, 0]; neither case is modelled.
- Transform.AgentsToGeoJson: features keep the agent id, state, risk level, days and isolation, but not the longitude/latitude arithmetic or the timestamp. The `type`/`geometry` wrapper keys are not modelled.
- ServiceMetrics.AggregateByLocation: the location id is a generic type with equality rather than a string. Each entry keeps the outputs, the name and the totals, but the Python dict keys of the entries are not modelled.
- ServiceMetrics.EstimateR0, ServiceMetrics.CalculateRt, EpidemicStats.EstimateR0 and EpidemicStats.RtOver: the value computed from `np.log` is not pinned down beyond the stated bounds.
- Transform.CalculateRiskScore: `np.exp` is a parameter, so monotonicity in the growth rate is not stated.
- Ordering.SortDescCorrect: states order and permutation. It does not state the stability of Python's sort among equal keys.
- Text.Lower: lower-cases ASCII letters only. Python's Unicode case mapping is not modelled.
- Inputs that make the Python raise are excluded by `requires`, and no exception path is modelled. The validator rules each of these out for a stored simulation (0 < dt ≤ 1, infectious mean > 0 and population ≥ 10, `api/services/simulation_service.py:44`, `:57`, `:78`), except for the empty histories:
  - EpidemicStats.WindowSteps, EpidemicStats.RtWindow, EpidemicStats.CalculateRt, EpidemicStats.EarlyPhaseEnd, EpidemicStats.EarlyPhase, EpidemicStats.EstimateR0, EpidemicStats.GrowthWindow, EpidemicStats.CalculateGrowthRate: require dt ≠ 0. `window_days / dt` and `20 / dt` raise ZeroDivisionError at dt = 0 (`api/services/stats_utils.py:54`, `:106`, `:239`).
  - ServiceMetrics.RtWindowSize, ServiceMetrics.CalculateRt: require dt ≠ 0, because `RT_WINDOW / dt` raises ZeroDivisionError (`api/services/simulation_service.py:306`).
  - ServiceMetrics.CalculateRt also requires a non-negative infectious period. For a window ending at 0 with a negative period, Python computes `max(0, 1 + (-inf)·ip)` = inf, which a real cannot represent.
  - EpidemicStats.SmoothSeries: requires a window of at least 1 for non-empty data. `np.ones(window) / window` and `np.convolve` raise for a window of 0 or below (`api/services/stats_utils.py:360`).
  - ServiceMetrics.CalculateEpidemicMetrics: requires non-empty recovered and deceased histories, because `r_counts[-1]` raises IndexError. It requires a non-zero population when vaccinating, because the coverage divides by it (ZeroDivisionError). It carries the dt ≠ 0 and infectious-period conditions of `CalculateRt` above.
  - ServiceMetrics.VaccinationCoverage: requires a non-zero population when the rate is positive (ZeroDivisionError, `api/services/simulation_service.py:215`).
  - SimulationModel.StepRt and SimulationModel.PerCapita: require dt ≠ 0 when someone is infectious, because `new_infections / dt` raises ZeroDivisionError (`api/routes/simulations.py:211`).

### Where the code and its documentation disagree (the model follows the code)

- The validator accepts an infection rate of 0 (`api/services/simulation_service.py:52`), and its population minimum is 10 (line 45). See `Validation.ZeroInfectionRateAccepted` and `Validation.PopulationMinimumIsTen`.
- The two doubling-time functions differ:
  - `simulation_service.py` checks the last tick above the growth start.
  - `stats_utils.py` takes the first tick at double.
  - On [10, 12, 30, 13] the first reports none and the second reports 1 day.
- Rt when the window starts at 0 is 1.0 in `simulation_service.py:319` and 0.0 in `stats_utils.py:59-60`.
- Without `stop_when_no_infected` the run loop keeps stepping a Completed simulation. Each such step changes no count (`SimulationModel.CompletedIsAbsorbing`).

## Findings

| source | as written | input that shows it | evidently intended | confidence | as-written member | corrected member |
|---|---|---|---|---|---|---|
| api/routes/danger_zones.py:94-103 | The minimum is checked on the unrounded score, but the zone reports the score rounded to one decimal. | total_predicted 3004, no percent change, min_risk 30.04: the score is 30.04 and the zone is kept, reported as 30.0 < 30.04 | Every returned zone's reported risk_score is ≥ min_risk. | not executed; medium | DangerZones.MinimumRiskMissedAfterRounding | DangerZones.RoundedCandidates |
| api/routes/danger_zones.py:87-103 | The level is classified from the unrounded score, but the zone reports the rounded score. | total_predicted 7496: the score is 74.96, the level is High, and it is reported as 75.0, which is Critical | A zone's level is the level of the score it reports. | not executed; medium | DangerZones.LevelDisagreesWithReportedScore | DangerZones.RoundedCandidates |

=== FILE: agents.dfy ===
/**
 * The agents of a simulation and the five SEIRD compartments they move
 * between: Susceptible, Exposed, Infectious, Recovered and Deceased.
 */
module Agents {

  datatype Compartment = S | E | I | R | D {

    /** The one-letter state string an agent dict carries. */
    function Letter(): (s: string)
      ensures |s| == 1 && s in {"S", "E", "I", "R", "D"}
    {
      match this
      case S => "S"
      case E => "E"
      case I => "I"
      case R => "R"
      case D => "D"
    }
  }

  /** A state string that is not one of the five compartment letters. */
  type OtherState = s: string | s !in {"S", "E", "I", "R", "D"} witness ""

  /** The `state` value of an agent dict: a compartment letter or any other string. */
  datatype Label = Known(c: Compartment) | Other(name: OtherState) {

    /** The state string the label stands for. */
    function Text(): (s: string)
      ensures Known? <==> s in {"S", "E", "I", "R", "D"}
    {
      match this
      case Known(c) => c.Letter()
      case Other(name) => name
    }
  }

  /** The label of a state string: its compartment when it is one of the five letters. */
  function LabelOf(s: string): (l: Label)
    ensures l.Text() == s
    ensures l.Known? <==> s in {"S", "E", "I", "R", "D"}
  {
    if s == "S" then Known(S)
    else if s == "E" then Known(E)
    else if s == "I" then Known(I)
    else if s == "R" then Known(R)
    else if s == "D" then Known(D)
    else Other(s)
  }

  /**
   * Labels and state strings are in one-to-one correspondence, so counting
   * labels counts the state strings the agent dicts carry.
   */
  lemma LabelOfText(l: Label)
    ensures LabelOf(l.Text()) == l
  {
  }

  /** One agent of a simulation, as the store keeps it. */
  datatype Agent = Agent(id: int, x: real, y: real, state: Compartment, daysInState: real, isIsolated: bool)

  /** A number of agents per compartment. */
  datatype Tally = Tally(s: nat, e: nat, i: nat, r: nat, d: nat) {

    function Get(c: Compartment): nat {
      match c
      case S => s
      case E => e
      case I => i
      case R => r
      case D => d
    }

    /** One more agent in `c`, the others as they were. */
    function Inc(c: Compartment): (t: Tally)
      ensures t.Get(c) == Get(c) + 1
      ensures forall o :: o != c ==> t.Get(o) == Get(o)
      ensures t.Total() == Total() + 1
    {
      match c
      case S => this.(s := s + 1)
      case E => this.(e := e + 1)
      case I => this.(i := i + 1)
      case R => this.(r := r + 1)
      case D => this.(d := d + 1)
    }

    function Total(): nat {
      s + e + i + r + d
    }
  }

  const NoAgents := Tally(0, 0, 0, 0, 0)

  /** The compartments in the order the reconciliation searches them for room. */
  const FillOrder: seq<Compartment> := [D, R, I, E, S]

  /** How many of `agents` are in compartment `c`. */
  function CountIn(agents: seq<Agent>, c: Compartment): (n: nat)
    ensures n <= |agents|
  {
    if agents == [] then 0
    else CountIn(agents[..|agents| - 1], c) + (if agents[|agents| - 1].state == c then 1 else 0)
  }

  /** The number of agents in each compartment. */
  function Census(agents: seq<Agent>): Tally {
    Tally(CountIn(agents, S), CountIn(agents, E), CountIn(agents, I), CountIn(agents, R), CountIn(agents, D))
  }

  /** Every agent is in exactly one compartment, so the census accounts for all of them. */
  lemma {:induction false} CensusTotal(agents: seq<Agent>)
    ensures Census(agents).Total() == |agents|
  {
    if agents != [] {
      CensusTotal(agents[..|agents| - 1]);
    }
  }

  /** One more agent adds one to its own compartment of the census. */
  lemma CensusAppend(agents: seq<Agent>, a: Agent)
    ensures Census(agents + [a]) == Census(agents).Inc(a.state)
  {
    assert (agents + [a])[..|agents|] == agents;
  }
}

=== FILE: dangerzones.dfy ===
/**
 * The danger-zone map data: each forecast location with known coordinates
 * becomes a zone whose risk score, clamped to [0, 100], sets its danger
 * level and colour; zones are filtered by a minimum score and, optionally,
 * by excluding low-risk zones, then ordered by score, highest first.
 */
module DangerZones {
  import opened Wrappers
  import opened PyNum
  import opened Ordering
  import opened Predictions

  datatype DangerLevel = Low | Moderate | High | Critical {

    /** The level as the API reports it. */
    function Value(): string {
      match this
      case Low => "low"
      case Moderate => "moderate"
      case High => "high"
      case Critical => "critical"
    }

    /** The position of the level from the least to the most dangerous. */
    function Rank(): nat {
      match this
      case Low => 0
      case Moderate => 1
      case High => 2
      case Critical => 3
    }
  }

  /** The configured score thresholds. */
  const DangerLowThreshold := 25.0
  const DangerModerateThreshold := 50.0
  const DangerHighThreshold := 75.0

  /** The configured colours, one per level. */
  const ColorLow := "#4CAF50"
  const ColorModerate := "#FFC107"
  const ColorHigh := "#FF9800"
  const ColorCritical := "#F44336"

  /** The radius of a zone whose coordinates give none. */
  const DefaultRadius := 40000

  /** The danger band a risk score falls in. */
  function GetDangerLevel(riskScore: real): (l: DangerLevel)
    ensures l == Critical <==> DangerHighThreshold <= riskScore
    ensures l == High <==> DangerModerateThreshold <= riskScore < DangerHighThreshold
    ensures l == Moderate <==> DangerLowThreshold <= riskScore < DangerModerateThreshold
    ensures l == Low <==> riskScore < DangerLowThreshold
  {
    if riskScore >= DangerHighThreshold then Critical
    else if riskScore >= DangerModerateThreshold then High
    else if riskScore >= DangerLowThreshold then Moderate
    else Low
  }

  /** A higher score never gets a less dangerous level. */
  lemma DangerLevelMonotone(a: real, b: real)
    requires a <= b
    ensures GetDangerLevel(a).Rank() <= GetDangerLevel(b).Rank()
  {
  }

  /** The colour shown for a level. */
  function GetDangerColor(level: DangerLevel): (c: string)
    ensures c in {ColorLow, ColorModerate, ColorHigh, ColorCritical}
  {
    match level
    case Low => ColorLow
    case Moderate => ColorModerate
    case High => ColorHigh
    case Critical => ColorCritical
  }

  /** Different levels are shown in different colours, so a colour names its level. */
  lemma DangerColorsDistinct(a: DangerLevel, b: DangerLevel)
    requires a != b
    ensures GetDangerColor(a) != GetDangerColor(b)
  {
  }

  /** A location's map position and, optionally, its zone radius in metres. */
  datatype Coordinates = Coordinates(latitude: real, longitude: real, radius: Option<int>)

  /** The coordinate table the route reads; locations not listed here get no zone. */
  const LocationCoordinates: map<string, Coordinates> := map[
    "NCR" := Coordinates(14.5995, 120.9842, Some(30000)),
    "Calabarzon" := Coordinates(14.1008, 121.0794, Some(50000)),
    "Central Visayas" := Coordinates(10.3157, 123.8854, Some(40000)),
    "Central Luzon" := Coordinates(15.4755, 120.5963, Some(50000)),
    "Western Visayas" := Coordinates(10.7202, 122.5621, Some(45000)),
    "Davao Region" := Coordinates(7.0731, 125.6128, Some(45000)),
    "Northern Mindanao" := Coordinates(8.4542, 124.6319, Some(40000)),
    "Zamboanga Peninsula" := Coordinates(6.9214, 122.0790, Some(40000)),
    "Ilocos Region" := Coordinates(16.0832, 120.6200, Some(45000)),
    "Bicol Region" := Coordinates(13.1391, 123.7438, Some(40000))
  ]

  /** `total_predicted / 100 + (percent_change or 0) * 0.5`, before clamping. */
  function RawRisk(p: LocationPrediction): real {
    p.totalPredicted / 100.0 + p.percentChange.GetOr(0.0) * 0.5
  }

  /** `min(100, max(0, raw))`: the risk score of a location. */
  function ZoneRisk(p: LocationPrediction): (r: real)
    ensures 0.0 <= r <= 100.0
    ensures 0.0 <= RawRisk(p) <= 100.0 ==> r == RawRisk(p)
    ensures RawRisk(p) < 0.0 ==> r == 0.0
    ensures RawRisk(p) > 100.0 ==> r == 100.0
  {
    MinR(100.0, MaxR(0.0, RawRisk(p)))
  }

  datatype DangerZone = DangerZone(
    locationId: string,
    locationName: string,
    latitude: real,
    longitude: real,
    dangerLevel: DangerLevel,
    riskScore: real,
    predictedCases7d: real,
    percentChange: real,
    colorHex: string,
    radiusMeters: int)

  /** The zone of a location: classified by its clamped score, which it reports rounded to one decimal. */
  function MakeZone(p: LocationPrediction, c: Coordinates): (z: DangerZone)
    ensures z.locationId == p.locationId && z.locationName == p.locationName
    ensures z.latitude == c.latitude && z.longitude == c.longitude
    ensures z.dangerLevel == GetDangerLevel(ZoneRisk(p)) && z.colorHex == GetDangerColor(z.dangerLevel)
    ensures z.riskScore == RoundHalfEven(ZoneRisk(p), 10)
    ensures ZoneRisk(p) * 10.0 - 0.5 <= z.riskScore * 10.0 <= ZoneRisk(p) * 10.0 + 0.5
    ensures 0.0 <= z.riskScore <= 100.0
    ensures z.predictedCases7d == p.totalPredicted
    ensures z.percentChange == if p.percentChange.Some? then p.percentChange.value else 0.0
    ensures z.radiusMeters == if c.radius.Some? then c.radius.value else 40000
  {
    var risk := ZoneRisk(p);
    RoundStaysBetween(risk, 10, 0, 1000);
    var level := GetDangerLevel(risk);
    DangerZone(p.locationId, p.locationName, c.latitude, c.longitude, level, RoundHalfEven(risk, 10),
               p.totalPredicted, p.percentChange.GetOr(0.0), GetDangerColor(level), c.radius.GetOr(DefaultRadius))
  }

  /** Whether a location passes the route's three skips: no coordinates, low risk when excluded, below the minimum. */
  predicate Admitted(p: LocationPrediction, coordinates: map<string, Coordinates>, minRisk: real, includeLowRisk: bool) {
    p.locationName in coordinates &&
    !(!includeLowRisk && GetDangerLevel(ZoneRisk(p)) == Low) &&
    !(ZoneRisk(p) < minRisk)
  }

  /** The zones of the admitted locations, in forecast order, before sorting. */
  function Candidates(preds: seq<LocationPrediction>, coordinates: map<string, Coordinates>,
                      minRisk: real, includeLowRisk: bool): (zs: seq<DangerZone>)
    ensures |zs| <= |preds|
  {
    if preds == [] then []
    else
      var front := Candidates(preds[..|preds| - 1], coordinates, minRisk, includeLowRisk);
      var p := preds[|preds| - 1];
      if Admitted(p, coordinates, minRisk, includeLowRisk) then front + [MakeZone(p, coordinates[p.locationName])]
      else front
  }

  /** The sort key of the zones: the reported, rounded `risk_score`. */
  function ByRisk(z: DangerZone): real { z.riskScore }

  /** Every candidate comes from an admitted location, and every admitted location has its zone among them. */
  lemma {:induction false} CandidatesExact(preds: seq<LocationPrediction>, coordinates: map<string, Coordinates>,
                                           minRisk: real, includeLowRisk: bool)
    ensures forall z :: z in Candidates(preds, coordinates, minRisk, includeLowRisk) ==>
              exists k :: 0 <= k < |preds| && Admitted(preds[k], coordinates, minRisk, includeLowRisk) &&
                          z == MakeZone(preds[k], coordinates[preds[k].locationName])
    ensures forall k :: 0 <= k < |preds| && Admitted(preds[k], coordinates, minRisk, includeLowRisk) ==>
              MakeZone(preds[k], coordinates[preds[k].locationName]) in Candidates(preds, coordinates, minRisk, includeLowRisk)
  {
    if preds != [] {
      var n := |preds| - 1;
      CandidatesExact(preds[..n], coordinates, minRisk, includeLowRisk);
      assert forall k :: 0 <= k < n ==> preds[..n][k] == preds[k];
    }
  }

  /**
   * What every zone of an admitted location shows: a location that has
   * coordinates, a level and colour that agree, a reported score in
   * [0, 100] within rounding of the minimum, and no low level when low-risk
   * zones are excluded.
   */
  lemma AdmittedZone(p: LocationPrediction, coordinates: map<string, Coordinates>, minRisk: real, includeLowRisk: bool)
    requires Admitted(p, coordinates, minRisk, includeLowRisk)
    ensures var z := MakeZone(p, coordinates[p.locationName]);
            z.locationName in coordinates &&
            z.colorHex == GetDangerColor(z.dangerLevel) &&
            (!includeLowRisk ==> z.dangerLevel != Low) &&
            0.0 <= z.riskScore <= 100.0 &&
            minRisk * 10.0 - 0.5 <= z.riskScore * 10.0
  {
    RoundStaysBetween(ZoneRisk(p), 10, 0, 1000);
  }

  /**
   * `get_danger_zones`: the zones of the admitted locations, sorted by
   * reported score, highest first.
   */
  method GetDangerZones(preds: seq<LocationPrediction>, coordinates: map<string, Coordinates>,
                        minRisk: real, includeLowRisk: bool) returns (zones: seq<DangerZone>)
    ensures zones == SortDesc(Candidates(preds, coordinates, minRisk, includeLowRisk), ByRisk)
    ensures SortedDesc(zones, ByRisk)
    ensures multiset(zones) == multiset(Candidates(preds, coordinates, minRisk, includeLowRisk))
  {
    zones := [];
    var k := 0;
    while k < |preds|
      invariant 0 <= k <= |preds|
      invariant zones == Candidates(preds[..k], coordinates, minRisk, includeLowRisk)
    {
      var p := preds[k];
      assert preds[..k + 1][..k] == preds[..k];
      if p.locationName in coordinates {
        var risk := ZoneRisk(p);
        var level := GetDangerLevel(risk);
        if !(!includeLowRisk && level == Low) && !(risk < minRisk) {
          zones := zones + [MakeZone(p, coordinates[p.locationName])];
        }
      }
      k := k + 1;
    }
    assert preds[..k] == preds;
    SortDescCorrect(zones, ByRisk);
    zones := SortDesc(zones, ByRisk);
  }

  /** A location reported at 30.0 although the minimum asked for was 30.04. */
  function ScoreJustAboveMinimum(): LocationPrediction {
    LocationPrediction("ncr", "NCR", [], 3004.0, Trends.Stable, None, None)
  }

  /** The minimum is checked before rounding, so a zone can be reported below it. */
  lemma MinimumRiskMissedAfterRounding()
    ensures var zs := Candidates([ScoreJustAboveMinimum()], LocationCoordinates, 30.04, true);
            |zs| == 1 && zs[0].riskScore == 30.0 && zs[0].riskScore < 30.04
  {
    var p := ScoreJustAboveMinimum();
    assert ZoneRisk(p) == 30.04;
    assert (30.04 * 10.0).Floor == 300;
    assert [p][..0] == [];
  }

  /** A location reported at 75.0 yet classified high, whereas 75.0 is a critical score. */
  function ScoreJustBelowCritical(): LocationPrediction {
    LocationPrediction("ncr", "NCR", [], 7496.0, Trends.Stable, None, None)
  }

  /** The level is taken from the unrounded score, so it can disagree with the reported one. */
  lemma LevelDisagreesWithReportedScore()
    ensures var z := MakeZone(ScoreJustBelowCritical(), LocationCoordinates["NCR"]);
            z.riskScore == 75.0 && z.dangerLevel == High && GetDangerLevel(z.riskScore) == Critical
  {
    var p := ScoreJustBelowCritical();
    assert ZoneRisk(p) == 74.96;
    assert (74.96 * 10.0).Floor == 749;
  }

  /** The zone built from the reported score: rounded first, then classified. */
  function RoundedZone(p: LocationPrediction, c: Coordinates): DangerZone {
    var score := RoundHalfEven(ZoneRisk(p), 10);
    var level := GetDangerLevel(score);
    DangerZone(p.locationId, p.locationName, c.latitude, c.longitude, level, score,
               p.totalPredicted, p.percentChange.GetOr(0.0), GetDangerColor(level), c.radius.GetOr(DefaultRadius))
  }

  /** The skips applied to the reported score. */
  predicate AdmittedRounded(p: LocationPrediction, coordinates: map<string, Coordinates>, minRisk: real, includeLowRisk: bool) {
    var score := RoundHalfEven(ZoneRisk(p), 10);
    p.locationName in coordinates &&
    !(!includeLowRisk && GetDangerLevel(score) == Low) &&
    !(score < minRisk)
  }

  /** The zones of the locations admitted on their reported score, in forecast order. */
  function RoundedCandidates(preds: seq<LocationPrediction>, coordinates: map<string, Coordinates>,
                             minRisk: real, includeLowRisk: bool): (zs: seq<DangerZone>)
    ensures |zs| <= |preds|
    ensures forall z :: z in zs ==>
              z.riskScore >= minRisk && z.dangerLevel == GetDangerLevel(z.riskScore) &&
              z.colorHex == GetDangerColor(z.dangerLevel) && (!includeLowRisk ==> z.dangerLevel != Low)
  {
    if preds == [] then []
    else
      var front := RoundedCandidates(preds[..|preds| - 1], coordinates, minRisk, includeLowRisk);
      var p := preds[|preds| - 1];
      if AdmittedRounded(p, coordinates, minRisk, includeLowRisk) then front + [RoundedZone(p, coordinates[p.locationName])]
      else front
  }
}

=== FILE: dicts.dfy ===
/**
 * A Python `dict`: its keys in insertion order and the value stored under
 * each. Assigning to a key already present keeps its position; a new key
 * goes to the end.
 */
module Dicts {
  import opened Wrappers

  datatype Dict<K(==, !new), V> = Dict(keys: seq<K>, values: map<K, V>) {

    /** Keys are listed once each, and exactly the listed keys have values. */
    ghost predicate Valid() {
      (forall i, j :: 0 <= i < j < |keys| ==> keys[i] != keys[j]) &&
      (forall k :: k in values <==> k in keys)
    }

    /** `d.get(k)`. */
    function Get(k: K): Option<V> {
      if k in values then Some(values[k]) else None
    }

    /** `d[k] = v`. */
    function Put(k: K, v: V): (d: Dict<K, V>)
      ensures d.Get(k) == Some(v)
      ensures forall k' :: k' != k ==> d.Get(k') == Get(k')
      ensures Valid() ==> d.Valid()
      ensures k in keys ==> d.keys == keys
      ensures k !in keys ==> d.keys == keys + [k]
    {
      if k in keys then Dict(keys, values[k := v]) else Dict(keys + [k], values[k := v])
    }

    /** Assigning to the same key twice keeps only the second value. */
    lemma PutTwice(k: K, v: V, w: V)
      ensures Put(k, v).Put(k, w) == Put(k, w)
    {
    }

    /** Assigning a key the value it already has changes nothing. */
    lemma PutSame(k: K)
      requires Valid() && k in values
      ensures Put(k, values[k]) == this
    {
    }

    /** `del d[k]`: the key and its value go, the other keys keep their order. */
    function Remove(k: K): (d: Dict<K, V>)
      ensures d.Get(k) == None
      ensures forall k' :: k' != k ==> d.Get(k') == Get(k')
      ensures Valid() ==> d.Valid()
      ensures d.keys == Without(keys, k)
    {
      Dict(Without(keys, k), values - {k})
    }
  }

  /** `s` with every item equal to `x` taken out, the rest in order; no repetitions appear that were not there. */
  function Without<K(==, !new)>(s: seq<K>, x: K): (r: seq<K>)
    ensures forall y :: y in r <==> y in s && y != x
    ensures x !in s ==> r == s
    ensures (forall i, j :: 0 <= i < j < |s| ==> s[i] != s[j]) ==> forall i, j :: 0 <= i < j < |r| ==> r[i] != r[j]
  {
    if s == [] then []
    else
      var front := Without(s[..|s| - 1], x);
      var last := s[|s| - 1];
      assert forall y :: y in s <==> y in s[..|s| - 1] || y == last;
      assert (forall i, j :: 0 <= i < j < |s| ==> s[i] != s[j]) ==> last !in s[..|s| - 1] && last !in front;
      if last == x then front else front + [last]
  }

  function Empty<K(==, !new), V>(): (d: Dict<K, V>)
    ensures d.Valid() && d.keys == []
    ensures forall k :: d.Get(k) == None
  {
    Dict([], map[])
  }

  /** `d[k] = d.get(k, 0) + 1`: one more occurrence of `k`. */
  function Bump<K(==, !new)>(d: Dict<K, nat>, k: K): (r: Dict<K, nat>)
    ensures r.Get(k) == Some(d.Get(k).GetOr(0) + 1)
    ensures forall k' :: k' != k ==> r.Get(k') == d.Get(k')
    ensures d.Valid() ==> r.Valid()
  {
    d.Put(k, d.Get(k).GetOr(0) + 1)
  }

  /** The values stored under the keys `ks`, added up. */
  function SumOver<K(==, !new)>(ks: seq<K>, values: map<K, nat>): nat
    requires forall k :: k in ks ==> k in values
  {
    if ks == [] then 0 else SumOver(ks[..|ks| - 1], values) + values[ks[|ks| - 1]]
  }

  /** `sum(d.values())`. */
  function Total<K(==, !new)>(d: Dict<K, nat>): nat
    requires d.Valid()
  {
    SumOver(d.keys, d.values)
  }

  /** Changing the value of a key that is not listed leaves the sum as it was. */
  lemma {:induction false} SumOverIgnores<K(!new)>(ks: seq<K>, values: map<K, nat>, k: K, v: nat)
    requires forall x :: x in ks ==> x in values
    requires k !in ks
    ensures SumOver(ks, values[k := v]) == SumOver(ks, values)
  {
    if ks != [] {
      assert ks[..|ks| - 1] <= ks;
      SumOverIgnores(ks[..|ks| - 1], values, k, v);
    }
  }

  /** Adding one to a key listed once adds one to the sum. */
  lemma {:induction false} SumOverIncrement<K(!new)>(ks: seq<K>, values: map<K, nat>, k: K)
    requires forall x :: x in ks ==> x in values
    requires forall i, j :: 0 <= i < j < |ks| ==> ks[i] != ks[j]
    requires k in ks
    ensures SumOver(ks, values[k := values[k] + 1]) == SumOver(ks, values) + 1
  {
    var n := |ks| - 1;
    var front := ks[..n];
    assert front <= ks;
    if ks[n] == k {
      assert k !in front;
      SumOverIgnores(front, values, k, values[k] + 1);
    } else {
      assert k in front by {
        var i :| 0 <= i < |ks| && ks[i] == k;
        assert i < n && front[i] == k;
      }
      SumOverIncrement(front, values, k);
    }
  }

  /** Every `Bump` adds exactly one to the sum of the counts. */
  lemma BumpTotal<K(!new)>(d: Dict<K, nat>, k: K)
    requires d.Valid()
    ensures Total(Bump(d, k)) == Total(d) + 1
  {
    var r := Bump(d, k);
    if k in d.keys {
      assert r.keys == d.keys && r.values == d.values[k := d.values[k] + 1];
      SumOverIncrement(d.keys, d.values, k);
    } else {
      assert r.keys == d.keys + [k] && r.values == d.values[k := 1];
      assert r.keys[..|r.keys| - 1] == d.keys;
      SumOverIgnores(d.keys, d.values, k, 1);
    }
  }

  /** How many items of `s` equal `x`. */
  function Occurrences<K(==, !new)>(s: seq<K>, x: K): (r: nat)
    ensures r <= |s|
  {
    if s == [] then 0 else Occurrences(s[..|s| - 1], x) + (if s[|s| - 1] == x then 1 else 0)
  }

  /** One more item adds one occurrence of its own value and none of any other. */
  lemma OccurrencesAppend<K(!new)>(s: seq<K>, x: K, y: K)
    ensures Occurrences(s + [x], y) == Occurrences(s, y) + (if x == y then 1 else 0)
  {
    assert (s + [x])[..|s|] == s;
  }

  /** Counting items one at a time (`d[k] = d.get(k, 0) + 1` in a loop) over `s`. */
  function Counter<K(==, !new)>(s: seq<K>): (d: Dict<K, nat>)
    ensures d.Valid()
  {
    if s == [] then Empty() else Bump(Counter(s[..|s| - 1]), s[|s| - 1])
  }

  /** The counter of the first `n` items of `s`, built the way the counting loop builds it. */
  function CounterUpTo<K(==, !new)>(s: seq<K>, n: nat): (d: Dict<K, nat>)
    requires n <= |s|
  {
    if n == 0 then Empty() else Bump(CounterUpTo(s, n - 1), s[n - 1])
  }

  /** Counting the first `n` items one at a time gives the counter of that prefix. */
  lemma {:induction false} CounterUpToPrefix<K(!new)>(s: seq<K>, n: nat)
    requires n <= |s|
    ensures CounterUpTo(s, n) == Counter(s[..n])
  {
    if n > 0 {
      CounterUpToPrefix(s, n - 1);
      assert s[..n][..n - 1] == s[..n - 1];
    }
  }

  /** The counter holds, for each item value, the number of times it occurs, and lists no value that does not occur. */
  lemma {:induction false} CounterGet<K(!new)>(s: seq<K>, x: K)
    ensures Counter(s).Get(x) == if Occurrences(s, x) == 0 then None else Some(Occurrences(s, x))
  {
    if s != [] {
      var front, last := s[..|s| - 1], s[|s| - 1];
      CounterGet(front, x);
      assert Counter(s) == Bump(Counter(front), last);
      assert Occurrences(s, x) == Occurrences(front, x) + (if last == x then 1 else 0);
    }
  }

  /** The counts of a counter add up to the number of items counted. */
  lemma {:induction false} CounterTotal<K(!new)>(s: seq<K>)
    ensures Total(Counter(s)) == |s|
  {
    if s != [] {
      CounterTotal(s[..|s| - 1]);
      BumpTotal(Counter(s[..|s| - 1]), s[|s| - 1]);
    }
  }
}

=== FILE: epidemicstats.dfy ===
/**
 * `EpidemicStats`: the stand-alone epidemic statistics (Rt, R0, doubling
 * time, attack and case fatality rates, growth rate, peak, duration, trend,
 * smoothing and secondary cases).
 *
 * `np.log` is the parameter `ln`; the properties that need a value of it
 * say which one (`ln(1) == 0`) in their preconditions.
 */
module EpidemicStats {
  import opened Wrappers
  import opened PyNum
  import opened Trends
  import opened Series

  /** `DEFAULT_RT_WINDOW`, in days. */
  const DefaultRtWindow := 7.0
  /** `MIN_CASES_FOR_STATS`: counts at or below this are too small to measure growth from. */
  const MinCasesForStats := 5
  /** `GROWTH_RATE_WINDOW`, in days. */
  const GrowthRateWindow := 3.0

  /** `max(int(window_days / time_step), 2)`: a window of at least two ticks. */
  function WindowSteps(windowDays: real, dt: real): (r: nat)
    requires dt != 0.0
    ensures r >= 2
    ensures r > 2 ==> r as real <= windowDays / dt
  {
    var w := Trunc(windowDays / dt);
    if w > 2 then w else 2
  }

  // ---------------------------------------------------------------------------
  // Rt
  // ---------------------------------------------------------------------------

  /** The recent counts Rt is measured over. */
  function RtWindow(infected: seq<int>, dt: real, windowDays: Option<real>): (w: seq<int>)
    requires dt != 0.0
    ensures |infected| >= 2 ==> |w| >= 2
    ensures |w| <= |infected| && w == infected[|infected| - |w|..]
  {
    Last(infected, WindowSteps(windowDays.GetOr(DefaultRtWindow), dt))
  }

  /**
   * `calculate_rt`: `max(0, 1 + ln(last/first) / time_span * infectious_period)`
   * over the recent window, with 0.0 for a series too short or a window
   * starting at no infections, and 1.0 when the growth cannot be measured.
   */
  function CalculateRt(infected: seq<int>, infectiousPeriod: real, dt: real, windowDays: Option<real>,
                       ln: real -> real): (r: real)
    requires |infected| >= 2 ==> dt != 0.0
    ensures |infected| < 2 ==> r == 0.0
    ensures |infected| >= 2 ==> r == RtOver(RtWindow(infected, dt, windowDays), infectiousPeriod, dt, ln)
  {
    if |infected| < 2 then 0.0
    else RtOver(RtWindow(infected, dt, windowDays), infectiousPeriod, dt, ln)
  }

  /**
   * Rt over a window of recent counts: 0.0 for a window starting at no
   * infections, 1.0 when the growth cannot be measured (a window ending at
   * no infections, or a negative time step), and otherwise
   * `max(0, 1 + ln(last/first) / time_span * infectious_period)`.
   */
  function RtOver(recent: seq<int>, infectiousPeriod: real, dt: real, ln: real -> real): (r: real)
    ensures |recent| < 2 || recent[0] <= 0 ==> r == 0.0
    ensures |recent| >= 2 && recent[0] > 0 && (dt <= 0.0 || recent[|recent| - 1] <= 0) ==> r == 1.0
    ensures r >= 0.0
  {
    if |recent| < 2 || recent[0] <= 0 then 0.0
    else
      var growthFactor := recent[|recent| - 1] as real / recent[0] as real;
      var timeSpan := Elapsed(0, |recent| - 1, dt);
      if timeSpan > 0.0 && growthFactor > 0.0 then
        MaxR(0.0, 1.0 + ln(growthFactor) / timeSpan * infectiousPeriod)
      else 1.0
  }

  /** A window that ends where it started, at a positive count, gives Rt = 1. */
  lemma FlatWindowGivesRtOne(w: seq<int>, infectiousPeriod: real, dt: real, ln: real -> real)
    requires ln(1.0) == 0.0
    requires |w| >= 2 && w[0] > 0 && w[|w| - 1] == w[0]
    ensures RtOver(w, infectiousPeriod, dt, ln) == 1.0
  {
    assert w[|w| - 1] as real / w[0] as real == 1.0;
    var timeSpan := Elapsed(0, |w| - 1, dt);
    if timeSpan > 0.0 {
      assert ln(1.0) / timeSpan == 0.0;
      assert ln(1.0) / timeSpan * infectiousPeriod == 0.0;
    }
  }

  // ---------------------------------------------------------------------------
  // R0
  // ---------------------------------------------------------------------------

  /** `max(min(n // 10, int(20 / time_step)), 5)`: how many leading ticks form the early phase. */
  function EarlyPhaseEnd(n: nat, dt: real): (r: nat)
    requires dt != 0.0
    ensures r >= 5
    ensures r > 5 ==> r <= n / 10 && r as real <= 20.0 / dt
  {
    var cap := Trunc(20.0 / dt);
    var m := if cap < n / 10 then cap else n / 10;
    if m > 5 then m else 5
  }

  /** `infected[:early_phase_end]`. */
  function EarlyPhase(infected: seq<int>, dt: real): (r: seq<int>)
    requires dt != 0.0
    ensures |r| <= |infected| && r == infected[..|r|]
    ensures |r| == if |infected| < EarlyPhaseEnd(|infected|, dt) then |infected| else EarlyPhaseEnd(|infected|, dt)
  {
    var e := EarlyPhaseEnd(|infected|, dt);
    if |infected| < e then infected else infected[..e]
  }

  /**
   * `estimate_r0`: from the first and last early-phase counts above
   * `MIN_CASES_FOR_STATS`, `1 + ln(end/start) / time_diff * infectious_period`
   * bounded to [0.5, 10]; 0.0 for a series too short or no population, and
   * 1.0 when fewer than two early counts are large enough.
   */
  function EstimateR0(infected: seq<int>, infectiousPeriod: real, dt: real, population: int,
                      ln: real -> real): (r: real)
    requires |infected| >= 2 && population != 0 ==> dt != 0.0
    ensures r == 0.0 <==> |infected| < 2 || population == 0
    ensures |infected| >= 2 && population != 0 ==> 0.5 <= r <= 10.0
    ensures |infected| >= 2 && population != 0 && |IndicesAbove(EarlyPhase(infected, dt), MinCasesForStats)| < 2
            ==> r == 1.0
  {
    if |infected| < 2 || population == 0 then 0.0
    else
      var early := EarlyPhase(infected, dt);
      var valid := IndicesAbove(early, MinCasesForStats);
      if |valid| < 2 then 1.0
      else
        var iStart := early[valid[0]];
        var iEnd := early[valid[|valid| - 1]];
        var timeDiff := Elapsed(valid[0], valid[|valid| - 1], dt);
        if timeDiff > 0.0 && iStart > 0 then
          MaxR(0.5, MinR(1.0 + ln(iEnd as real / iStart as real) / timeDiff * infectiousPeriod, 10.0))
        else 1.0
  }

  /**
   * An early phase whose large counts are all equal gives R0 = 1: the
   * growth between its first and last large count is nil.
   */
  lemma FlatEarlyPhaseGivesR0One(infected: seq<int>, infectiousPeriod: real, dt: real, population: int,
                                 ln: real -> real, c: int)
    requires ln(1.0) == 0.0
    requires |infected| >= 2 && population != 0 && dt != 0.0
    requires forall k :: 0 <= k < |EarlyPhase(infected, dt)| && EarlyPhase(infected, dt)[k] > MinCasesForStats
               ==> EarlyPhase(infected, dt)[k] == c
    ensures EstimateR0(infected, infectiousPeriod, dt, population, ln) == 1.0
  {
    var early := EarlyPhase(infected, dt);
    var valid := IndicesAbove(early, MinCasesForStats);
    if |valid| >= 2 {
      assert early[valid[0]] == c && early[valid[|valid| - 1]] == c;
      assert c as real / c as real == 1.0;
    }
  }

  // ---------------------------------------------------------------------------
  // Doubling time
  // ---------------------------------------------------------------------------

  /** `np.where(a[i:] >= t)[0][0] + i`: the first tick from `i` on whose count reaches `t`. */
  function FirstReaching(a: seq<int>, i: nat, t: int): (r: Option<nat>)
    requires i <= |a|
    decreases |a| - i
    ensures r.Some? ==> i <= r.value < |a| && a[r.value] >= t && forall k :: i <= k < r.value ==> a[k] < t
    ensures r.None? <==> forall k :: i <= k < |a| ==> a[k] < t
  {
    if i == |a| then None
    else if a[i] >= t then Some(i)
    else FirstReaching(a, i + 1, t)
  }

  /** Tick `i` continues a rise above `MIN_CASES_FOR_STATS`: `a[i] > a[i-1] > 5`. */
  predicate GrowthStart(a: seq<int>, i: nat)
    requires 1 <= i < |a|
  {
    a[i] > a[i - 1] > MinCasesForStats
  }

  /** What the search reports when it starts scanning at tick `i`. */
  function DoublingFrom(a: seq<int>, dt: real, i: nat): Option<real>
    requires 1 <= i <= |a|
    decreases |a| - i
  {
    if i == |a| then None
    else if GrowthStart(a, i) && FirstReaching(a, i, 2 * a[i]).Some? then
      Some(Elapsed(i, FirstReaching(a, i, 2 * a[i]).value, dt))
    else DoublingFrom(a, dt, i + 1)
  }

  /** The value `calculate_doubling_time` returns. */
  function DoublingTime(a: seq<int>, dt: real): Option<real> {
    if |a| < 2 then None else DoublingFrom(a, dt, 1)
  }

  /** `calculate_doubling_time`: the scan over ticks with an early return. */
  method CalculateDoublingTime(a: seq<int>, dt: real) returns (r: Option<real>)
    ensures r == DoublingTime(a, dt)
  {
    if |a| < 2 {
      return None;
    }
    var i := 1;
    while i < |a|
      invariant 1 <= i <= |a|
      invariant DoublingFrom(a, dt, 1) == DoublingFrom(a, dt, i)
    {
      if a[i] > a[i - 1] > MinCasesForStats {
        var reached := FirstReaching(a, i, 2 * a[i]);
        if reached.Some? {
          return Some(Elapsed(i, reached.value, dt));
        }
      }
      i := i + 1;
    }
    return None;
  }

  /** Tick `i` is a growth start whose count is later doubled. */
  predicate Doubled(a: seq<int>, i: nat)
    requires 1 <= i < |a|
  {
    GrowthStart(a, i) && exists j :: i <= j < |a| && a[j] >= 2 * a[i]
  }

  /** A search from `i0` reports nothing exactly when no growth start from `i0` on is later doubled. */
  lemma {:induction false} DoublingFromNoneIff(a: seq<int>, dt: real, i0: nat)
    requires 1 <= i0 <= |a|
    decreases |a| - i0
    ensures DoublingFrom(a, dt, i0).None? <==> forall i :: i0 <= i < |a| ==> !Doubled(a, i)
  {
    if i0 < |a| {
      DoublingFromNoneIff(a, dt, i0 + 1);
      if Doubled(a, i0) {
        var j :| i0 <= j < |a| && a[j] >= 2 * a[i0];
        assert FirstReaching(a, i0, 2 * a[i0]).Some?;
      }
    }
  }

  /**
   * A search from `i0` that reports a time found it at the first growth start
   * `i` that is later doubled, and the first tick `j` holding twice its count.
   */
  lemma {:induction false} DoublingFromWitness(a: seq<int>, dt: real, i0: nat) returns (i: nat, j: nat)
    requires 1 <= i0 <= |a|
    requires DoublingFrom(a, dt, i0).Some?
    decreases |a| - i0
    ensures i0 <= i < j < |a| && Doubled(a, i)
    ensures forall i' :: i0 <= i' < i ==> !Doubled(a, i')
    ensures a[j] >= 2 * a[i] && forall k :: i <= k < j ==> a[k] < 2 * a[i]
    ensures DoublingFrom(a, dt, i0) == Some(Elapsed(i, j, dt))
  {
    if GrowthStart(a, i0) && FirstReaching(a, i0, 2 * a[i0]).Some? {
      i, j := i0, FirstReaching(a, i0, 2 * a[i0]).value;
      assert a[i0] < 2 * a[i0];
    } else {
      assert !Doubled(a, i0);
      i, j := DoublingFromWitness(a, dt, i0 + 1);
    }
  }

  /**
   * `calculate_doubling_time` reports nothing exactly when no tick rises above
   * `MIN_CASES_FOR_STATS` and is later doubled; otherwise it reports the time
   * from the first such tick to the first tick holding twice its count.
   */
  lemma DoublingTimeCharacterised(a: seq<int>, dt: real)
    ensures DoublingTime(a, dt).None? <==> forall i :: 1 <= i < |a| ==> !Doubled(a, i)
    ensures DoublingTime(a, dt).Some? ==>
              exists i, j :: 1 <= i < j < |a| && Doubled(a, i) && (forall i' :: 1 <= i' < i ==> !Doubled(a, i'))
                             && a[j] >= 2 * a[i] && (forall k :: i <= k < j ==> a[k] < 2 * a[i])
                             && DoublingTime(a, dt) == Some(Elapsed(i, j, dt))
  {
    if |a| >= 2 {
      DoublingFromNoneIff(a, dt, 1);
      if DoublingTime(a, dt).Some? {
        var i, j := DoublingFromWitness(a, dt, 1);
      }
    }
  }

  /** From 12 (tick 1) the count reaches 30 >= 24 at tick 2: one day at `dt = 1`, although it falls back to 13 afterwards. */
  lemma DoublingOfBriefSurge()
    ensures DoublingTime([10, 12, 30, 13], 1.0) == Some(1.0)
  {
    var a := [10, 12, 30, 13];
    assert GrowthStart(a, 1);
    assert FirstReaching(a, 2, 24) == Some(2);
    assert FirstReaching(a, 1, 24) == Some(2);
  }

  // ---------------------------------------------------------------------------
  // Rates
  // ---------------------------------------------------------------------------

  /**
   * `calculate_attack_rate`: the share of the initial susceptibles that left
   * the susceptible state, in percent, clamped to [0, 100]. The deceased
   * count does not enter the result.
   */
  function CalculateAttackRate(susceptibleStart: int, susceptibleEnd: int, deceased: int): (r: real)
    ensures susceptibleStart == 0 ==> r == 0.0
    ensures 0.0 <= r <= 100.0
    ensures 0 <= susceptibleEnd <= susceptibleStart && susceptibleStart > 0 ==>
              r * susceptibleStart as real == (susceptibleStart - susceptibleEnd) as real * 100.0
  {
    if susceptibleStart == 0 then 0.0
    else
      var attackRate := (susceptibleStart - susceptibleEnd) as real / susceptibleStart as real * 100.0;
      assert 0 <= susceptibleEnd <= susceptibleStart && susceptibleStart > 0 ==> 0.0 <= attackRate <= 100.0 by {
        if 0 <= susceptibleEnd <= susceptibleStart && susceptibleStart > 0 {
          var p := (susceptibleStart - susceptibleEnd) as real;
          var q := susceptibleStart as real;
          assert p / q <= 1.0;
        }
      }
      MinR(100.0, MaxR(0.0, attackRate))
  }

  /** Fewer susceptibles at the end never lowers the attack rate. */
  lemma AttackRateGrowsAsSusceptiblesFall(s0: int, s1: int, s1': int, d: int)
    requires s0 > 0 && s1' <= s1
    ensures CalculateAttackRate(s0, s1, d) <= CalculateAttackRate(s0, s1', d)
  {
    var q := s0 as real;
    var x := (s0 - s1) as real;
    var y := (s0 - s1') as real;
    assert x <= y;
    assert x / q <= y / q;
  }

  /**
   * `calculate_case_fatality_rate`: deaths as a share of the resolved
   * infections, in percent, clamped to [0, 100].
   */
  function CalculateCaseFatalityRate(totalInfected: int, totalDeceased: int): (r: real)
    ensures totalInfected == 0 ==> r == 0.0
    ensures 0.0 <= r <= 100.0
    ensures 0 <= totalDeceased <= totalInfected && totalInfected > 0 ==>
              r * totalInfected as real == totalDeceased as real * 100.0
  {
    if totalInfected == 0 then 0.0
    else
      var cfr := totalDeceased as real / totalInfected as real * 100.0;
      assert 0 <= totalDeceased <= totalInfected && totalInfected > 0 ==> 0.0 <= cfr <= 100.0 by {
        if 0 <= totalDeceased <= totalInfected && totalInfected > 0 {
          var p := totalDeceased as real;
          var q := totalInfected as real;
          assert p / q <= 1.0;
        }
      }
      MinR(100.0, MaxR(0.0, cfr))
  }

  // ---------------------------------------------------------------------------
  // Growth rate
  // ---------------------------------------------------------------------------

  /** The recent counts the growth rate compares. */
  function GrowthWindow(infected: seq<int>, dt: real, windowDays: Option<real>): (w: seq<int>)
    requires dt != 0.0
    ensures |infected| >= 2 ==> |w| >= 2
    ensures |w| <= |infected| && w == infected[|infected| - |w|..]
  {
    Last(infected, WindowSteps(windowDays.GetOr(GrowthRateWindow), dt))
  }

  /**
   * `calculate_growth_rate`: the relative change `(last - first) / first`
   * over the recent window; a window starting at zero reports 1.0 if it ends
   * above zero and 0.0 otherwise.
   */
  function CalculateGrowthRate(infected: seq<int>, dt: real, windowDays: Option<real>): (r: real)
    requires |infected| >= 2 ==> dt != 0.0
    ensures |infected| < 2 ==> r == 0.0
    ensures |infected| >= 2 ==> r == GrowthOver(GrowthWindow(infected, dt, windowDays))
  {
    if |infected| < 2 then 0.0 else GrowthOver(GrowthWindow(infected, dt, windowDays))
  }

  /**
   * The growth rate over a window of recent counts: the relative change from
   * its first to its last count; a window starting at zero reports 1.0 if it
   * ends above zero and 0.0 otherwise.
   */
  function GrowthOver(recent: seq<int>): (r: real)
    ensures |recent| < 2 ==> r == 0.0
    ensures |recent| >= 2 && recent[0] == 0 ==> r == if recent[|recent| - 1] > 0 then 1.0 else 0.0
    ensures |recent| >= 2 && recent[0] != 0 ==> r == RelativeChange(recent[0], recent[|recent| - 1])
    ensures |recent| >= 2 && recent[0] > 0 && recent[|recent| - 1] >= 0 ==>
              -1.0 <= r && (r >= 0.0 <==> recent[|recent| - 1] >= recent[0])
  {
    if |recent| < 2 then 0.0
    else if recent[0] == 0 then (if recent[|recent| - 1] > 0 then 1.0 else 0.0)
    else RelativeChange(recent[0], recent[|recent| - 1])
  }

  /** `(last - first) / first`. */
  function RelativeChange(first: int, last: int): (r: real)
    requires first != 0
    ensures r * first as real == (last - first) as real
    ensures first > 0 && last >= 0 ==> -1.0 <= r && (r >= 0.0 <==> last >= first)
  {
    var rise := (last - first) as real;
    assert rise / first as real * first as real == rise;
    rise / first as real
  }

  // ---------------------------------------------------------------------------
  // Peak and duration
  // ---------------------------------------------------------------------------

  /** `calculate_peak_metrics`: the peak count and the day of its first occurrence. */
  function CalculatePeakMetrics(infected: seq<int>, dt: real): (r: (int, int))
    ensures infected == [] ==> r == (0, 0)
    ensures infected != [] ==>
              && (forall k :: 0 <= k < |infected| ==> infected[k] <= r.0)
              && exists p :: 0 <= p < |infected| && infected[p] == r.0 && (forall k :: 0 <= k < p ==> infected[k] < r.0)
                             && r.1 == DaysFor(p, dt)
    ensures infected != [] && dt >= 0.0 ==> 0 <= r.1 <= DaysFor(|infected| - 1, dt)
  {
    if infected == [] then (0, 0)
    else
      ArgMaxHoldsMax(infected);
      (MaxOf(infected), PeakDay(infected, dt))
  }

  /** `calculate_epidemic_duration`: the days on which the count is at least `min_threshold`. */
  function CalculateEpidemicDuration(infected: seq<int>, dt: real, minThreshold: int): (r: int)
    ensures infected == [] ==> r == 0
    ensures dt >= 0.0 ==> 0 <= r <= DaysFor(|infected|, dt)
    ensures r == ActiveDays(infected, minThreshold, dt)
  {
    if infected == [] then 0 else ActiveDays(infected, minThreshold, dt)
  }

  // ---------------------------------------------------------------------------
  // Trend
  // ---------------------------------------------------------------------------

  /** `metrics_series[-min(5, len):]`. */
  function RecentValues(series: seq<real>): (w: seq<real>)
    requires |series| >= 2
    ensures 2 <= |w| <= 5 && |w| <= |series| && w == series[|series| - |w|..]
  {
    Last(series, 5)
  }

  /** What the recent mean is compared with: the mean of the five values before them, or the first recent value. */
  function Baseline(series: seq<real>): real
    requires |series| >= 2
  {
    if |series| >= 10 then Mean(series[|series| - 10..|series| - 5]) else RecentValues(series)[0]
  }

  /**
   * `calculate_trend`: the mean of the recent values against the baseline;
   * a change beyond `threshold` either way is a trend.
   */
  function CalculateTrend(series: seq<real>, threshold: real): (t: Trend)
    ensures |series| < 2 ==> t == Stable
    ensures |series| >= 2 ==>
              (t == Increasing <==> Mean(RecentValues(series)) - Baseline(series) > threshold)
    ensures |series| >= 2 && threshold >= 0.0 ==>
              (t == Decreasing <==> Mean(RecentValues(series)) - Baseline(series) < -threshold)
  {
    if |series| < 2 then Stable
    else
      var change := Mean(RecentValues(series)) - Baseline(series);
      if change > threshold then Increasing
      else if change < -threshold then Decreasing
      else Stable
  }

  /** A constant series has no trend. */
  lemma ConstantSeriesIsStable(series: seq<real>, c: real, threshold: real)
    requires threshold >= 0.0
    requires forall k :: 0 <= k < |series| ==> series[k] == c
    ensures CalculateTrend(series, threshold) == Stable
  {
    if |series| >= 2 {
      var w := RecentValues(series);
      MeanAtMost(w, c);
      MeanAtLeast(w, c);
      if |series| >= 10 {
        var prev := series[|series| - 10..|series| - 5];
        MeanAtMost(prev, c);
        MeanAtLeast(prev, c);
      }
    }
  }

  /**
   * A long series whose last five values all lie above its five values before
   * by more than `threshold` is increasing.
   */
  lemma StepUpIsIncreasing(series: seq<real>, lo: real, hi: real, threshold: real)
    requires |series| >= 10
    requires forall k :: |series| - 10 <= k < |series| - 5 ==> series[k] <= lo
    requires forall k :: |series| - 5 <= k < |series| ==> hi <= series[k]
    requires hi - lo > threshold
    ensures CalculateTrend(series, threshold) == Increasing
  {
    var w := RecentValues(series);
    var prev := series[|series| - 10..|series| - 5];
    MeanAtLeast(w, hi);
    MeanAtMost(prev, lo);
  }

  /**
   * A long series whose last five values all lie below its five values before
   * by more than a non-negative `threshold` is decreasing.
   */
  lemma StepDownIsDecreasing(series: seq<real>, lo: real, hi: real, threshold: real)
    requires |series| >= 10 && threshold >= 0.0
    requires forall k :: |series| - 10 <= k < |series| - 5 ==> hi <= series[k]
    requires forall k :: |series| - 5 <= k < |series| ==> series[k] <= lo
    requires hi - lo > threshold
    ensures CalculateTrend(series, threshold) == Decreasing
  {
    var w := RecentValues(series);
    var prev := series[|series| - 10..|series| - 5];
    MeanAtMost(w, lo);
    MeanAtLeast(prev, hi);
  }

  // ---------------------------------------------------------------------------
  // Smoothing and secondary cases
  // ---------------------------------------------------------------------------

  /** The window `smooth_series` uses: `window`, cut down to the series length. */
  function SmoothingWidth(n: nat, window: int): (w: int)
    ensures w <= n
    ensures n >= 1 && window >= 1 ==> w >= 1
  {
    if window > n then n else window
  }

  /**
   * `smooth_series`: the moving average over `w` values (`np.convolve` in
   * `valid` mode), preceded by the first `w - 1` raw values so that the
   * length is kept. A non-empty series needs a window of at least 1.
   */
  function SmoothSeries(data: seq<real>, window: int): (r: seq<real>)
    requires |data| > 0 ==> window >= 1
    ensures |r| == |data|
    ensures forall k :: 0 <= k < SmoothingWidth(|data|, window) - 1 ==> r[k] == data[k]
    ensures forall k :: 0 <= k < |data| && SmoothingWidth(|data|, window) - 1 <= k ==>
              r[k] == TrailingMean(data, k, SmoothingWidth(|data|, window))
  {
    if data == [] then []
    else
      var w := SmoothingWidth(|data|, window);
      var smoothed := seq(|data| - w + 1, j requires 0 <= j < |data| - w + 1 => TrailingMean(data, j + w - 1, w));
      var r := data[..w - 1] + smoothed;
      assert forall k :: 0 <= k < |data| && w - 1 <= k ==> r[k] == smoothed[k - (w - 1)];
      r
  }

  /** The mean of the `w` values ending at index `k`. */
  function TrailingMean(data: seq<real>, k: nat, w: nat): real
    requires 1 <= w <= k + 1 <= |data|
  {
    Mean(data[k + 1 - w..k + 1])
  }

  /** A trailing mean lies within any bounds of the data. */
  lemma TrailingMeanBetween(data: seq<real>, k: nat, w: nat, lo: real, hi: real)
    requires 1 <= w <= k + 1 <= |data|
    requires forall m :: 0 <= m < |data| ==> lo <= data[m] <= hi
    ensures lo <= TrailingMean(data, k, w) <= hi
  {
    var part := data[k + 1 - w..k + 1];
    assert forall m :: 0 <= m < |part| ==> part[m] == data[k + 1 - w + m];
    MeanAtMost(part, hi);
    MeanAtLeast(part, lo);
  }

  /** Smoothing keeps every value within any bounds of the data. */
  lemma SmoothWithinBounds(data: seq<real>, window: int, lo: real, hi: real)
    requires |data| > 0 ==> window >= 1
    requires forall k :: 0 <= k < |data| ==> lo <= data[k] <= hi
    ensures forall k :: 0 <= k < |data| ==> lo <= SmoothSeries(data, window)[k] <= hi
  {
    var w := SmoothingWidth(|data|, window);
    forall k | 0 <= k < |data| && w - 1 <= k
      ensures lo <= TrailingMean(data, k, w) <= hi
    {
      TrailingMeanBetween(data, k, w, lo, hi);
    }
  }

  /** A constant series is its own smoothing. */
  lemma SmoothConstant(data: seq<real>, window: int, c: real)
    requires |data| > 0 ==> window >= 1
    requires forall k :: 0 <= k < |data| ==> data[k] == c
    ensures SmoothSeries(data, window) == data
  {
    SmoothWithinBounds(data, window, c, c);
  }

  /**
   * `estimate_secondary_cases`: each count times `contact_rate *
   * infectious_period`, divided by `max(max count, 1)`.
   */
  function EstimateSecondaryCases(infected: seq<int>, infectiousPeriod: real, contactRate: real): (r: seq<real>)
    ensures |r| == |infected|
    ensures |infected| > 0 ==>
              forall k :: 0 <= k < |r| ==>
                r[k] == Share(infected[k], contactRate * infectiousPeriod, PeakOrOne(infected))
  {
    if infected == [] then []
    else
      var total := contactRate * infectiousPeriod;
      var d := PeakOrOne(infected);
      seq(|infected|, k requires 0 <= k < |infected| => Share(infected[k], total, d))
  }

  /** `count * total / d`: one tick's part of the contact total. */
  function Share(count: int, total: real, d: real): real
    requires d != 0.0
  {
    count as real * total / d
  }

  /** `max(np.max(infected), 1)`. */
  function PeakOrOne(infected: seq<int>): (d: real)
    requires |infected| > 0
    ensures d >= 1.0 && d >= MaxOf(infected) as real
    ensures MaxOf(infected) >= 1 ==> d == MaxOf(infected) as real
  {
    MaxR(MaxOf(infected) as real, 1.0)
  }

  /**
   * For non-negative counts and a non-negative contact total, every estimate
   * lies between 0 and `contact_rate * infectious_period`.
   */
  lemma SecondaryCasesBounded(infected: seq<int>, infectiousPeriod: real, contactRate: real)
    requires contactRate * infectiousPeriod >= 0.0
    requires forall k :: 0 <= k < |infected| ==> infected[k] >= 0
    ensures var r := EstimateSecondaryCases(infected, infectiousPeriod, contactRate);
            forall k :: 0 <= k < |r| ==> 0.0 <= r[k] <= contactRate * infectiousPeriod
  {
    var r := EstimateSecondaryCases(infected, infectiousPeriod, contactRate);
    forall k | 0 <= k < |r|
      ensures 0.0 <= r[k] <= contactRate * infectiousPeriod
    {
      SharedAtMost(infected[k], PeakOrOne(infected), contactRate * infectiousPeriod);
    }
  }

  /** When the peak count is at least 1, the peak tick gets the whole contact total. */
  lemma SecondaryCasesPeak(infected: seq<int>, infectiousPeriod: real, contactRate: real)
    requires |infected| > 0 && MaxOf(infected) >= 1
    ensures EstimateSecondaryCases(infected, infectiousPeriod, contactRate)[ArgMax(infected)]
            == contactRate * infectiousPeriod
  {
    ArgMaxHoldsMax(infected);
    SelfShare(infected[ArgMax(infected)], contactRate * infectiousPeriod);
  }

  /** A share lies in [0, total] for `0 <= count <= d`. */
  lemma SharedAtMost(count: int, d: real, total: real)
    requires 0.0 <= count as real <= d && d > 0.0 && total >= 0.0
    ensures 0.0 <= Share(count, total, d) <= total
  {
    var x := count as real;
    var q := x / d;
    assert 0.0 <= q <= 1.0;
    assert x * total / d == q * total;
    assert q * total <= 1.0 * total;
  }

  /** A positive count's share of itself is the whole total. */
  lemma SelfShare(m: int, total: real)
    requires m > 0
    ensures Share(m, total, m as real) == total
  {
  }
}

=== FILE: ordering.dfy ===
/**
 * Python's `sorted(xs, key=k, reverse=True)` and `list.sort(key=k, reverse=True)`:
 * a stable sort into non-increasing key order, given here as an insertion sort.
 */
module Ordering {

  predicate SortedDesc<T>(s: seq<T>, key: T -> real) {
    forall i, j :: 0 <= i < j < |s| ==> key(s[i]) >= key(s[j])
  }

  /**
   * Places `x` in front of the first item whose key does not exceed its own,
   * so that `x` stays ahead of the equal-keyed items that followed it.
   */
  function InsertDesc<T>(x: T, s: seq<T>, key: T -> real): seq<T> {
    if s == [] || key(x) >= key(s[0]) then [x] + s
    else [s[0]] + InsertDesc(x, s[1..], key)
  }

  function SortDesc<T>(s: seq<T>, key: T -> real): seq<T> {
    if s == [] then [] else InsertDesc(s[0], SortDesc(s[1..], key), key)
  }

  lemma {:induction false} InsertDescFacts<T>(x: T, s: seq<T>, key: T -> real)
    requires SortedDesc(s, key)
    ensures SortedDesc(InsertDesc(x, s, key), key)
    ensures multiset(InsertDesc(x, s, key)) == multiset(s) + multiset{x}
    ensures |InsertDesc(x, s, key)| == |s| + 1
  {
    if s == [] || key(x) >= key(s[0]) {
      assert InsertDesc(x, s, key) == [x] + s;
    } else {
      var rest := InsertDesc(x, s[1..], key);
      InsertDescFacts(x, s[1..], key);
      assert InsertDesc(x, s, key) == [s[0]] + rest;
      assert s == [s[0]] + s[1..];
      forall j | 0 <= j < |rest|
        ensures key(s[0]) >= key(rest[j])
      {
        assert rest[j] in multiset(s[1..]) + multiset{x};
        if rest[j] in multiset(s[1..]) {
          var m :| 0 <= m < |s[1..]| && s[1..][m] == rest[j];
          assert s[m + 1] == rest[j];
        }
      }
    }
  }

  /** The result of the sort is in non-increasing key order and holds exactly the input items. */
  lemma {:induction false} SortDescCorrect<T>(s: seq<T>, key: T -> real)
    ensures SortedDesc(SortDesc(s, key), key)
    ensures multiset(SortDesc(s, key)) == multiset(s)
    ensures |SortDesc(s, key)| == |s|
  {
    if s != [] {
      SortDescCorrect(s[1..], key);
      InsertDescFacts(s[0], SortDesc(s[1..], key), key);
      assert s == [s[0]] + s[1..];
    }
  }

  /** Cut anywhere, a sorted sequence keeps no item behind that outranks an item in front. */
  lemma SplitSortedDesc<T>(s: seq<T>, key: T -> real, n: nat)
    requires SortedDesc(s, key) && n <= |s|
    ensures forall t, u :: t in s[..n] && u in s[n..] ==> key(t) >= key(u)
  {
    forall t, u | t in s[..n] && u in s[n..]
      ensures key(t) >= key(u)
    {
      var i :| 0 <= i < n && s[..n][i] == t;
      var j :| 0 <= j < |s| - n && s[n..][j] == u;
      assert s[i] == t && s[n + j] == u;
    }
  }
}

=== FILE: predictions.dfy ===
/**
 * The prediction service: per-location seven-day forecasts read from the
 * forecast file, their totals and trend labels, lookup by location, the
 * summary over all locations and the top-risk ranking.
 */
module Predictions {
  import opened Wrappers
  import opened PyNum
  import opened Text
  import opened Trends
  import opened Ordering
  import opened Dicts

  /** One forecast day: `{"date", "predicted_cases", "day_ahead"}`. */
  datatype PredictionPoint = PredictionPoint(date: string, predictedCases: real, dayAhead: int)

  /** The forecast of one location as the service returns it. */
  datatype LocationPrediction = LocationPrediction(
    locationId: string,
    locationName: string,
    predictions: seq<PredictionPoint>,
    totalPredicted: real,
    trend: Trend,
    last7DayActual: Option<real>,
    percentChange: Option<real>)

  /** `sum(p["predicted_cases"] for p in ps)`. */
  function Cases(ps: seq<PredictionPoint>): real {
    if ps == [] then 0.0 else Cases(ps[..|ps| - 1]) + ps[|ps| - 1].predictedCases
  }

  /** The cases forecast for the first three days, `predictions[:3]`. */
  function EarlyCases(ps: seq<PredictionPoint>): real {
    Cases(SliceTo(ps, 3))
  }

  /** The cases forecast from the fifth day on, `predictions[4:]`. */
  function LateCases(ps: seq<PredictionPoint>): real {
    if |ps| > 4 then Cases(ps[4..]) else 0.0
  }

  /** `(second - first) / max(first, 1) * 100`. */
  function ChangePercent(first: real, second: real): (r: real)
    ensures r > 10.0 <==> second - first > MaxR(first, 1.0) / 10.0
    ensures r < -10.0 <==> second - first < -(MaxR(first, 1.0) / 10.0)
  {
    var d := MaxR(first, 1.0);
    var q := (second - first) / d;
    assert q * d == second - first;
    q * 100.0
  }

  /**
   * The trend of a forecast: "stable" for fewer than two days; otherwise
   * "increasing" when the cases from day five on exceed those of the first
   * three days by more than a tenth of `max(first, 1)`, "decreasing" when
   * they fall short by more than that, "stable" in between.
   */
  function PredictionTrend(ps: seq<PredictionPoint>): (t: Trend)
    ensures |ps| < 2 ==> t == Stable
    ensures t == Increasing <==>
              |ps| >= 2 && LateCases(ps) - EarlyCases(ps) > MaxR(EarlyCases(ps), 1.0) / 10.0
    ensures t == Decreasing <==>
              |ps| >= 2 && LateCases(ps) - EarlyCases(ps) < -(MaxR(EarlyCases(ps), 1.0) / 10.0)
  {
    if |ps| < 2 then Stable
    else
      var diffPct := ChangePercent(EarlyCases(ps), LateCases(ps));
      if diffPct > 10.0 then Increasing
      else if diffPct < -10.0 then Decreasing
      else Stable
  }

  /** The fourth forecast day takes part in neither sum, so it never changes the trend. */
  lemma TrendIgnoresFourthDay(ps: seq<PredictionPoint>, p: PredictionPoint)
    requires |ps| > 3
    ensures PredictionTrend(ps[3 := p]) == PredictionTrend(ps)
  {
    var qs := ps[3 := p];
    assert SliceTo(qs, 3) == SliceTo(ps, 3);
    if |ps| > 4 {
      assert qs[4..] == ps[4..];
    }
  }

  /** The entry the service builds for one location of the forecast file. */
  function Predicted(name: string, ps: seq<PredictionPoint>): LocationPrediction {
    LocationPrediction(LocationId(name), name, ps, RoundHalfEven(Cases(ps), 100), PredictionTrend(ps), None, None)
  }

  /**
   * A location's id is its normalised name, which normalising again leaves
   * alone; its total lies within half a cent of the sum of its forecast and
   * is not negative when no forecast day is.
   */
  lemma PredictedFacts(name: string, ps: seq<PredictionPoint>)
    ensures var p := Predicted(name, ps);
            LocationId(p.locationId) == p.locationId && |p.locationId| == |name|
    ensures var p := Predicted(name, ps);
            Cases(ps) * 100.0 - 0.5 <= p.totalPredicted * 100.0 <= Cases(ps) * 100.0 + 0.5
    ensures (forall k :: 0 <= k < |ps| ==> ps[k].predictedCases >= 0.0) ==>
              Predicted(name, ps).totalPredicted >= 0.0
  {
    LocationIdIdempotent(name);
    if forall k :: 0 <= k < |ps| ==> ps[k].predictedCases >= 0.0 {
      CasesNonNegative(ps);
      var y := Cases(ps) * 100.0;
      RoundStaysBetween(Cases(ps), 100, 0, y.Floor + 1);
    }
  }

  lemma {:induction false} CasesNonNegative(ps: seq<PredictionPoint>)
    requires forall k :: 0 <= k < |ps| ==> ps[k].predictedCases >= 0.0
    ensures Cases(ps) >= 0.0
  {
    if ps != [] {
      CasesNonNegative(ps[..|ps| - 1]);
    }
  }

  /** `get_all_predictions`: one entry per location of the forecast file, in file order. */
  method GetAllPredictions(data: Dict<string, seq<PredictionPoint>>) returns (r: seq<LocationPrediction>)
    requires data.Valid()
    ensures |r| == |data.keys|
    ensures forall k :: 0 <= k < |r| ==> r[k] == Predicted(data.keys[k], data.values[data.keys[k]])
  {
    r := [];
    var k := 0;
    while k < |data.keys|
      invariant 0 <= k <= |data.keys|
      invariant |r| == k
      invariant forall j :: 0 <= j < k ==> r[j] == Predicted(data.keys[j], data.values[data.keys[j]])
    {
      var name := data.keys[k];
      r := r + [Predicted(name, data.values[name])];
      k := k + 1;
    }
  }

  /** The query matches a location by normalised id or by case-insensitive name. */
  predicate Matches(p: LocationPrediction, query: string) {
    p.locationId == LocationId(query) || Lower(p.locationName) == Lower(query)
  }

  /** `get_prediction_by_location`: the first matching location, or None. */
  function FindByLocation(preds: seq<LocationPrediction>, query: string): (r: Option<LocationPrediction>)
    ensures r.None? <==> forall k :: 0 <= k < |preds| ==> !Matches(preds[k], query)
    ensures r.Some? ==> exists k :: 0 <= k < |preds| && r.value == preds[k] && Matches(preds[k], query) &&
                                    forall j :: 0 <= j < k ==> !Matches(preds[j], query)
  {
    if preds == [] then None
    else if Matches(preds[0], query) then Some(preds[0])
    else
      var r := FindByLocation(preds[1..], query);
      assert forall k :: 1 <= k < |preds| ==> preds[1..][k - 1] == preds[k];
      r
  }

  /** A location built by the service is found both by its name and by its own id. */
  lemma FindsEveryLocation(preds: seq<LocationPrediction>, k: nat)
    requires k < |preds|
    requires preds[k].locationId == LocationId(preds[k].locationName)
    ensures FindByLocation(preds, preds[k].locationName).Some?
    ensures FindByLocation(preds, preds[k].locationId).Some?
  {
    LocationIdIdempotent(preds[k].locationName);
    assert Matches(preds[k], preds[k].locationId);
    assert Matches(preds[k], preds[k].locationName);
  }

  /** The sort key of the rankings: `total_predicted`. */
  function ByTotal(p: LocationPrediction): real { p.totalPredicted }

  /** How many locations carry trend `t`. */
  function CountTrend(preds: seq<LocationPrediction>, t: Trend): nat {
    if preds == [] then 0
    else CountTrend(preds[..|preds| - 1], t) + (if preds[|preds| - 1].trend == t then 1 else 0)
  }

  /** Every location is increasing, decreasing or stable, so the three counts add up to all of them. */
  lemma {:induction false} TrendCountsPartition(preds: seq<LocationPrediction>)
    ensures CountTrend(preds, Increasing) + CountTrend(preds, Decreasing) + CountTrend(preds, Stable) == |preds|
  {
    if preds != [] {
      TrendCountsPartition(preds[..|preds| - 1]);
    }
  }

  /** `sum(p.total_predicted for p in preds)`. */
  function TotalOfTotals(preds: seq<LocationPrediction>): real {
    if preds == [] then 0.0 else TotalOfTotals(preds[..|preds| - 1]) + preds[|preds| - 1].totalPredicted
  }

  /** One entry of the summary's top five: `{"location", "predicted_cases", "trend"}`. */
  datatype TopEntry = TopEntry(location: string, predictedCases: real, trend: Trend)

  datatype PredictionSummary = PredictionSummary(
    totalLocations: nat,
    totalPredictedCases: real,
    increasingLocations: nat,
    decreasingLocations: nat,
    stableLocations: nat,
    top5Risk: seq<TopEntry>)

  function Entry(p: LocationPrediction): TopEntry {
    TopEntry(p.locationName, p.totalPredicted, p.trend)
  }

  /**
   * `get_predictions_summary`: zeros for no locations; otherwise the number
   * of locations split by trend, the rounded sum of their totals and the
   * five largest totals in descending order.
   */
  function PredictionsSummary(preds: seq<LocationPrediction>): (s: PredictionSummary)
    ensures preds == [] ==> s == PredictionSummary(0, 0.0, 0, 0, 0, [])
    ensures s.totalLocations == |preds|
    ensures s.increasingLocations == CountTrend(preds, Increasing)
    ensures s.decreasingLocations == CountTrend(preds, Decreasing)
    ensures s.stableLocations == CountTrend(preds, Stable)
    ensures s.increasingLocations + s.decreasingLocations + s.stableLocations == s.totalLocations
    ensures preds != [] ==> s.totalPredictedCases == RoundHalfEven(TotalOfTotals(preds), 100)
    ensures preds != [] ==>
              TotalOfTotals(preds) * 100.0 - 0.5 <= s.totalPredictedCases * 100.0 <= TotalOfTotals(preds) * 100.0 + 0.5
    ensures |s.top5Risk| == if |preds| < 5 then |preds| else 5
    ensures forall k :: 0 <= k < |s.top5Risk| ==> s.top5Risk[k] == Entry(TopRiskLocations(preds, 5)[k])
    ensures forall i, j :: 0 <= i < j < |s.top5Risk| ==> s.top5Risk[i].predictedCases >= s.top5Risk[j].predictedCases
  {
    if preds == [] then PredictionSummary(0, 0.0, 0, 0, 0, [])
    else
      TrendCountsPartition(preds);
      var top := TopRiskLocations(preds, 5);
      PredictionSummary(
        |preds|,
        RoundHalfEven(TotalOfTotals(preds), 100),
        CountTrend(preds, Increasing),
        CountTrend(preds, Decreasing),
        CountTrend(preds, Stable),
        seq(|top|, k requires 0 <= k < |top| => Entry(top[k])))
  }

  /**
   * `get_top_risk_locations`: `sorted(..., reverse=True)[:limit]`. A
   * negative `limit` drops that many locations from the end, as Python's
   * slice does.
   */
  function TopRiskLocations(preds: seq<LocationPrediction>, limit: int): (r: seq<LocationPrediction>)
    ensures limit >= 0 ==> |r| == if limit < |preds| then limit else |preds|
    ensures limit < 0 ==> |r| == if |preds| + limit > 0 then |preds| + limit else 0
    ensures SortedDesc(r, ByTotal)
    ensures multiset(r) <= multiset(preds)
  {
    var sorted := SortDesc(preds, ByTotal);
    SortDescCorrect(preds, ByTotal);
    var r := SliceTo(sorted, limit);
    assert sorted == r + sorted[|r|..];
    r
  }

  /** The top ranking is a prefix of the sorted locations, and the ones it leaves out are the rest of them. */
  lemma TopRiskSplit(preds: seq<LocationPrediction>, limit: int)
    ensures var sorted, r := SortDesc(preds, ByTotal), TopRiskLocations(preds, limit);
            |r| <= |sorted| && r == sorted[..|r|] && multiset(preds) - multiset(r) == multiset(sorted[|r|..])
  {
    var sorted := SortDesc(preds, ByTotal);
    SortDescCorrect(preds, ByTotal);
    var r := TopRiskLocations(preds, limit);
    assert r == SliceTo(sorted, limit);
    var rest := sorted[|r|..];
    assert sorted == r + rest;
    assert multiset(sorted) == multiset(r) + multiset(rest);
  }

  /** No location left out of the top ranking has a larger total than one in it. */
  lemma TopRiskAreLargest(preds: seq<LocationPrediction>, limit: int)
    ensures var r := TopRiskLocations(preds, limit);
            forall t, u :: t in r && u in multiset(preds) - multiset(r) ==> t.totalPredicted >= u.totalPredicted
  {
    var sorted := SortDesc(preds, ByTotal);
    SortDescCorrect(preds, ByTotal);
    var r := TopRiskLocations(preds, limit);
    TopRiskSplit(preds, limit);
    SplitSortedDesc(sorted, ByTotal, |r|);
    forall t, u | t in r && u in multiset(preds) - multiset(r)
      ensures t.totalPredicted >= u.totalPredicted
    {
      assert t in sorted[..|r|] && u in sorted[|r|..];
    }
  }
}

=== FILE: pynum.dfy ===
/**
 * The numeric behaviour of Python and numpy that the services rely on:
 * `int()` truncation, `round()` half to even, tail slices, sums and means,
 * `max`/`argmax` and `np.where` over integer series.
 */
module PyNum {

  /** Python's `int(x)` applied to a float: truncation toward zero. */
  function Trunc(x: real): (r: int)
    ensures 0.0 <= x ==> 0 <= r && r as real <= x < r as real + 1.0
    ensures x < 0.0 ==> r <= 0 && r as real - 1.0 < x <= r as real
  {
    if x >= 0.0 then x.Floor else -((-x).Floor)
  }

  /** Truncation keeps the order of non-negative numbers. */
  lemma TruncMonotone(x: real, y: real)
    requires 0.0 <= x <= y
    ensures Trunc(x) <= Trunc(y)
  {
    assert x.Floor <= y.Floor;
  }

  /** Python's `min(a, b)` on numbers. */
  function MinR(a: real, b: real): real { if b < a then b else a }

  /** Python's `max(a, b)` on numbers. */
  function MaxR(a: real, b: real): real { if b > a then b else a }

  /** Python's `max(a, b)` on integers. */
  function MaxI(a: int, b: int): int { if b > a then b else a }

  /** `numpy.clip(x, lo, hi)`. */
  function Clip(x: real, lo: real, hi: real): (r: real)
    ensures lo <= hi ==> lo <= r <= hi
    ensures lo <= x <= hi ==> r == x
    ensures lo <= hi && x < lo ==> r == lo
    ensures lo <= hi && hi < x ==> r == hi
  {
    MinR(MaxR(x, lo), hi)
  }

  /**
   * Python's `round(x, d)` with `scale == 10^d`: the nearest multiple of
   * 1/scale, ties going to the even multiple.
   */
  function RoundHalfEven(x: real, scale: nat): (r: real)
    requires scale > 0
    ensures x * scale as real - 0.5 <= r * scale as real <= x * scale as real + 0.5
    ensures (r * scale as real).Floor as real == r * scale as real
    ensures var y := x * scale as real; y - y.Floor as real == 0.5 ==> (r * scale as real).Floor % 2 == 0
  {
    var n := NearestEven(x * scale as real);
    assert (n as real / scale as real) * scale as real == n as real;
    n as real / scale as real
  }

  /** The integer nearest to `y`, ties going to the even one. */
  function NearestEven(y: real): (n: int)
    ensures y - 0.5 <= n as real <= y + 0.5
    ensures y - y.Floor as real == 0.5 ==> n % 2 == 0
  {
    var f := y.Floor;
    var d := y - f as real;
    if d < 0.5 then f else if d > 0.5 then f + 1 else if f % 2 == 0 then f else f + 1
  }

  /** Rounding never leaves an interval whose ends are multiples of 1/scale. */
  lemma RoundStaysBetween(x: real, scale: nat, lo: int, hi: int)
    requires scale > 0
    requires lo as real <= x * scale as real <= hi as real
    ensures lo as real <= RoundHalfEven(x, scale) * scale as real <= hi as real
  {
    var y := x * scale as real;
    var n := NearestEven(y);
    assert (n as real / scale as real) * scale as real == n as real;
    assert RoundHalfEven(x, scale) * scale as real == n as real;
    assert y.Floor >= lo;
    if y.Floor == hi {
      assert y == hi as real;
    }
  }

  /** `s[-n:] if len(s) >= n else s`: the last `n` items, or all of them. */
  function Last<T>(s: seq<T>, n: nat): (r: seq<T>)
    ensures |r| == if |s| >= n then n else |s|
    ensures r == s[|s| - |r|..]
  {
    if |s| >= n then s[|s| - n..] else s
  }

  /**
   * `s[:stop]`: the first `stop` items, or, for a negative `stop`, all but
   * the last `-stop` items.
   */
  function SliceTo<T>(s: seq<T>, stop: int): (r: seq<T>)
    ensures |r| == if stop >= 0 then (if stop < |s| then stop else |s|)
                   else (if |s| + stop > 0 then |s| + stop else 0)
    ensures r == s[..|r|]
  {
    if stop >= 0 then (if stop < |s| then s[..stop] else s)
    else if |s| + stop > 0 then s[..|s| + stop] else []
  }

  /** A prefix one longer is the prefix followed by the next item. */
  lemma PrefixGrows<T>(s: seq<T>, j: nat)
    requires j < |s|
    ensures s[..j + 1] == s[..j] + [s[j]]
  {
  }

  function Sum(s: seq<real>): real {
    if s == [] then 0.0 else Sum(s[..|s| - 1]) + s[|s| - 1]
  }

  /** `numpy.mean`. */
  function Mean(s: seq<real>): real
    requires |s| > 0
  {
    Sum(s) / |s| as real
  }

  lemma {:induction false} SumAtMost(s: seq<real>, hi: real)
    requires forall k :: 0 <= k < |s| ==> s[k] <= hi
    ensures Sum(s) <= |s| as real * hi
  {
    if s != [] {
      SumAtMost(s[..|s| - 1], hi);
    }
  }

  lemma {:induction false} SumAtLeast(s: seq<real>, lo: real)
    requires forall k :: 0 <= k < |s| ==> lo <= s[k]
    ensures |s| as real * lo <= Sum(s)
  {
    if s != [] {
      SumAtLeast(s[..|s| - 1], lo);
    }
  }

  /** A mean does not exceed a common upper bound of its items. */
  lemma MeanAtMost(s: seq<real>, hi: real)
    requires |s| > 0
    requires forall k :: 0 <= k < |s| ==> s[k] <= hi
    ensures Mean(s) <= hi
  {
    SumAtMost(s, hi);
    assert Mean(s) * |s| as real == Sum(s);
  }

  /** A mean is not below a common lower bound of its items. */
  lemma MeanAtLeast(s: seq<real>, lo: real)
    requires |s| > 0
    requires forall k :: 0 <= k < |s| ==> lo <= s[k]
    ensures lo <= Mean(s)
  {
    SumAtLeast(s, lo);
    assert Mean(s) * |s| as real == Sum(s);
  }

  function SumInt(s: seq<int>): int {
    if s == [] then 0 else SumInt(s[..|s| - 1]) + s[|s| - 1]
  }

  /** `np.sum(s >= t)`: how many items reach `t`. */
  function CountAtLeast(s: seq<int>, t: int): (r: nat)
    ensures r <= |s|
  {
    if s == [] then 0 else CountAtLeast(s[..|s| - 1], t) + (if s[|s| - 1] >= t then 1 else 0)
  }

  /** A higher threshold is reached by no more items. */
  lemma {:induction false} CountAtLeastAntitone(s: seq<int>, low: int, high: int)
    requires low <= high
    ensures CountAtLeast(s, high) <= CountAtLeast(s, low)
  {
    if s != [] {
      CountAtLeastAntitone(s[..|s| - 1], low, high);
    }
  }

  /** `np.max` of a non-empty integer series. */
  function MaxOf(s: seq<int>): (r: int)
    requires |s| > 0
    ensures r in s
    ensures forall k :: 0 <= k < |s| ==> s[k] <= r
  {
    if |s| == 1 then s[0]
    else
      var m := MaxOf(s[..|s| - 1]);
      assert s[..|s| - 1] <= s;
      if s[|s| - 1] > m then s[|s| - 1] else m
  }

  /** `np.argmax`: the first index holding the maximum. */
  function ArgMax(s: seq<int>): (r: nat)
    requires |s| > 0
    ensures r < |s|
    ensures forall k :: 0 <= k < |s| ==> s[k] <= s[r]
    ensures forall k :: 0 <= k < r ==> s[k] < s[r]
  {
    if |s| == 1 then 0
    else
      var k := ArgMax(s[..|s| - 1]);
      if s[|s| - 1] > s[k] then |s| - 1 else k
  }

  /** The first index of the maximum holds the maximum. */
  lemma ArgMaxHoldsMax(s: seq<int>)
    requires |s| > 0
    ensures s[ArgMax(s)] == MaxOf(s)
  {
    var k :| 0 <= k < |s| && s[k] == MaxOf(s);
    assert s[k] <= s[ArgMax(s)];
  }

  /** `np.where(s > t)[0]`: the indices whose item exceeds `t`, in increasing order. */
  function IndicesAbove(s: seq<int>, t: int): (r: seq<nat>)
    ensures forall j :: 0 <= j < |r| ==> r[j] < |s| && s[r[j]] > t
    ensures forall j, j' :: 0 <= j < j' < |r| ==> r[j] < r[j']
  {
    if s == [] then []
    else
      var n := |s| - 1;
      var front := IndicesAbove(s[..n], t);
      assert forall k :: 0 <= k < n ==> s[..n][k] == s[k];
      if s[n] > t then front + [n] else front
  }

  /** Every index whose item exceeds `t` is listed, and none lies after the last one listed. */
  lemma {:induction false} IndicesAboveComplete(s: seq<int>, t: int)
    ensures forall k :: 0 <= k < |s| && s[k] > t ==> k in IndicesAbove(s, t)
    ensures var r := IndicesAbove(s, t);
            |r| > 0 ==> forall k :: r[|r| - 1] < k < |s| ==> s[k] <= t
  {
    if s != [] {
      var n := |s| - 1;
      var front := IndicesAbove(s[..n], t);
      var r := IndicesAbove(s, t);
      IndicesAboveComplete(s[..n], t);
      assert r == if s[n] > t then front + [n] else front;
      forall k | 0 <= k < |s| && s[k] > t
        ensures k in r
      {
        if k < n {
          assert s[..n][k] == s[k];
          assert k in front;
        }
      }
      if |r| > 0 && s[n] <= t {
        forall k | r[|r| - 1] < k < |s|
          ensures s[k] <= t
        {
          if k < n {
            assert s[..n][k] == s[k];
          }
        }
      }
    }
  }

  /** `np.where(s > t)` is empty exactly when nothing exceeds `t`. */
  lemma IndicesAboveEmpty(s: seq<int>, t: int)
    ensures IndicesAbove(s, t) == [] <==> forall k :: 0 <= k < |s| ==> s[k] <= t
  {
    var r := IndicesAbove(s, t);
    IndicesAboveComplete(s, t);
    if r != [] {
      assert s[r[0]] > t;
    }
  }
}

=== FILE: series.dfy ===
/**
 * Day arithmetic over an infected-count series that both analytics use:
 * the time between two ticks, the day of the first peak and the number of
 * days a count stays at or above a threshold.
 */
module Series {
  import opened PyNum

  /** `(e - i) * dt`: the time between ticks `i` and `e`. */
  function Elapsed(i: int, e: int, dt: real): real {
    (e - i) as real * dt
  }

  /** `int(ticks * dt)`: a number of ticks as whole days. */
  function DaysFor(ticks: nat, dt: real): (r: int)
    ensures dt >= 0.0 ==> 0 <= r && r as real <= ticks as real * dt < r as real + 1.0
  {
    Trunc(ticks as real * dt)
  }

  /** More ticks never make fewer days, for a non-negative `dt`. */
  lemma DaysForMonotone(p: nat, q: nat, dt: real)
    requires p <= q
    ensures dt >= 0.0 ==> DaysFor(p, dt) <= DaysFor(q, dt)
  {
    if dt >= 0.0 {
      assert (q - p) as real * dt >= 0.0;
      TruncMonotone(p as real * dt, q as real * dt);
    }
  }

  /** `int(np.argmax(s) * dt)`: the day of the first peak. */
  function PeakDay(s: seq<int>, dt: real): (r: int)
    requires |s| > 0
    ensures dt >= 0.0 ==> 0 <= r <= DaysFor(|s| - 1, dt)
    ensures r == DaysFor(ArgMax(s), dt)
  {
    DaysForMonotone(ArgMax(s), |s| - 1, dt);
    DaysFor(ArgMax(s), dt)
  }

  /** `int(np.sum(s >= threshold) * dt)`: the days on which the count is at least `threshold`. */
  function ActiveDays(s: seq<int>, threshold: int, dt: real): (r: int)
    ensures dt >= 0.0 ==> 0 <= r <= DaysFor(|s|, dt)
    ensures s == [] ==> r == 0
  {
    DaysForMonotone(CountAtLeast(s, threshold), |s|, dt);
    DaysFor(CountAtLeast(s, threshold), dt)
  }

  /** Raising the threshold never lengthens the active period, for a non-negative `dt`. */
  lemma ActiveDaysShrinkWithThreshold(s: seq<int>, low: int, high: int, dt: real)
    requires low <= high && dt >= 0.0
    ensures ActiveDays(s, high, dt) <= ActiveDays(s, low, dt)
  {
    CountAtLeastAntitone(s, low, high);
    DaysForMonotone(CountAtLeast(s, high), CountAtLeast(s, low), dt);
  }
}

=== FILE: service_metrics.dfy ===
/**
 * The epidemic analytics of `SimulationService`: the metrics record computed
 * from a simulation's S/E/I/R/D histories (attack rate, case fatality rate,
 * R0, Rt, doubling time, peak, duration, vaccination coverage, growth), the
 * trend label over a metrics history, and the per-location averaging of
 * simulation outputs.
 *
 * `np.log` is the parameter `ln`; nothing is assumed about it, so the
 * properties below are the sentinels, guards and `max(0, .)` clamps around it.
 */
module ServiceMetrics {
  import opened Wrappers
  import opened PyNum
  import opened Trends
  import opened Validation
  import opened Series

  /** `SimulationService.RT_WINDOW`, in days. */
  const RtWindow := 7.0

  /** The five compartment histories of one simulation, one entry per tick. */
  datatype Statistics = Statistics(
    susceptible: seq<int>,
    exposed: seq<int>,
    infected: seq<int>,
    recovered: seq<int>,
    deceased: seq<int>)

  datatype EpidemicMetrics = EpidemicMetrics(
    r0: real,
    rt: real,
    attackRate: real,
    caseFatalityRate: real,
    doublingTime: Option<real>,
    peakInfected: int,
    peakDay: int,
    outbreakDuration: int,
    currentInfected: int,
    currentRecovered: int,
    currentDeceased: int,
    vaccinationCoverage: real,
    growthRate: real)

  // ---------------------------------------------------------------------------
  // Rates
  // ---------------------------------------------------------------------------

  /** Share of the population ever infected (recovered plus deceased at the end), in percent. */
  function AttackRate(recoveredLast: int, deceasedLast: int, population: int): (r: real)
    ensures population <= 0 ==> r == 0.0
    ensures population > 0 ==> r * population as real == (recoveredLast + deceasedLast) as real * 100.0
    ensures population > 0 && 0 <= recoveredLast + deceasedLast <= population ==> 0.0 <= r <= 100.0
  {
    if population > 0 then
      var q := (recoveredLast + deceasedLast) as real / population as real;
      assert q * population as real == (recoveredLast + deceasedLast) as real;
      q * 100.0
    else 0.0
  }

  /** Share of the resolved infections that ended in death, in percent. */
  function CaseFatalityRate(recoveredLast: int, deceasedLast: int): (r: real)
    ensures recoveredLast + deceasedLast <= 0 ==> r == 0.0
    ensures recoveredLast + deceasedLast > 0 ==>
              r * (recoveredLast + deceasedLast) as real == deceasedLast as real * 100.0
    ensures recoveredLast >= 0 && deceasedLast >= 0 ==> 0.0 <= r <= 100.0
  {
    var total := recoveredLast + deceasedLast;
    if total > 0 then
      var q := deceasedLast as real / total as real;
      assert q * total as real == deceasedLast as real;
      q * 100.0
    else 0.0
  }

  // ---------------------------------------------------------------------------
  // R0
  // ---------------------------------------------------------------------------

  /** `max(min(n // 10, 20), 5)`: how many leading ticks count as the early phase. */
  function EarlyPhaseEnd(n: nat): (r: nat)
    ensures 5 <= r <= 20
  {
    var m := if n / 10 < 20 then n / 10 else 20;
    if m > 5 then m else 5
  }

  /** `infected[:early_phase_end]`. */
  function EarlyPhase(infected: seq<int>): (r: seq<int>)
    ensures |r| <= |infected| && r == infected[..|r|]
    ensures |r| == if |infected| < EarlyPhaseEnd(|infected|) then |infected| else EarlyPhaseEnd(|infected|)
  {
    var e := EarlyPhaseEnd(|infected|);
    if |infected| < e then infected else infected[..e]
  }

  /**
   * `_estimate_r0`: from the first and last positive early-phase counts,
   * `max(0, 1 + ln(end/start) / time_diff * infectious_period)`.
   */
  function EstimateR0(infected: seq<int>, infectiousPeriod: real, dt: real, population: int,
                      ln: real -> real): (r: real)
    ensures |infected| < 2 || population == 0 ==> r == 0.0
    ensures |infected| >= 2 && population != 0 && |IndicesAbove(EarlyPhase(infected), 0)| < 2 ==> r == 1.0
    ensures r >= 0.0
  {
    if |infected| < 2 || population == 0 then 0.0
    else
      var early := EarlyPhase(infected);
      if |early| > 0 && MaxOf(early) > 0 then
        var valid := IndicesAbove(early, 0);
        if |valid| >= 2 then
          var iStart := early[valid[0]];
          var iEnd := early[valid[|valid| - 1]];
          var timeDiff := (valid[|valid| - 1] - valid[0]) as real * dt;
          if timeDiff > 0.0 && iStart > 0 then
            MaxR(0.0, 1.0 + ln(iEnd as real / iStart as real) / timeDiff * infectiousPeriod)
          else 1.0
        else 1.0
      else 1.0
  }

  /** Two positive counts inside the early phase make a growth segment, so R0 is then computed from them. */
  lemma R0SeesTwoPositiveEarlyCounts(infected: seq<int>, j: nat, k: nat)
    requires j < k < |EarlyPhase(infected)|
    requires infected[j] > 0 && infected[k] > 0
    ensures |IndicesAbove(EarlyPhase(infected), 0)| >= 2
  {
    var early := EarlyPhase(infected);
    var valid := IndicesAbove(early, 0);
    IndicesAboveComplete(early, 0);
    assert j in valid && k in valid;
    var a :| 0 <= a < |valid| && valid[a] == j;
    var b :| 0 <= b < |valid| && valid[b] == k;
    assert a != b;
  }

  // ---------------------------------------------------------------------------
  // Rt
  // ---------------------------------------------------------------------------

  /** `max(int(RT_WINDOW / dt), 2)`. */
  function RtWindowSize(dt: real): (r: nat)
    requires dt != 0.0
    ensures r >= 2
  {
    var w := Trunc(RtWindow / dt);
    if w > 2 then w else 2
  }

  /**
   * `_calculate_rt`: the growth over the last `RtWindowSize(dt)` counts turned
   * into `max(0, 1 + ln(last/first) / time_span * infectious_period)`.
   * A window ending at a count of at most 0 makes `np.log` give -inf or nan,
   * which `max(0, .)` turns into 0 for a non-negative infectious period.
   */
  function CalculateRt(infected: seq<int>, infectiousPeriod: real, dt: real, ln: real -> real): (r: real)
    requires |infected| >= 2 ==> dt != 0.0 && infectiousPeriod >= 0.0
    ensures |infected| < 2 ==> r == 0.0
    ensures |infected| >= 2 && Last(infected, RtWindowSize(dt))[0] <= 0 ==> r == 1.0
    ensures r >= 0.0
  {
    if |infected| < 2 then 0.0
    else
      var recent := Last(infected, RtWindowSize(dt));
      if |recent| >= 2 && recent[0] > 0 then
        var timeSpan := (|recent| - 1) as real * dt;
        if timeSpan > 0.0 then
          if recent[|recent| - 1] <= 0 then 0.0
          else MaxR(0.0, 1.0 + ln(recent[|recent| - 1] as real / recent[0] as real) / timeSpan * infectiousPeriod)
        else 1.0
      else 1.0
  }

  /** The Rt formula for a growth factor `g` over `span` days: `max(0, 1 + ln(g) / span * infectious_period)`. */
  function RtFormula(g: real, span: real, infectiousPeriod: real, ln: real -> real): real
    requires span != 0.0
  {
    MaxR(0.0, 1.0 + ln(g) / span * infectiousPeriod)
  }

  /** Rt on a window that starts and ends at positive counts: the formula on its growth factor and span. */
  lemma RtOfPositiveWindow(infected: seq<int>, infectiousPeriod: real, dt: real, ln: real -> real)
    requires |infected| >= 2 && dt > 0.0 && infectiousPeriod >= 0.0
    requires var w := Last(infected, RtWindowSize(dt)); w[0] > 0 && w[|w| - 1] > 0
    ensures var w := Last(infected, RtWindowSize(dt));
            (|w| - 1) as real * dt > 0.0 &&
            CalculateRt(infected, infectiousPeriod, dt, ln) ==
              RtFormula(w[|w| - 1] as real / w[0] as real, (|w| - 1) as real * dt, infectiousPeriod, ln)
  {
    var w := Last(infected, RtWindowSize(dt));
    assert |w| >= 2;
    PositiveProduct((|w| - 1) as real, dt);
  }

  lemma PositiveProduct(a: real, b: real)
    requires a > 0.0 && b > 0.0
    ensures a * b > 0.0
  {
  }

  /**
   * Over a positive span and for a non-negative infectious period, a growth
   * factor whose log is 0 gives Rt = 1, and one whose log is positive gives
   * Rt above 1 when the period is positive.
   */
  lemma RtFormulaAroundOne(g: real, span: real, infectiousPeriod: real, ln: real -> real)
    requires span > 0.0 && infectiousPeriod >= 0.0
    ensures ln(g) == 0.0 ==> RtFormula(g, span, infectiousPeriod, ln) == 1.0
    ensures ln(g) > 0.0 && infectiousPeriod > 0.0 ==> RtFormula(g, span, infectiousPeriod, ln) > 1.0
  {
    if ln(g) > 0.0 && infectiousPeriod > 0.0 {
      assert ln(g) / span > 0.0;
      PositiveProduct(ln(g) / span, infectiousPeriod);
    }
  }

  /** The growth factor of two positive counts is 1 when they are equal and above 1 when the later is larger. */
  lemma RatioOfCounts(first: int, last: int)
    requires 0 < first
    ensures last == first ==> last as real / first as real == 1.0
    ensures first < last ==> last as real / first as real > 1.0
  {
    var g := last as real / first as real;
    assert g * first as real == last as real;
  }

  /** A window that ends where it started, at a positive count, gives Rt = 1. */
  lemma FlatRtWindowGivesOne(infected: seq<int>, infectiousPeriod: real, dt: real, ln: real -> real)
    requires ln(1.0) == 0.0
    requires |infected| >= 2 && dt > 0.0 && infectiousPeriod >= 0.0
    requires var w := Last(infected, RtWindowSize(dt)); w[0] > 0 && w[|w| - 1] == w[0]
    ensures CalculateRt(infected, infectiousPeriod, dt, ln) == 1.0
  {
    var w := Last(infected, RtWindowSize(dt));
    RtOfPositiveWindow(infected, infectiousPeriod, dt, ln);
    RatioOfCounts(w[0], w[|w| - 1]);
    RtFormulaAroundOne(w[|w| - 1] as real / w[0] as real, (|w| - 1) as real * dt, infectiousPeriod, ln);
  }

  /**
   * With a logarithm that is positive above 1, a window that ends above
   * where it started gives Rt above 1 for a positive infectious period.
   */
  lemma RisingRtWindowAboveOne(infected: seq<int>, infectiousPeriod: real, dt: real, ln: real -> real)
    requires forall x :: x > 1.0 ==> ln(x) > 0.0
    requires |infected| >= 2 && dt > 0.0 && infectiousPeriod > 0.0
    requires var w := Last(infected, RtWindowSize(dt)); 0 < w[0] < w[|w| - 1]
    ensures CalculateRt(infected, infectiousPeriod, dt, ln) > 1.0
  {
    var w := Last(infected, RtWindowSize(dt));
    RtOfPositiveWindow(infected, infectiousPeriod, dt, ln);
    RatioOfCounts(w[0], w[|w| - 1]);
    RtFormulaAroundOne(w[|w| - 1] as real / w[0] as real, (|w| - 1) as real * dt, infectiousPeriod, ln);
  }

  // ---------------------------------------------------------------------------
  // Doubling time
  // ---------------------------------------------------------------------------

  /**
   * The endpoint the search picks from tick `i`: the LAST later tick whose
   * count exceeds the count at `i` (`np.where(a[i:] > a[i])[0][-1] + i`).
   */
  function GrowthEndpoint(a: seq<int>, i: nat): (r: Option<nat>)
    requires i < |a|
    ensures r.Some? ==> i < r.value < |a| && a[r.value] > a[i]
    ensures r.Some? ==> forall k :: r.value < k < |a| ==> a[k] <= a[i]
    ensures r.None? <==> forall k :: i <= k < |a| ==> a[k] <= a[i]
  {
    var s := a[i..];
    var g := IndicesAbove(s, a[i]);
    IndicesAboveEmpty(s, a[i]);
    IndicesAboveComplete(s, a[i]);
    assert forall k :: i <= k < |a| ==> a[k] == s[k - i];
    if |g| > 0 then Some(g[|g| - 1] + i) else None
  }

  /** Tick `i` starts a growth phase whose endpoint has at least doubled the count at `i`. */
  predicate DoublesAt(a: seq<int>, i: nat)
    requires 1 <= i < |a|
  {
    && a[i] > a[i - 1] > 0
    && GrowthEndpoint(a, i).Some?
    && a[GrowthEndpoint(a, i).value] >= 2 * a[i]
  }

  /** What the search reports when it starts scanning at tick `i`. */
  function DoublingFrom(a: seq<int>, dt: real, i: nat): Option<real>
    requires 1 <= i <= |a|
    decreases |a| - i
  {
    if i == |a| then None
    else if DoublesAt(a, i) then Some(Elapsed(i, GrowthEndpoint(a, i).value, dt))
    else DoublingFrom(a, dt, i + 1)
  }

  /** The value `_calculate_doubling_time` returns. */
  function DoublingTime(a: seq<int>, dt: real): Option<real> {
    if |a| < 2 then None else DoublingFrom(a, dt, 1)
  }

  /** `_calculate_doubling_time`: the scan over ticks with an early return. */
  method CalculateDoublingTime(a: seq<int>, dt: real) returns (r: Option<real>)
    ensures r == DoublingTime(a, dt)
  {
    if |a| < 2 {
      return None;
    }
    var i := 1;
    while i < |a|
      invariant 1 <= i <= |a|
      invariant DoublingFrom(a, dt, 1) == DoublingFrom(a, dt, i)
    {
      if a[i] > a[i - 1] > 0 {
        var endpoint := GrowthEndpoint(a, i);
        if endpoint.Some? && a[endpoint.value] >= 2 * a[i] {
          return Some(Elapsed(i, endpoint.value, dt));
        }
      }
      i := i + 1;
    }
    return None;
  }

  /** No tick from `lo` up to, not including, `hi` starts a doubling. */
  predicate NoDoublingBetween(a: seq<int>, lo: nat, hi: nat)
    requires 1 <= lo && hi <= |a|
  {
    forall j :: lo <= j < hi ==> !DoublesAt(a, j)
  }

  /**
   * A reported doubling time comes from the first tick that qualifies: a rise
   * `a[i] > a[i-1] > 0` whose endpoint `e > i`, the last later tick above
   * `a[i]`, holds at least twice `a[i]`; it is `(e - i) * dt`, which is
   * positive when `dt` is.
   */
  lemma {:induction false} DoublingTimeWitness(a: seq<int>, dt: real, i0: nat)
    requires 1 <= i0 <= |a|
    requires DoublingFrom(a, dt, i0).Some?
    decreases |a| - i0
    ensures exists i, e :: i0 <= i < e < |a| && a[e] >= 2 * a[i] && a[i] > a[i - 1] > 0
                           && NoDoublingBetween(a, i0, i)
                           && GrowthEndpoint(a, i) == Some(e)
                           && DoublingFrom(a, dt, i0) == Some((e - i) as real * dt)
                           && (dt > 0.0 ==> (e - i) as real * dt > 0.0)
  {
    if DoublesAt(a, i0) {
      var e := GrowthEndpoint(a, i0).value;
      assert i0 < e < |a|;
    } else {
      DoublingTimeWitness(a, dt, i0 + 1);
    }
  }

  /** No tick qualifies exactly when the search reports nothing. */
  lemma {:induction false} DoublingNoneIff(a: seq<int>, dt: real, i0: nat)
    requires 1 <= i0 <= |a|
    decreases |a| - i0
    ensures DoublingFrom(a, dt, i0).None? <==> forall i :: i0 <= i < |a| ==> !DoublesAt(a, i)
  {
    if i0 < |a| {
      DoublingNoneIff(a, dt, i0 + 1);
    }
  }

  /** A steadily growing series doubles from tick 1 (12) at tick 5 (30): four days at `dt = 1`. */
  lemma DoublingOfSteadyGrowth()
    ensures DoublingTime([10, 12, 15, 20, 25, 30], 1.0) == Some(4.0)
  {
    var a := [10, 12, 15, 20, 25, 30];
    assert a[5] > a[1];
    assert GrowthEndpoint(a, 1) == Some(5);
    assert DoublesAt(a, 1);
  }

  /**
   * The search misses a doubling that falls back: from 12 the count reaches 30,
   * but the last tick above 12 holds 13, so nothing is reported.
   */
  lemma DoublingMissedWhenSeriesFallsBack()
    ensures DoublingTime([10, 12, 30, 13], 1.0) == None
  {
    var a := [10, 12, 30, 13];
    assert GrowthEndpoint(a, 1) == Some(3);
    assert !DoublesAt(a, 1);
    assert GrowthEndpoint(a, 2) == None;
    assert !DoublesAt(a, 2);
    assert !DoublesAt(a, 3);
  }

  // ---------------------------------------------------------------------------
  // Trend
  // ---------------------------------------------------------------------------

  /** `calculate_trend`: the mean Rt of the last three metrics against 1.1 and 0.9. */
  function CalculateTrend(rts: seq<real>): (t: Trend)
    ensures |rts| < 2 ==> t == Stable
    ensures |rts| >= 2 ==> (t == Increasing <==> Mean(Last(rts, 3)) > 1.1)
    ensures |rts| >= 2 ==> (t == Decreasing <==> Mean(Last(rts, 3)) < 0.9)
  {
    if |rts| < 2 then Stable
    else
      var avg := Mean(Last(rts, 3));
      if avg > 1.1 then Increasing
      else if avg < 0.9 then Decreasing
      else Stable
  }

  /** The Rt values the trend averages: the last three, or all of them. */
  lemma RecentRtWindow(rts: seq<real>)
    ensures var w := Last(rts, 3);
            forall j :: 0 <= j < |w| ==> w[j] == rts[|rts| - |w| + j]
  {
  }

  /** An increasing trend needs one of the last three Rt values above 1.1. */
  lemma IncreasingNeedsHighRt(rts: seq<real>)
    requires CalculateTrend(rts) == Increasing
    ensures exists k :: 0 <= k < |rts| && k >= |rts| - 3 && rts[k] > 1.1
  {
    var w := Last(rts, 3);
    assert |rts| >= 2 && Mean(w) > 1.1;
    RecentRtWindow(rts);
    if forall j :: 0 <= j < |w| ==> w[j] <= 1.1 {
      MeanAtMost(w, 1.1);
    } else {
      var j :| 0 <= j < |w| && w[j] > 1.1;
      assert rts[|rts| - |w| + j] > 1.1;
    }
  }

  /** A decreasing trend needs one of the last three Rt values below 0.9. */
  lemma DecreasingNeedsLowRt(rts: seq<real>)
    requires CalculateTrend(rts) == Decreasing
    ensures exists k :: 0 <= k < |rts| && k >= |rts| - 3 && rts[k] < 0.9
  {
    var w := Last(rts, 3);
    assert |rts| >= 2 && Mean(w) < 0.9;
    RecentRtWindow(rts);
    if forall j :: 0 <= j < |w| ==> 0.9 <= w[j] {
      MeanAtLeast(w, 0.9);
    } else {
      var j :| 0 <= j < |w| && w[j] < 0.9;
      assert rts[|rts| - |w| + j] < 0.9;
    }
  }

  /** Recent Rt values all within [0.9, 1.1] give a stable trend. */
  lemma SteadyRtIsStable(rts: seq<real>)
    requires forall k :: 0 <= k < |rts| && k >= |rts| - 3 ==> 0.9 <= rts[k] <= 1.1
    ensures CalculateTrend(rts) == Stable
  {
    if |rts| >= 2 {
      var w := Last(rts, 3);
      RecentRtWindow(rts);
      MeanAtMost(w, 1.1);
      MeanAtLeast(w, 0.9);
    }
  }

  // ---------------------------------------------------------------------------
  // The metrics record
  // ---------------------------------------------------------------------------

  /** `(last - first) / (first if first > 0 else 1)` over the last seven infected counts. */
  function GrowthRate(infected: seq<int>): (r: real)
    ensures |infected| < 2 ==> r == 0.0
    ensures |infected| >= 2 ==>
              var w := Last(infected, 7);
              w[0] > 0 && w[|w| - 1] >= 0 ==> -1.0 <= r && (r >= 0.0 <==> w[|w| - 1] >= w[0])
    ensures |infected| >= 2 ==>
              var w := Last(infected, 7);
              r * (if w[0] > 0 then w[0] else 1) as real == (w[|w| - 1] - w[0]) as real
  {
    if |infected| < 2 then 0.0
    else
      var recent := Last(infected, 7);
      var first := recent[0];
      var rise := (recent[|recent| - 1] - first) as real;
      var base := (if first > 0 then first else 1) as real;
      assert rise / base * base == rise;
      rise / base
  }

  /** `min(rate * duration * population, population) / population * 100`, or 0 without vaccination. */
  function VaccinationCoverage(rate: real, duration: int, population: int): (r: real)
    requires rate > 0.0 ==> population != 0
    ensures rate <= 0.0 ==> r == 0.0
    ensures rate > 0.0 && duration >= 0 && population > 0 ==> 0.0 <= r <= 100.0
    ensures rate > 0.0 ==>
              r * population as real == MinR(rate * duration as real * population as real, population as real) * 100.0
  {
    if rate > 0.0 then
      var p := population as real;
      var vaccinated := MinR(rate * duration as real * p, p);
      assert duration >= 0 && population > 0 ==> 0.0 <= vaccinated / p <= 1.0 by {
        if duration >= 0 && population > 0 {
          assert 0.0 <= rate * duration as real;
          assert 0.0 <= rate * duration as real * p;
        }
      }
      assert vaccinated / p * p == vaccinated;
      vaccinated / p * 100.0
    else 0.0
  }

  /**
   * A history the step engine can produce: five equally long histories of
   * non-negative counts that sum to the population at every tick.
   */
  predicate Conserved(st: Statistics, population: int) {
    && |st.exposed| == |st.susceptible| && |st.infected| == |st.susceptible|
    && |st.recovered| == |st.susceptible| && |st.deceased| == |st.susceptible|
    && forall t :: 0 <= t < |st.susceptible| ==>
         && st.susceptible[t] >= 0 && st.exposed[t] >= 0 && st.infected[t] >= 0
         && st.recovered[t] >= 0 && st.deceased[t] >= 0
         && st.susceptible[t] + st.exposed[t] + st.infected[t] + st.recovered[t] + st.deceased[t] == population
  }

  /** `a[-1]`, for a history that has at least one tick. */
  function Final(a: seq<int>): (r: int)
    requires a != []
    ensures r == a[|a| - 1]
  {
    a[|a| - 1]
  }

  /** `int(a[-1]) if len(a) > 0 else 0`. */
  function LastOrZero(a: seq<int>): (r: int)
    ensures a == [] ==> r == 0
    ensures a != [] ==> r == a[|a| - 1]
  {
    if a == [] then 0 else a[|a| - 1]
  }

  /** `calculate_epidemic_metrics`. */
  function CalculateEpidemicMetrics(st: Statistics, c: SimulationConfig, ln: real -> real): (m: EpidemicMetrics)
    requires |st.recovered| > 0 && |st.deceased| > 0
    requires |st.infected| >= 2 ==> c.timeStep != 0.0 && c.infectiousMean >= 0.0
    requires c.vaccinationRate > 0.0 ==> c.populationSize != 0
    ensures |st.infected| > 0 ==> m.peakInfected in st.infected
    ensures forall t :: 0 <= t < |st.infected| ==> st.infected[t] <= m.peakInfected
    ensures |st.infected| > 0 ==> m.peakDay == PeakDay(st.infected, c.timeStep)
    ensures |st.infected| == 0 ==> m.peakInfected == 0 && m.peakDay == 0 && m.currentInfected == 0
    ensures |st.infected| > 0 ==> m.currentInfected == st.infected[|st.infected| - 1]
    ensures m.outbreakDuration == ActiveDays(st.infected, 1, c.timeStep)
    ensures m.currentRecovered == st.recovered[|st.recovered| - 1]
    ensures m.currentDeceased == st.deceased[|st.deceased| - 1]
    ensures m.attackRate == AttackRate(m.currentRecovered, m.currentDeceased, c.populationSize)
    ensures m.caseFatalityRate == CaseFatalityRate(m.currentRecovered, m.currentDeceased)
    ensures m.vaccinationCoverage == VaccinationCoverage(c.vaccinationRate, m.outbreakDuration, c.populationSize)
    ensures m.growthRate == GrowthRate(st.infected)
    ensures m.r0 == EstimateR0(st.infected, c.infectiousMean, c.timeStep, c.populationSize, ln)
    ensures m.rt == CalculateRt(st.infected, c.infectiousMean, c.timeStep, ln)
    ensures m.r0 >= 0.0 && m.rt >= 0.0
    ensures m.doublingTime == DoublingTime(st.infected, c.timeStep)
  {
    var i, dt := st.infected, c.timeStep;
    var duration := ActiveDays(i, 1, dt);
    EpidemicMetrics(
      EstimateR0(i, c.infectiousMean, dt, c.populationSize, ln),
      CalculateRt(i, c.infectiousMean, dt, ln),
      AttackRate(Final(st.recovered), Final(st.deceased), c.populationSize),
      CaseFatalityRate(Final(st.recovered), Final(st.deceased)),
      DoublingTime(i, dt),
      if |i| > 0 then MaxOf(i) else 0,
      if |i| > 0 then PeakDay(i, dt) else 0,
      duration,
      LastOrZero(i),
      Final(st.recovered),
      Final(st.deceased),
      VaccinationCoverage(c.vaccinationRate, duration, c.populationSize),
      GrowthRate(i))
  }

  /**
   * For a conserved history of a validated configuration the attack rate,
   * case fatality rate and vaccination coverage are percentages in [0, 100].
   */
  lemma MetricsArePercentages(st: Statistics, c: SimulationConfig, ln: real -> real)
    requires Admissible(c)
    requires |st.susceptible| > 0 && Conserved(st, c.populationSize)
    ensures var m := CalculateEpidemicMetrics(st, c, ln);
            && 0.0 <= m.attackRate <= 100.0
            && 0.0 <= m.caseFatalityRate <= 100.0
            && 0.0 <= m.vaccinationCoverage <= 100.0
  {
    var t := |st.susceptible| - 1;
    assert st.recovered[t] + st.deceased[t] <= c.populationSize;
  }

  // ---------------------------------------------------------------------------
  // Per-location aggregation
  // ---------------------------------------------------------------------------

  /**
   * The parts of a `SimulationOutput` the aggregation reads. The aggregation
   * only compares location ids for equality, so it is stated for any id type
   * `Id`; the service's ids are strings.
   */
  datatype SimulationOutput<Id> = SimulationOutput(locationId: Id, locationName: string, metrics: EpidemicMetrics)

  datatype LocationAggregate<Id> = LocationAggregate(
    locationName: string,
    simulations: seq<SimulationOutput<Id>>,
    avgR0: real,
    avgRt: real,
    avgAttackRate: real,
    totalDeceased: int)

  /** The outputs for one location, in input order. */
  function ForLocation<Id(==)>(sims: seq<SimulationOutput<Id>>, loc: Id): (r: seq<SimulationOutput<Id>>)
    ensures |r| <= |sims|
  {
    if sims == [] then []
    else
      var x := sims[|sims| - 1];
      ForLocation(sims[..|sims| - 1], loc) + if x.locationId == loc then [x] else []
  }

  /** The location ids that occur among the outputs. */
  function LocationIds<Id(==)>(sims: seq<SimulationOutput<Id>>): set<Id> {
    if sims == [] then {} else LocationIds(sims[..|sims| - 1]) + {sims[|sims| - 1].locationId}
  }

  /** A location has outputs exactly when its id occurs; all of them carry that id. */
  lemma {:induction false} ForLocationFacts<Id>(sims: seq<SimulationOutput<Id>>, loc: Id)
    ensures ForLocation(sims, loc) != [] <==> loc in LocationIds(sims)
    ensures forall k :: 0 <= k < |ForLocation(sims, loc)| ==> ForLocation(sims, loc)[k].locationId == loc
  {
    if sims != [] {
      ForLocationFacts(sims[..|sims| - 1], loc);
    }
  }

  /** `LocationIds` holds exactly the ids of the outputs. */
  lemma {:induction false} LocationIdsExact<Id>(sims: seq<SimulationOutput<Id>>)
    ensures forall loc :: loc in LocationIds(sims) <==> exists k :: 0 <= k < |sims| && sims[k].locationId == loc
  {
    if sims != [] {
      var front := sims[..|sims| - 1];
      LocationIdsExact(front);
      assert forall k :: 0 <= k < |front| ==> front[k] == sims[k];
    }
  }

  function SumR0<Id>(s: seq<SimulationOutput<Id>>): real {
    if s == [] then 0.0 else SumR0(s[..|s| - 1]) + s[|s| - 1].metrics.r0
  }

  function SumRt<Id>(s: seq<SimulationOutput<Id>>): real {
    if s == [] then 0.0 else SumRt(s[..|s| - 1]) + s[|s| - 1].metrics.rt
  }

  function SumAttack<Id>(s: seq<SimulationOutput<Id>>): real {
    if s == [] then 0.0 else SumAttack(s[..|s| - 1]) + s[|s| - 1].metrics.attackRate
  }

  function SumDeceased<Id>(s: seq<SimulationOutput<Id>>): int {
    if s == [] then 0 else SumDeceased(s[..|s| - 1]) + s[|s| - 1].metrics.currentDeceased
  }

  /** Appending one output extends only that output's location, by that output. */
  lemma AppendStep<Id>(pre: seq<SimulationOutput<Id>>, x: SimulationOutput<Id>)
    ensures LocationIds(pre + [x]) == LocationIds(pre) + {x.locationId}
    ensures forall other :: ForLocation(pre + [x], other) == ForLocation(pre, other) + if x.locationId == other then [x] else []
    ensures x.locationId !in LocationIds(pre) ==> ForLocation(pre, x.locationId) == []
  {
    assert (pre + [x])[..|pre|] == pre;
    ForLocationFacts(pre, x.locationId);
  }

  /** Appending one output adds its values to every running total. */
  lemma SumsAppend<Id>(fs: seq<SimulationOutput<Id>>, x: SimulationOutput<Id>)
    ensures SumR0(fs + [x]) == SumR0(fs) + x.metrics.r0
    ensures SumRt(fs + [x]) == SumRt(fs) + x.metrics.rt
    ensures SumAttack(fs + [x]) == SumAttack(fs) + x.metrics.attackRate
    ensures SumDeceased(fs + [x]) == SumDeceased(fs) + x.metrics.currentDeceased
  {
    assert (fs + [x])[..|fs|] == fs;
  }

  /** The entry of one location after the first loop: running totals, not yet averaged. */
  function Totals<Id>(fs: seq<SimulationOutput<Id>>): LocationAggregate<Id>
    requires |fs| > 0
  {
    LocationAggregate(fs[0].locationName, fs, SumR0(fs), SumRt(fs), SumAttack(fs), SumDeceased(fs))
  }

  /** The entry a location gets when its first output is met: the name and zero totals. */
  function Opened<Id>(x: SimulationOutput<Id>): LocationAggregate<Id> {
    LocationAggregate(x.locationName, [], 0.0, 0.0, 0.0, 0)
  }

  /** Adding one output to a location's entry: appended to its list, its values to the totals. */
  function Accumulate<Id>(data: LocationAggregate<Id>, x: SimulationOutput<Id>): LocationAggregate<Id> {
    data.(simulations := data.simulations + [x],
          avgR0 := data.avgR0 + x.metrics.r0,
          avgRt := data.avgRt + x.metrics.rt,
          avgAttackRate := data.avgAttackRate + x.metrics.attackRate,
          totalDeceased := data.totalDeceased + x.metrics.currentDeceased)
  }

  /** One iteration of the first loop: open the location's entry if needed, then accumulate. */
  function Step<Id(==)>(agg: map<Id, LocationAggregate<Id>>, x: SimulationOutput<Id>): map<Id, LocationAggregate<Id>> {
    var data := if x.locationId in agg then agg[x.locationId] else Opened(x);
    agg[x.locationId := Accumulate(data, x)]
  }

  /** Every entry holds the totals of its location's outputs within `prefix`. */
  predicate TotalsHold<Id(==)>(agg: map<Id, LocationAggregate<Id>>, prefix: seq<SimulationOutput<Id>>) {
    && agg.Keys == LocationIds(prefix)
    && forall loc :: loc in agg ==> |ForLocation(prefix, loc)| > 0 && agg[loc] == Totals(ForLocation(prefix, loc))
  }

  /** Opening an entry with a location's first output gives the totals of that one output. */
  lemma OpenEntry<Id>(x: SimulationOutput<Id>)
    ensures Accumulate(Opened(x), x) == Totals([x])
  {
    SumsAppend([], x);
    assert [] + [x] == [x];
  }

  /** Accumulating an output into an entry holding the totals of `fs` gives the totals of `fs + [x]`. */
  lemma ExtendEntry<Id>(fs: seq<SimulationOutput<Id>>, x: SimulationOutput<Id>)
    requires |fs| > 0
    ensures Accumulate(Totals(fs), x) == Totals(fs + [x])
  {
    SumsAppend(fs, x);
    assert (fs + [x])[0] == fs[0];
  }

  /** Accumulating an output into its own location's entry gives the totals over the longer prefix. */
  lemma AccumulateOwnEntry<Id>(prev: map<Id, LocationAggregate<Id>>, pre: seq<SimulationOutput<Id>>, x: SimulationOutput<Id>)
    requires TotalsHold(prev, pre)
    ensures |ForLocation(pre + [x], x.locationId)| > 0
    ensures Step(prev, x)[x.locationId] == Totals(ForLocation(pre + [x], x.locationId))
  {
    var before := ForLocation(pre, x.locationId);
    AppendStep(pre, x);
    if x.locationId in prev {
      ExtendEntry(before, x);
    } else {
      OpenEntry(x);
      assert before + [x] == [x];
    }
  }

  /** The entries of the other locations already hold their totals over the longer prefix. */
  lemma OtherEntry<Id>(prev: map<Id, LocationAggregate<Id>>, pre: seq<SimulationOutput<Id>>, x: SimulationOutput<Id>, other: Id)
    requires TotalsHold(prev, pre)
    requires other in prev && other != x.locationId
    ensures |ForLocation(pre + [x], other)| > 0 && prev[other] == Totals(ForLocation(pre + [x], other))
  {
    AppendStep(pre, x);
    assert ForLocation(pre, other) + [] == ForLocation(pre, other);
  }

  /** One iteration of the first loop keeps every entry equal to its location's totals. */
  lemma TotalsStep<Id>(prev: map<Id, LocationAggregate<Id>>, pre: seq<SimulationOutput<Id>>, x: SimulationOutput<Id>)
    requires TotalsHold(prev, pre)
    ensures TotalsHold(Step(prev, x), pre + [x])
  {
    var agg := Step(prev, x);
    AppendStep(pre, x);
    forall other | other in agg
      ensures |ForLocation(pre + [x], other)| > 0 && agg[other] == Totals(ForLocation(pre + [x], other))
    {
      if other == x.locationId {
        AccumulateOwnEntry(prev, pre, x);
      } else {
        OtherEntry(prev, pre, x, other);
      }
    }
  }

  /** The finished entry of one location: totals divided by the number of its outputs. */
  function Averaged<Id>(fs: seq<SimulationOutput<Id>>): LocationAggregate<Id>
    requires |fs| > 0
  {
    var n := |fs| as real;
    LocationAggregate(fs[0].locationName, fs, SumR0(fs) / n, SumRt(fs) / n, SumAttack(fs) / n, SumDeceased(fs))
  }

  /**
   * The first loop of `aggregate_simulations_by_location`: one entry per
   * location id holding the location's outputs and its running totals.
   */
  method TotalsByLocation<Id(==)>(sims: seq<SimulationOutput<Id>>) returns (agg: map<Id, LocationAggregate<Id>>)
    ensures agg.Keys == LocationIds(sims)
    ensures forall loc :: loc in agg ==> |ForLocation(sims, loc)| > 0 && agg[loc] == Totals(ForLocation(sims, loc))
  {
    agg := map[];
    var j := 0;
    while j < |sims|
      invariant 0 <= j <= |sims|
      invariant TotalsHold(agg, sims[..j])
    {
      var sim := sims[j];
      var loc := sim.locationId;
      TotalsStep(agg, sims[..j], sim);
      PrefixGrows(sims, j);
      var data := if loc in agg then agg[loc] else Opened(sim);
      agg := agg[loc := Accumulate(data, sim)];
      j := j + 1;
    }
    assert sims[..j] == sims;
  }

  /**
   * `aggregate_simulations_by_location`: one entry per location id, holding the
   * location's outputs in input order, the name of its first output, the mean
   * R0, Rt and attack rate and the summed deaths.
   */
  method AggregateByLocation<Id(==)>(sims: seq<SimulationOutput<Id>>) returns (agg: map<Id, LocationAggregate<Id>>)
    ensures agg.Keys == LocationIds(sims)
    ensures forall loc :: loc in agg ==> |ForLocation(sims, loc)| > 0 && agg[loc] == Averaged(ForLocation(sims, loc))
  {
    agg := TotalsByLocation(sims);
    var pending := agg.Keys;
    while pending != {}
      invariant pending <= agg.Keys
      invariant agg.Keys == LocationIds(sims)
      invariant forall loc :: loc in agg ==> |ForLocation(sims, loc)| > 0
      invariant forall loc :: loc in pending ==> agg[loc] == Totals(ForLocation(sims, loc))
      invariant forall loc :: loc in agg && loc !in pending ==> agg[loc] == Averaged(ForLocation(sims, loc))
      decreases pending
    {
      var loc :| loc in pending;
      var data := agg[loc];
      ghost var fs := ForLocation(sims, loc);
      assert data == Totals(fs);
      var count := |data.simulations|;
      if count > 0 {
        var n := count as real;
        agg := agg[loc := data.(avgR0 := data.avgR0 / n, avgRt := data.avgRt / n,
                                avgAttackRate := data.avgAttackRate / n)];
      }
      assert agg[loc] == Averaged(fs);
      pending := pending - {loc};
    }
  }

  /**
   * A location's mean R0, Rt and attack rate lie between the smallest and the
   * largest value among its outputs.
   */
  lemma {:induction false} TotalsBounds<Id>(fs: seq<SimulationOutput<Id>>, lo: real, hi: real)
    requires forall k :: 0 <= k < |fs| ==> lo <= fs[k].metrics.r0 <= hi
    ensures |fs| as real * lo <= SumR0(fs) <= |fs| as real * hi
  {
    if fs != [] {
      TotalsBounds(fs[..|fs| - 1], lo, hi);
    }
  }

  /** The mean R0 of a location lies within the range of its outputs' R0 values. */
  lemma AverageR0Between<Id>(fs: seq<SimulationOutput<Id>>, lo: real, hi: real)
    requires |fs| > 0
    requires forall k :: 0 <= k < |fs| ==> lo <= fs[k].metrics.r0 <= hi
    ensures lo <= Averaged(fs).avgR0 <= hi
  {
    TotalsBounds(fs, lo, hi);
    var n := |fs| as real;
    assert Averaged(fs).avgR0 * n == SumR0(fs);
  }
}

=== FILE: simulation_model.dfy ===
/**
 * One simulation as the store keeps it, and the step that advances it:
 * random transition counts, the next compartment counts with population
 * conservation, the histories, the step's reproduction number, and the
 * reconciliation that moves agents between states until the number of
 * agents in each state matches the new counts.
 */
module SimulationModel {
  import opened Wrappers
  import opened PyNum
  import opened Agents
  import opened Validation

  datatype Status = Created | Running | Completed

  /** The S, E, I, R and D histories: entry `k` is the count after step `k`. */
  datatype History = History(s: seq<int>, e: seq<int>, i: seq<int>, r: seq<int>, d: seq<int>)

  /** A simulation record, without its timestamps. */
  datatype Simulation = Simulation(
    id: string,
    config: SimulationConfig,
    status: Status,
    currentDay: real,
    totalSteps: nat,
    stats: History,
    rtHistory: seq<real>,
    agents: seq<Agent>)

  /** The five histories are equally long and not empty, and their last entries are counts. */
  predicate Aligned(h: History) {
    && |h.s| > 0 && |h.e| == |h.s| && |h.i| == |h.s| && |h.r| == |h.s| && |h.d| == |h.s|
    && h.s[|h.s| - 1] >= 0 && h.e[|h.s| - 1] >= 0 && h.i[|h.s| - 1] >= 0 && h.r[|h.s| - 1] >= 0 && h.d[|h.s| - 1] >= 0
  }

  /** The counts after the latest step. */
  function Latest(h: History): Tally
    requires Aligned(h)
  {
    var n := |h.s| - 1;
    Tally(h.s[n], h.e[n], h.i[n], h.r[n], h.d[n])
  }

  /**
   * Every entry of every history is a count, the five counts of each step
   * add up to the population, and R and D never fall.
   */
  ghost predicate HistoryOk(h: History, population: int) {
    && Aligned(h)
    && (forall k :: 0 <= k < |h.s| ==>
          h.s[k] >= 0 && h.e[k] >= 0 && h.i[k] >= 0 && h.r[k] >= 0 && h.d[k] >= 0 &&
          h.s[k] + h.e[k] + h.i[k] + h.r[k] + h.d[k] == population)
    && (forall j, k :: 0 <= j <= k < |h.s| ==> h.r[j] <= h.r[k] && h.d[j] <= h.d[k])
  }

  predicate OnGrid(a: Agent, grid: int) {
    0.0 <= a.x <= grid as real && 0.0 <= a.y <= grid as real
  }

  /** One agent per member of the population, numbered from 0, each inside the grid. */
  ghost predicate AgentsOk(agents: seq<Agent>, c: SimulationConfig) {
    |agents| == c.populationSize && forall k :: 0 <= k < |agents| ==> agents[k].id == k && OnGrid(agents[k], c.gridSize)
  }

  /** The day after `steps` steps of `dt` days each, counted the way the store does: `dt` added once per step. */
  function Elapsed(steps: nat, dt: real): real {
    if steps == 0 then 0.0 else Elapsed(steps - 1, dt) + dt
  }

  /** The day the store reaches is the number of steps times the step length. */
  lemma {:induction false} ElapsedIsProduct(steps: nat, dt: real)
    ensures Elapsed(steps, dt) == steps as real * dt
  {
    if steps > 0 {
      ElapsedIsProduct(steps - 1, dt);
    }
  }

  /** Created before the first step; then Completed when no one is infectious or exposed, else Running. */
  function StatusFor(steps: nat, t: Tally): Status {
    if steps == 0 then Created else if t.i == 0 && t.e == 0 then Completed else Running
  }

  /** The invariant every stored simulation keeps. */
  ghost predicate WellFormed(sim: Simulation) {
    var c := sim.config;
    && Admissible(c)
    && HistoryOk(sim.stats, c.populationSize)
    && |sim.stats.s| == sim.totalSteps + 1
    && |sim.rtHistory| == sim.totalSteps + 1
    && (forall k :: 0 <= k < |sim.rtHistory| ==> sim.rtHistory[k] >= 0.0)
    && sim.currentDay == Elapsed(sim.totalSteps, c.timeStep)
    && sim.status == StatusFor(sim.totalSteps, Latest(sim.stats))
    && AgentsOk(sim.agents, c)
    && Census(sim.agents) == Latest(sim.stats)
  }

  /** The agents `_create_mock_agents` makes: agent `k` infectious when `k < initial_infected`, else susceptible. */
  ghost predicate IsMockAgents(agents: seq<Agent>, c: SimulationConfig) {
    |agents| == c.populationSize &&
    forall k :: 0 <= k < |agents| ==>
      agents[k].id == k && agents[k].state == (if k < c.initialInfected then I else S) &&
      agents[k].daysInState == 0.0 && !agents[k].isIsolated && OnGrid(agents[k], c.gridSize)
  }

  /** The record `create` stores: day 0, no steps, one entry per history, Rt history `[0.0]`. */
  function Initial(id: string, c: SimulationConfig, agents: seq<Agent>): Simulation {
    Simulation(id, c, Created, 0.0, 0,
               History([c.populationSize - c.initialInfected], [0], [c.initialInfected], [0], [0]), [0.0], agents)
  }

  /** Among the first `n` mock agents, the first `initial_infected` are infectious and the rest susceptible. */
  lemma {:induction false} MockAgentsCensusPrefix(agents: seq<Agent>, c: SimulationConfig, n: nat)
    requires IsMockAgents(agents, c) && c.initialInfected >= 0 && n <= |agents|
    ensures var inf := if n < c.initialInfected then n else c.initialInfected;
            Census(agents[..n]) == Tally(n - inf, 0, inf, 0, 0)
  {
    if n > 0 {
      MockAgentsCensusPrefix(agents, c, n - 1);
      assert agents[..n] == agents[..n - 1] + [agents[n - 1]];
      CensusAppend(agents[..n - 1], agents[n - 1]);
    }
  }

  /** A freshly created simulation already keeps the invariant. */
  lemma InitialWellFormed(id: string, c: SimulationConfig, agents: seq<Agent>)
    requires Admissible(c) && IsMockAgents(agents, c)
    ensures WellFormed(Initial(id, c, agents))
  {
    MockAgentsCensusPrefix(agents, c, |agents|);
    assert agents[..|agents|] == agents;
  }

  /** The transition counts one step draws at random. */
  datatype Draws = Draws(newInfections: nat, eToI: nat, iToR: nat, iToD: nat)

  /**
   * The draws possible from counts `t`: new infections only while someone is
   * infectious and someone susceptible, each count at most the size of the
   * compartment it leaves.
   */
  predicate DrawsFit(t: Tally, dr: Draws) {
    && dr.newInfections <= (if t.i > 0 && t.s > 0 then t.s else 0)
    && dr.eToI <= t.e
    && dr.iToR + dr.iToD <= t.i
  }

  /** The next counts, before and after the conservation fix. */
  datatype Counts = Counts(s: int, e: int, i: int, r: int, d: int)

  /**
   * The next counts: each compartment loses and gains its transitions,
   * floored at zero, and S is recomputed when the five do not add up to
   * the population.
   */
  function NextCounts(t: Tally, dr: Draws, population: int): (c: Counts)
    ensures c.s + c.e + c.i + c.r + c.d == population
    ensures c.e >= 0 && c.i >= 0
    ensures c.r == t.r + dr.iToR && c.d == t.d + dr.iToD
  {
    var s := MaxI(0, t.s - dr.newInfections);
    var e := MaxI(0, t.e + dr.newInfections - dr.eToI);
    var i := MaxI(0, t.i + dr.eToI - dr.iToR - dr.iToD);
    var r := t.r + dr.iToR;
    var d := t.d + dr.iToD;
    if s + e + i + r + d != population then Counts(population - e - i - r - d, e, i, r, d)
    else Counts(s, e, i, r, d)
  }

  /**
   * From counts that add up to the population, the floors and the S fix
   * never act: each compartment changes by exactly its transitions, and
   * every count stays non-negative.
   */
  lemma NextCountsExact(t: Tally, dr: Draws, population: int)
    requires DrawsFit(t, dr) && t.Total() == population
    ensures NextCounts(t, dr, population) ==
              Counts(t.s - dr.newInfections, t.e + dr.newInfections - dr.eToI,
                     t.i + dr.eToI - dr.iToR - dr.iToD, t.r + dr.iToR, t.d + dr.iToD)
    ensures var c := NextCounts(t, dr, population);
            c.s >= 0 && c.e >= 0 && c.i >= 0 && c.r >= 0 && c.d >= 0
  {
  }

  /** The step's reproduction number: new infections per day per infectious agent, times the infectious period. */
  function StepRt(newInfections: nat, dt: real, currentI: nat, infectiousMean: real): (rt: real)
    requires currentI > 0 ==> dt != 0.0
    ensures dt > 0.0 && infectiousMean >= 0.0 ==> rt >= 0.0
    ensures dt > 0.0 && infectiousMean > 0.0 ==> (rt == 0.0 <==> currentI == 0 || newInfections == 0)
  {
    if currentI > 0 then PerCapita(newInfections, dt, currentI) * infectiousMean else 0.0
  }

  /** `(new_infections / dt) / current_i`. */
  function PerCapita(newInfections: nat, dt: real, currentI: nat): (q: real)
    requires dt != 0.0 && currentI > 0
    ensures dt > 0.0 ==> q >= 0.0 && (q == 0.0 <==> newInfections == 0)
  {
    var perDay := newInfections as real / dt;
    assert perDay * dt == newInfections as real;
    var q := perDay / currentI as real;
    assert q * currentI as real == perDay;
    q
  }

  /** The two `random.uniform(-1, 1)` draws of one agent's random walk. */
  datatype Move = Move(dx: real, dy: real)

  predicate MovesFit(moves: seq<Move>) {
    forall k :: 0 <= k < |moves| ==> -1.0 <= moves[k].dx <= 1.0 && -1.0 <= moves[k].dy <= 1.0
  }

  /** `max(0, min(grid_size, v))`. */
  function ClampToGrid(v: real, grid: int): (r: real)
    ensures grid >= 0 ==> 0.0 <= r <= grid as real
    ensures 0.0 <= v <= grid as real ==> r == v
    ensures grid >= 0 && v < 0.0 ==> r == 0.0
    ensures grid >= 0 && grid as real < v ==> r == grid as real
  {
    MaxR(0.0, MinR(grid as real, v))
  }

  /**
   * The first compartment, in the order D, R, I, E, S, whose count has not
   * reached its target; None when every one has.
   */
  function FirstWithRoom(counts: Tally, targets: Tally): (r: Option<Compartment>)
    ensures r.Some? ==> counts.Get(r.value) < targets.Get(r.value)
    ensures r.None? <==> forall c :: counts.Get(c) >= targets.Get(c)
  {
    if counts.d < targets.d then Some(D)
    else if counts.r < targets.r then Some(R)
    else if counts.i < targets.i then Some(I)
    else if counts.e < targets.e then Some(E)
    else if counts.s < targets.s then Some(S)
    else None
  }

  /**
   * An agent keeps its state while that state's count is below target;
   * otherwise it moves to the first state with room and restarts its days
   * there; with no room anywhere it is left as it is and not counted.
   */
  function Settle(a: Agent, counts: Tally, targets: Tally): (Agent, Tally) {
    if counts.Get(a.state) < targets.Get(a.state) then (a, counts.Inc(a.state))
    else match FirstWithRoom(counts, targets)
      case Some(c) => (a.(state := c, daysInState := 0.0), counts.Inc(c))
      case None => (a, counts)
  }

  /** A living, non-isolated agent takes one random-walk step, kept inside the grid. */
  function Walk(a: Agent, m: Move, dt: real, grid: int): Agent {
    if a.state != D && !a.isIsolated then
      a.(x := ClampToGrid(a.x + m.dx * dt, grid), y := ClampToGrid(a.y + m.dy * dt, grid))
    else a
  }

  /** One pass of the reconciliation loop body: settle, walk, and add `dt` to the days in state. */
  function ReconcileOne(a: Agent, counts: Tally, targets: Tally, m: Move, dt: real, grid: int): (Agent, Tally) {
    var settled := Settle(a, counts, targets);
    var w := Walk(settled.0, m, dt, grid);
    (w.(daysInState := w.daysInState + dt), settled.1)
  }

  /** The agents after the reconciliation loop has passed over all of them, and the running tally. */
  function Reconciled(agents: seq<Agent>, targets: Tally, moves: seq<Move>, dt: real, grid: int): (r: (seq<Agent>, Tally))
    requires |moves| == |agents|
    ensures |r.0| == |agents|
  {
    if agents == [] then ([], NoAgents)
    else
      var n := |agents| - 1;
      var prev := Reconciled(agents[..n], targets, moves[..n], dt, grid);
      var one := ReconcileOne(agents[n], prev.1, targets, moves[n], dt, grid);
      (prev.0 + [one.0], one.1)
  }

  /** Taking one more element of a sequence appends that element. */
  lemma TakeOneMore<T>(s: seq<T>, k: nat)
    requires k < |s|
    ensures s[..k + 1] == s[..k] + [s[k]]
  {
  }

  /** Reconciling one more agent is the loop body applied to it with the tally so far. */
  lemma ReconciledSnoc(agents: seq<Agent>, a: Agent, targets: Tally, moves: seq<Move>, m: Move, dt: real, grid: int)
    requires |moves| == |agents|
    ensures var prev := Reconciled(agents, targets, moves, dt, grid);
            var one := ReconcileOne(a, prev.1, targets, m, dt, grid);
            Reconciled(agents + [a], targets, moves + [m], dt, grid) == (prev.0 + [one.0], one.1)
  {
    assert (agents + [a])[..|agents|] == agents;
    assert (moves + [m])[..|moves|] == moves;
  }

  /** Every tally count is within its target. */
  predicate Within(counts: Tally, targets: Tally) {
    counts.s <= targets.s && counts.e <= targets.e && counts.i <= targets.i && counts.r <= targets.r && counts.d <= targets.d
  }

  /**
   * While the tally is within the targets and below their total, the loop
   * body counts the agent once, in the state it leaves it in, and stays
   * within the targets.
   */
  lemma SettleCounts(a: Agent, counts: Tally, targets: Tally, m: Move, dt: real, grid: int)
    requires Within(counts, targets) && counts.Total() < targets.Total()
    ensures var one := ReconcileOne(a, counts, targets, m, dt, grid);
            one.1 == counts.Inc(one.0.state) && Within(one.1, targets)
  {
    assert FirstWithRoom(counts, targets).Some?;
  }

  /**
   * While the targets leave room for every agent, each agent is counted in
   * the state it ends in: the tally is the census of the reconciled agents
   * and never exceeds a target.
   */
  lemma {:induction false} ReconciledCounts(agents: seq<Agent>, targets: Tally, moves: seq<Move>, dt: real, grid: int)
    requires |moves| == |agents| && |agents| <= targets.Total()
    ensures Reconciled(agents, targets, moves, dt, grid).1 == Census(Reconciled(agents, targets, moves, dt, grid).0)
    ensures Within(Reconciled(agents, targets, moves, dt, grid).1, targets)
  {
    if agents != [] {
      var n := |agents| - 1;
      var prev := Reconciled(agents[..n], targets, moves[..n], dt, grid);
      var one := ReconcileOne(agents[n], prev.1, targets, moves[n], dt, grid);
      assert Reconciled(agents, targets, moves, dt, grid) == (prev.0 + [one.0], one.1);
      assert prev.1 == Census(prev.0) && Within(prev.1, targets) by {
        ReconciledCounts(agents[..n], targets, moves[..n], dt, grid);
      }
      assert prev.1.Total() == n by {
        CensusTotal(prev.0);
      }
      assert one.1 == prev.1.Inc(one.0.state) && Within(one.1, targets) by {
        SettleCounts(agents[n], prev.1, targets, moves[n], dt, grid);
      }
      assert Census(prev.0 + [one.0]) == Census(prev.0).Inc(one.0.state) by {
        CensusAppend(prev.0, one.0);
      }
    }
  }

  /** When the targets add up to the number of agents, the census after reconciliation is exactly the targets. */
  lemma ReconciledCensus(agents: seq<Agent>, targets: Tally, moves: seq<Move>, dt: real, grid: int)
    requires |moves| == |agents| && |agents| == targets.Total()
    ensures Census(Reconciled(agents, targets, moves, dt, grid).0) == targets
  {
    ReconciledCounts(agents, targets, moves, dt, grid);
    CensusTotal(Reconciled(agents, targets, moves, dt, grid).0);
  }

  /** The first `j` agents after reconciliation are what reconciling the first `j` alone gives. */
  lemma {:induction false} ReconciledPrefix(agents: seq<Agent>, targets: Tally, moves: seq<Move>, dt: real, grid: int, j: nat)
    requires |moves| == |agents| && j <= |agents|
    ensures Reconciled(agents[..j], targets, moves[..j], dt, grid).0 == Reconciled(agents, targets, moves, dt, grid).0[..j]
  {
    if j < |agents| {
      var n := |agents| - 1;
      TakeOneMore(agents, n);
      TakeOneMore(moves, n);
      assert agents[..n + 1] == agents && moves[..n + 1] == moves;
      ReconciledSnoc(agents[..n], agents[n], targets, moves[..n], moves[n], dt, grid);
      ReconciledPrefix(agents[..n], targets, moves[..n], dt, grid, j);
      assert agents[..n][..j] == agents[..j] && moves[..n][..j] == moves[..j];
    } else {
      assert agents[..j] == agents && moves[..j] == moves;
    }
  }

  /** Agent `k` after reconciliation is the loop body applied to it with the tally of the agents before it. */
  lemma ReconciledAt(agents: seq<Agent>, targets: Tally, moves: seq<Move>, dt: real, grid: int, k: nat)
    requires |moves| == |agents| && k < |agents|
    ensures Reconciled(agents, targets, moves, dt, grid).0[k] ==
            ReconcileOne(agents[k], Reconciled(agents[..k], targets, moves[..k], dt, grid).1, targets, moves[k], dt, grid).0
  {
    var prev := Reconciled(agents[..k], targets, moves[..k], dt, grid);
    var one := ReconcileOne(agents[k], prev.1, targets, moves[k], dt, grid);
    ReconciledPrefix(agents, targets, moves, dt, grid, k + 1);
    TakeOneMore(agents, k);
    TakeOneMore(moves, k);
    ReconciledSnoc(agents[..k], agents[k], targets, moves[..k], moves[k], dt, grid);
    var upTo := Reconciled(agents[..k + 1], targets, moves[..k + 1], dt, grid).0;
    assert upTo == prev.0 + [one.0];
    assert upTo[k] == one.0;
  }

  /**
   * What the loop body does to one agent: id and isolation are kept; an
   * agent that changes state has spent `dt` days in the new one, otherwise
   * its days grow by `dt`; deceased and isolated agents stay where they
   * are, and every agent that starts inside the grid ends inside it.
   */
  lemma ReconcileOneFacts(a: Agent, counts: Tally, targets: Tally, m: Move, dt: real, grid: int)
    ensures var b := ReconcileOne(a, counts, targets, m, dt, grid).0;
            && b.id == a.id && b.isIsolated == a.isIsolated
            && (b.state != a.state ==> b.daysInState == dt)
            && (b.state == a.state ==> b.daysInState == a.daysInState + dt)
            && (b.state == D || a.isIsolated ==> b.x == a.x && b.y == a.y)
            && (grid >= 0 && OnGrid(a, grid) ==> OnGrid(b, grid))
  {
  }

  /** The reconciliation keeps every agent's id and keeps every agent inside the grid. */
  lemma ReconciledAgentsOk(agents: seq<Agent>, targets: Tally, moves: seq<Move>, dt: real, c: SimulationConfig)
    requires |moves| == |agents| && AgentsOk(agents, c) && c.gridSize >= 0
    ensures AgentsOk(Reconciled(agents, targets, moves, dt, c.gridSize).0, c)
  {
    var out := Reconciled(agents, targets, moves, dt, c.gridSize).0;
    forall k | 0 <= k < |out|
      ensures out[k].id == k && OnGrid(out[k], c.gridSize)
    {
      ReconciledAt(agents, targets, moves, dt, c.gridSize, k);
      var counts := Reconciled(agents[..k], targets, moves[..k], dt, c.gridSize).1;
      ReconcileOneFacts(agents[k], counts, targets, moves[k], dt, c.gridSize);
    }
  }

  /** The next counts as a tally, for reachable states where they are all non-negative. */
  function Targets(c: Counts): Tally
    requires c.s >= 0 && c.e >= 0 && c.i >= 0 && c.r >= 0 && c.d >= 0
  {
    Tally(c.s, c.e, c.i, c.r, c.d)
  }

  /**
   * `run_step` on a stored simulation: one more step and `dt` more days,
   * one more entry in each history and in the Rt history, the agents
   * reconciled with the new counts, and the status Completed when no one is
   * infectious or exposed any more, Running otherwise.
   */
  function Step(sim: Simulation, dr: Draws, moves: seq<Move>): Simulation
    requires WellFormed(sim) && DrawsFit(Latest(sim.stats), dr) && |moves| == |sim.agents|
  {
    var c := sim.config;
    var dt := c.timeStep;
    var cur := Latest(sim.stats);
    var next := NextCounts(cur, dr, c.populationSize);
    NextCountsExact(cur, dr, c.populationSize);
    var h := sim.stats;
    sim.(currentDay := sim.currentDay + dt,
         totalSteps := sim.totalSteps + 1,
         status := if next.i == 0 && next.e == 0 then Completed else Running,
         stats := History(h.s + [next.s], h.e + [next.e], h.i + [next.i], h.r + [next.r], h.d + [next.d]),
         rtHistory := sim.rtHistory + [StepRt(dr.newInfections, dt, cur.i, c.infectiousMean)],
         agents := Reconciled(sim.agents, Targets(next), moves, dt, c.gridSize).0)
  }

  /** `b`'s five histories and its Rt history are `a`'s with `n` more entries each, the earlier ones untouched. */
  predicate Extends(a: Simulation, b: Simulation, n: nat) {
    && |b.stats.s| == |a.stats.s| + n && b.stats.s[..|a.stats.s|] == a.stats.s
    && |b.stats.e| == |a.stats.e| + n && b.stats.e[..|a.stats.e|] == a.stats.e
    && |b.stats.i| == |a.stats.i| + n && b.stats.i[..|a.stats.i|] == a.stats.i
    && |b.stats.r| == |a.stats.r| + n && b.stats.r[..|a.stats.r|] == a.stats.r
    && |b.stats.d| == |a.stats.d| + n && b.stats.d[..|a.stats.d|] == a.stats.d
    && |b.rtHistory| == |a.rtHistory| + n && b.rtHistory[..|a.rtHistory|] == a.rtHistory
  }

  /** Growing by `m` entries and then by `n` grows by `m + n`. */
  lemma ExtendsTrans(a: Simulation, b: Simulation, c: Simulation, m: nat, n: nat)
    requires Extends(a, b, m) && Extends(b, c, n)
    ensures Extends(a, c, m + n)
  {
    assert c.stats.s[..|a.stats.s|] == c.stats.s[..|b.stats.s|][..|a.stats.s|];
    assert c.stats.e[..|a.stats.e|] == c.stats.e[..|b.stats.e|][..|a.stats.e|];
    assert c.stats.i[..|a.stats.i|] == c.stats.i[..|b.stats.i|][..|a.stats.i|];
    assert c.stats.r[..|a.stats.r|] == c.stats.r[..|b.stats.r|][..|a.stats.r|];
    assert c.stats.d[..|a.stats.d|] == c.stats.d[..|b.stats.d|][..|a.stats.d|];
    assert c.rtHistory[..|a.rtHistory|] == c.rtHistory[..|b.rtHistory|][..|a.rtHistory|];
  }

  /**
   * A step appends exactly one entry to each history, all earlier entries
   * kept, advances the step count by one and the day by `dt`, and leaves
   * the configuration and the id alone.
   */
  lemma StepAppends(sim: Simulation, dr: Draws, moves: seq<Move>)
    requires WellFormed(sim) && DrawsFit(Latest(sim.stats), dr) && |moves| == |sim.agents|
    ensures var next := Step(sim, dr, moves);
            && next.id == sim.id && next.config == sim.config
            && next.totalSteps == sim.totalSteps + 1
            && next.currentDay == sim.currentDay + sim.config.timeStep
            && Extends(sim, next, 1)
  {
    var next := Step(sim, dr, moves);
    assert next.stats.s[..|sim.stats.s|] == sim.stats.s;
    assert next.stats.e[..|sim.stats.e|] == sim.stats.e;
    assert next.stats.i[..|sim.stats.i|] == sim.stats.i;
    assert next.stats.r[..|sim.stats.r|] == sim.stats.r;
    assert next.stats.d[..|sim.stats.d|] == sim.stats.d;
    assert next.rtHistory[..|sim.rtHistory|] == sim.rtHistory;
  }

  /**
   * After a step the new counts add up to the population, R and D have not
   * fallen, each changes by its transitions, and the number of agents in
   * each state is that state's new count.
   */
  lemma StepCounts(sim: Simulation, dr: Draws, moves: seq<Move>)
    requires WellFormed(sim) && DrawsFit(Latest(sim.stats), dr) && |moves| == |sim.agents|
    ensures var next := Step(sim, dr, moves);
            var old_ := Latest(sim.stats);
            Aligned(next.stats) &&
            var now := Latest(next.stats);
            && now.Total() == sim.config.populationSize
            && now.s == old_.s - dr.newInfections
            && now.e == old_.e + dr.newInfections - dr.eToI
            && now.i == old_.i + dr.eToI - dr.iToR - dr.iToD
            && now.r == old_.r + dr.iToR && now.d == old_.d + dr.iToD
            && Census(next.agents) == now
  {
    var c := sim.config;
    var cur := Latest(sim.stats);
    NextCountsExact(cur, dr, c.populationSize);
    var next := NextCounts(cur, dr, c.populationSize);
    CensusTotal(sim.agents);
    ReconciledCensus(sim.agents, Targets(next), moves, c.timeStep, c.gridSize);
  }

  /** The status after a step is Completed exactly when the new I and E are both zero. */
  lemma StepStatus(sim: Simulation, dr: Draws, moves: seq<Move>)
    requires WellFormed(sim) && DrawsFit(Latest(sim.stats), dr) && |moves| == |sim.agents|
    ensures var next := Step(sim, dr, moves);
            var n := |next.stats.s| - 1;
            |next.stats.i| == |next.stats.e| == n + 1 &&
            (next.status == Completed <==> next.stats.i[n] == 0 && next.stats.e[n] == 0) &&
            (next.status != Completed ==> next.status == Running)
  {
  }

  /** Every step of a well-formed simulation yields a well-formed simulation. */
  lemma StepWellFormed(sim: Simulation, dr: Draws, moves: seq<Move>)
    requires WellFormed(sim) && DrawsFit(Latest(sim.stats), dr) && |moves| == |sim.agents| && MovesFit(moves)
    ensures WellFormed(Step(sim, dr, moves))
  {
    var c := sim.config;
    var cur := Latest(sim.stats);
    var next := Step(sim, dr, moves);
    var n := NextCounts(cur, dr, c.populationSize);
    StepCounts(sim, dr, moves);
    NextCountsExact(cur, dr, c.populationSize);
    HistoryStep(sim.stats, n, c.populationSize);
    assert HistoryOk(next.stats, c.populationSize);
    ReconciledAgentsOk(sim.agents, Targets(n), moves, c.timeStep, c);
    RtHistoryStep(sim, dr);
    assert Latest(next.stats) == Tally(n.s, n.e, n.i, n.r, n.d);
    assert next.status == StatusFor(next.totalSteps, Latest(next.stats));
  }

  /** Appending a conserving, non-negative step with R and D not falling keeps the histories in order. */
  lemma HistoryStep(h: History, n: Counts, population: int)
    requires HistoryOk(h, population)
    requires n.s >= 0 && n.e >= 0 && n.i >= 0 && n.r >= 0 && n.d >= 0
    requires n.s + n.e + n.i + n.r + n.d == population
    requires n.r >= h.r[|h.r| - 1] && n.d >= h.d[|h.d| - 1]
    ensures HistoryOk(History(h.s + [n.s], h.e + [n.e], h.i + [n.i], h.r + [n.r], h.d + [n.d]), population)
  {
  }

  /** The Rt history stays non-negative and one entry longer than the step count. */
  lemma RtHistoryStep(sim: Simulation, dr: Draws)
    requires WellFormed(sim) && DrawsFit(Latest(sim.stats), dr)
    ensures var rt := sim.rtHistory + [StepRt(dr.newInfections, sim.config.timeStep, Latest(sim.stats).i, sim.config.infectiousMean)];
            forall k :: 0 <= k < |rt| ==> rt[k] >= 0.0
  {
  }

  /** `b` is what one step can make of the well-formed simulation `a`, for some draws and some random walk. */
  ghost predicate OneStep(a: Simulation, b: Simulation) {
    WellFormed(a) &&
    exists dr: Draws, moves: seq<Move> ::
      DrawsFit(Latest(a.stats), dr) && |moves| == |a.agents| && MovesFit(moves) && b == Step(a, dr, moves)
  }

  /** Each record of `trace` is what one step can make of the record before it. */
  ghost predicate IsRun(trace: seq<Simulation>) {
    forall t :: 0 <= t < |trace| - 1 ==> OneStep(trace[t], trace[t + 1])
  }

  /** `trace` is a run of `n` steps from `a` to `b`. */
  ghost predicate RunOf(trace: seq<Simulation>, a: Simulation, b: Simulation, n: nat) {
    |trace| == n + 1 && trace[0] == a && trace[n] == b && IsRun(trace)
  }

  /** `b` is what `n` steps can make of `a`. */
  ghost predicate StepsTo(a: Simulation, b: Simulation, n: nat) {
    exists trace: seq<Simulation> :: RunOf(trace, a, b, n)
  }

  /**
   * Once no one is infectious or exposed, a step changes no count: no one
   * can be infected, fall ill, recover or die, and the simulation stays
   * Completed.
   */
  lemma CompletedIsAbsorbing(sim: Simulation, dr: Draws, moves: seq<Move>)
    requires WellFormed(sim) && DrawsFit(Latest(sim.stats), dr) && |moves| == |sim.agents|
    requires sim.status == Completed
    ensures Aligned(Step(sim, dr, moves).stats)
    ensures Latest(Step(sim, dr, moves).stats) == Latest(sim.stats)
    ensures Step(sim, dr, moves).status == Completed
  {
    assert dr == Draws(0, 0, 0, 0);
    StepCounts(sim, dr, moves);
  }

  /** Each step of a run adds one entry to every history and keeps the entries already there. */
  lemma RunStepExtends(trace: seq<Simulation>, t: nat)
    requires IsRun(trace) && t < |trace| - 1
    ensures Extends(trace[t], trace[t + 1], 1)
  {
    var a, b := trace[t], trace[t + 1];
    assert OneStep(a, b);
    var dr: Draws, moves: seq<Move> :|
      DrawsFit(Latest(a.stats), dr) && |moves| == |a.agents| && MovesFit(moves) && b == Step(a, dr, moves);
    StepAppends(a, dr, moves);
  }

  /** A run of `|trace| - 1` steps adds that many entries to every history. */
  lemma {:induction false} RunExtends(trace: seq<Simulation>)
    requires |trace| > 0 && IsRun(trace)
    ensures Extends(trace[0], trace[|trace| - 1], |trace| - 1)
  {
    if |trace| > 1 {
      var front := trace[..|trace| - 1];
      assert forall t :: 0 <= t < |front| ==> front[t] == trace[t];
      RunExtends(front);
      RunStepExtends(trace, |trace| - 2);
      ExtendsTrans(trace[0], trace[|trace| - 2], trace[|trace| - 1], |trace| - 2, 1);
    }
  }

  /** `n` steps add `n` entries to every history and keep the entries already there. */
  lemma StepsToExtends(a: Simulation, b: Simulation, n: nat)
    requires StepsTo(a, b, n)
    ensures Extends(a, b, n)
  {
    var trace: seq<Simulation> :| RunOf(trace, a, b, n);
    RunExtends(trace);
  }

  /** A run followed by one more step is a run. */
  lemma RunNext(trace: seq<Simulation>, b: Simulation)
    requires |trace| > 0 && IsRun(trace) && OneStep(trace[|trace| - 1], b)
    ensures IsRun(trace + [b])
  {
    var run := trace + [b];
    forall t | 0 <= t < |run| - 1
      ensures OneStep(run[t], run[t + 1])
    {
      if t < |trace| - 1 {
        assert run[t] == trace[t] && run[t + 1] == trace[t + 1];
      }
    }
  }

  /** A step with draws and a walk that fit is one of the steps `OneStep` allows, and adds one entry to every history. */
  lemma StepIsOneStep(before: Simulation, dr: Draws, moves: seq<Move>)
    requires WellFormed(before) && DrawsFit(Latest(before.stats), dr) && |moves| == |before.agents| && MovesFit(moves)
    ensures OneStep(before, Step(before, dr, moves))
    ensures Extends(before, Step(before, dr, moves), 1)
  {
    StepAppends(before, dr, moves);
  }

  /** Someone is infectious or exposed at the latest entry of the history. */
  predicate Active(sim: Simulation) {
    |sim.stats.i| > 0 && |sim.stats.e| > 0 && (sim.stats.i[|sim.stats.i| - 1] != 0 || sim.stats.e[|sim.stats.e| - 1] != 0)
  }
}

=== FILE: simulations.dfy ===
/**
 * The in-memory simulation store of the simulations API and the endpoints
 * that drive it: create (after validating the configuration), a single
 * step, and a run of many steps. The store maps simulation ids to their
 * records in insertion order; every stored record keeps the invariant
 * `WellFormed` of the simulation model.
 */
module Simulations {
  import opened Wrappers
  import opened PyNum
  import opened Agents
  import opened Validation
  import opened Dicts
  import opened SimulationModel

  /**
   * `n` Bernoulli trials `random.random() < p`: how many succeed. The draw
   * is any number in [0, 1), as `random.random()` promises.
   */
  method CountHits(n: nat, p: real) returns (hits: nat)
    ensures hits <= n
    ensures p <= 0.0 ==> hits == 0
    ensures p >= 1.0 ==> hits == n
  {
    hits := 0;
    var k := 0;
    while k < n
      invariant 0 <= k <= n
      invariant hits <= k
      invariant p <= 0.0 ==> hits == 0
      invariant p >= 1.0 ==> hits == k
    {
      var u: real :| 0.0 <= u < 1.0;
      if u < p {
        hits := hits + 1;
      }
      k := k + 1;
    }
  }

  /**
   * The I -> R/D trials of `run_step`: each of `n` infectious agents leaves
   * with probability `p`, and one who leaves dies with probability
   * `mortality`, else recovers.
   */
  method CountOutcomes(n: nat, p: real, mortality: real) returns (toR: nat, toD: nat)
    ensures toR + toD <= n
    ensures p <= 0.0 ==> toR == 0 && toD == 0
    ensures mortality <= 0.0 ==> toD == 0
    ensures mortality >= 1.0 ==> toR == 0
    ensures p >= 1.0 ==> toR + toD == n
  {
    toR, toD := 0, 0;
    var k := 0;
    while k < n
      invariant 0 <= k <= n
      invariant toR + toD <= k
      invariant p <= 0.0 ==> toR == 0 && toD == 0
      invariant mortality <= 0.0 ==> toD == 0
      invariant mortality >= 1.0 ==> toR == 0
      invariant p >= 1.0 ==> toR + toD == k
    {
      var u: real :| 0.0 <= u < 1.0;
      if u < p {
        var v: real :| 0.0 <= v < 1.0;
        if v < mortality {
          toD := toD + 1;
        } else {
          toR := toR + 1;
        }
      }
      k := k + 1;
    }
  }

  /**
   * The random transitions of one step from counts `t`: new infections only
   * while someone is infectious and someone susceptible, with per-agent
   * probability `infection_rate * I / population * dt`; E -> I with
   * probability `dt / incubation_mean`; I -> R/D with probability
   * `dt / infectious_mean`, split by the mortality rate.
   */
  method DrawTransitions(t: Tally, c: SimulationConfig) returns (dr: Draws)
    requires Admissible(c)
    ensures DrawsFit(t, dr)
    ensures c.infectionRate == 0.0 ==> dr.newInfections == 0
    ensures c.mortalityRate == 0.0 ==> dr.iToD == 0
    ensures c.mortalityRate == 1.0 ==> dr.iToR == 0
  {
    var dt := c.timeStep;
    var newInfections := 0;
    if t.i > 0 && t.s > 0 {
      var infectionProb := c.infectionRate * t.i as real / c.populationSize as real * dt;
      newInfections := CountHits(t.s, infectionProb);
    }
    var eToI := 0;
    if t.e > 0 {
      eToI := CountHits(t.e, dt / c.incubationMean);
    }
    var iToR, iToD := 0, 0;
    if t.i > 0 {
      iToR, iToD := CountOutcomes(t.i, dt / c.infectiousMean, c.mortalityRate);
    }
    dr := Draws(newInfections, eToI, iToR, iToD);
  }

  /** The search of the reconciliation loop for a state with room, in the order D, R, I, E, S. */
  method FindRoom(counts: Tally, targets: Tally) returns (room: Option<Compartment>)
    ensures room == FirstWithRoom(counts, targets)
  {
    var k := 0;
    while k < |FillOrder|
      invariant 0 <= k <= |FillOrder|
      invariant forall j :: 0 <= j < k ==> counts.Get(FillOrder[j]) >= targets.Get(FillOrder[j])
    {
      var state := FillOrder[k];
      if counts.Get(state) < targets.Get(state) {
        return Some(state);
      }
      k := k + 1;
    }
    assert counts.Get(FillOrder[0]) >= targets.Get(FillOrder[0]);
    assert counts.Get(FillOrder[1]) >= targets.Get(FillOrder[1]);
    assert counts.Get(FillOrder[2]) >= targets.Get(FillOrder[2]);
    assert counts.Get(FillOrder[3]) >= targets.Get(FillOrder[3]);
    assert counts.Get(FillOrder[4]) >= targets.Get(FillOrder[4]);
    return None;
  }

  /**
   * The first half of a pass of the reconciliation loop: the agent keeps
   * its state while that state has room, else takes the first state with
   * room and restarts its days there, and is counted in the state it ends in.
   */
  method SettleAgent(agent: Agent, counts: Tally, targets: Tally) returns (a: Agent, counts': Tally)
    ensures (a, counts') == Settle(agent, counts, targets)
  {
    a, counts' := agent, counts;
    if counts.Get(agent.state) < targets.Get(agent.state) {
      counts' := counts.Inc(agent.state);
    } else {
      var room := FindRoom(counts, targets);
      if room.Some? {
        a := agent.(state := room.value, daysInState := 0.0);
        counts' := counts.Inc(room.value);
      }
    }
  }

  /**
   * One pass of the reconciliation loop: settle the agent; then, alive and
   * not isolated, it takes a random-walk step kept inside the grid; and it
   * ages by `dt`. `m` is the walk step drawn, zero when it does not walk.
   */
  method ReconcileAgent(agent: Agent, counts: Tally, targets: Tally, dt: real, grid: int)
    returns (a: Agent, counts': Tally, m: Move)
    ensures -1.0 <= m.dx <= 1.0 && -1.0 <= m.dy <= 1.0
    ensures (a, counts') == ReconcileOne(agent, counts, targets, m, dt, grid)
  {
    a, counts' := SettleAgent(agent, counts, targets);
    m := Move(0.0, 0.0);
    if a.state != D && !a.isIsolated {
      var dx: real :| -1.0 <= dx <= 1.0;
      var dy: real :| -1.0 <= dy <= 1.0;
      m := Move(dx, dy);
    }
    a := Walk(a, m, dt, grid);
    a := a.(daysInState := a.daysInState + dt);
  }

  /**
   * The reconciliation loop of `run_step`, over all agents in order.
   * `moves` records the walk steps drawn.
   */
  method ReconcileAgents(agents: seq<Agent>, targets: Tally, dt: real, grid: int)
    returns (out: seq<Agent>, ghost moves: seq<Move>)
    ensures |out| == |agents|
    ensures forall k :: 0 <= k < |out| ==> out[k].id == agents[k].id && out[k].isIsolated == agents[k].isIsolated
    ensures |moves| == |agents| && MovesFit(moves)
    ensures out == Reconciled(agents, targets, moves, dt, grid).0
  {
    var counts := NoAgents;
    out, moves := [], [];
    var k := 0;
    while k < |agents|
      invariant 0 <= k <= |agents|
      invariant |moves| == k && MovesFit(moves)
      invariant (out, counts) == Reconciled(agents[..k], targets, moves, dt, grid)
      invariant |out| == k
      invariant forall j :: 0 <= j < k ==> out[j].id == agents[j].id && out[j].isIsolated == agents[j].isIsolated
    {
      var agent;
      ghost var m;
      ghost var before := counts;
      agent, counts, m := ReconcileAgent(agents[k], counts, targets, dt, grid);
      ReconcileOneFacts(agents[k], before, targets, m, dt, grid);
      KeepsIdentity(out, agents, agent);
      ReconciledSnoc(agents[..k], agents[k], targets, moves, m, dt, grid);
      TakeOneMore(agents, k);
      out, moves := out + [agent], moves + [m];
      k := k + 1;
    }
    assert agents[..|agents|] == agents;
  }

  /** Appending an agent that kept its identity keeps the whole prefix's identities. */
  lemma KeepsIdentity(out: seq<Agent>, agents: seq<Agent>, agent: Agent)
    requires |out| < |agents|
    requires forall j :: 0 <= j < |out| ==> out[j].id == agents[j].id && out[j].isIsolated == agents[j].isIsolated
    requires agent.id == agents[|out|].id && agent.isIsolated == agents[|out|].isIsolated
    ensures forall j :: 0 <= j < |out| + 1 ==>
      (out + [agent])[j].id == agents[j].id && (out + [agent])[j].isIsolated == agents[j].isIsolated
  {
  }

  /** The record stored under `id`: the term the store's invariant is stated over. */
  ghost function Entry(d: Dict<string, Simulation>, id: string): Simulation
    requires id in d.values
  {
    d.values[id]
  }

  /** Every stored record is well-formed and carries the id it is stored under. */
  ghost predicate StoreOk(d: Dict<string, Simulation>) {
    d.Valid() && forall id {:trigger Entry(d, id)} :: id in d.values ==> WellFormed(Entry(d, id)) && Entry(d, id).id == id
  }

  /** What the store's invariant says about one stored record. */
  lemma StoreEntry(d: Dict<string, Simulation>, id: string)
    requires StoreOk(d) && id in d.values
    ensures WellFormed(d.values[id]) && d.values[id].id == id
  {
    assert WellFormed(Entry(d, id));
  }

  /** What the store's invariant says about every stored record. */
  lemma StoreAll(d: Dict<string, Simulation>)
    requires StoreOk(d)
    ensures forall id :: id in d.values ==> WellFormed(d.values[id]) && d.values[id].id == id
  {
    forall id | id in d.values
      ensures WellFormed(d.values[id]) && d.values[id].id == id
    {
      StoreEntry(d, id);
    }
  }

  /** Storing a well-formed record under its own id keeps the store in order. */
  lemma StoreOkPut(d: Dict<string, Simulation>, id: string, sim: Simulation)
    requires StoreOk(d) && WellFormed(sim) && sim.id == id
    ensures StoreOk(d.Put(id, sim))
  {
    var d' := d.Put(id, sim);
    forall k | k in d'.values
      ensures WellFormed(Entry(d', k)) && Entry(d', k).id == k
    {
      if k != id {
        assert d'.Get(k) == d.Get(k);
        assert Entry(d', k) == Entry(d, k);
      }
    }
  }

  /** Removing a record keeps the store in order. */
  lemma StoreOkRemove(d: Dict<string, Simulation>, id: string)
    requires StoreOk(d)
    ensures StoreOk(d.Remove(id))
  {
    var d' := d.Remove(id);
    forall k | k in d'.values
      ensures WellFormed(Entry(d', k)) && Entry(d', k).id == k
    {
      assert d'.Get(k) == d.Get(k);
      assert Entry(d', k) == Entry(d, k);
    }
  }

  class SimulationStore {
    /** `_simulations`: simulation id to simulation record, in creation order. */
    var simulations: Dict<string, Simulation>

    ghost predicate Valid()
      reads this
    {
      StoreOk(simulations)
    }

    constructor()
      ensures Valid() && simulations.keys == []
    {
      simulations := Empty();
    }

    /**
     * `_create_mock_agents`: one agent per member of the population,
     * numbered from 0, the first `initial_infected` infectious and the
     * rest susceptible, at uniformly drawn positions of the grid.
     */
    method CreateMockAgents(config: SimulationConfig) returns (agents: seq<Agent>)
      requires config.populationSize >= 0 && config.gridSize >= 0
      ensures IsMockAgents(agents, config)
    {
      agents := [];
      var k := 0;
      while k < config.populationSize
        invariant 0 <= k <= config.populationSize
        invariant |agents| == k
        invariant forall j :: 0 <= j < k ==>
                    agents[j].id == j && agents[j].state == (if j < config.initialInfected then I else S) &&
                    agents[j].daysInState == 0.0 && !agents[j].isIsolated && OnGrid(agents[j], config.gridSize)
      {
        var state := if k < config.initialInfected then I else S;
        var x: real :| 0.0 <= x <= config.gridSize as real;
        var y: real :| 0.0 <= y <= config.gridSize as real;
        agents := agents + [Agent(k, x, y, state, 0.0, false)];
        k := k + 1;
      }
    }

    /**
     * `create`: stores a fresh simulation under `"sim_" + hex`, where `hex`
     * stands for the twelve hex digits taken from a random UUID, and
     * returns that id. Assigning an id already present replaces its record
     * in place, as a dict assignment does.
     */
    method Create(hex: string, config: SimulationConfig) returns (simId: string)
      requires Valid() && Admissible(config)
      modifies this
      ensures Valid()
      ensures simId == "sim_" + hex
      ensures simId in simulations.values
      ensures var sim := simulations.values[simId];
              sim == Initial(simId, config, sim.agents) && IsMockAgents(sim.agents, config)
      ensures simulations == old(simulations).Put(simId, simulations.values[simId])
    {
      simId := "sim_" + hex;
      var agents := CreateMockAgents(config);
      InitialWellFormed(simId, config, agents);
      StoreOkPut(simulations, simId, Initial(simId, config, agents));
      simulations := simulations.Put(simId, Initial(simId, config, agents));
    }

    /** `get`: the record stored under `id`, if any; what it returns is always well-formed and carries `id`. */
    function Get(id: string): (r: Option<Simulation>)
      reads this
      requires Valid()
      ensures r.Some? <==> id in simulations.keys
      ensures r.Some? ==> WellFormed(r.value) && r.value.id == id
    {
      if id in simulations.values then StoreEntry(simulations, id); simulations.Get(id) else None
    }

    /** `delete`: removes the record under `id` and reports whether there was one. */
    method Delete(id: string) returns (deleted: bool)
      requires Valid()
      modifies this
      ensures Valid()
      ensures deleted <==> id in old(simulations).keys
      ensures deleted ==> simulations == old(simulations).Remove(id)
      ensures !deleted ==> simulations == old(simulations)
      ensures id !in simulations.keys
    {
      if id in simulations.keys {
        StoreOkRemove(simulations, id);
        simulations := simulations.Remove(id);
        return true;
      }
      return false;
    }

    /** `list_all`: every stored record, once each, in creation order. */
    function ListAll(): (r: seq<Simulation>)
      reads this
      requires Valid()
      ensures |r| == |simulations.keys|
      ensures forall k :: 0 <= k < |r| ==> r[k].id == simulations.keys[k] && WellFormed(r[k])
      ensures forall k :: 0 <= k < |r| ==> Get(r[k].id) == Some(r[k])
    {
      var d := simulations;
      StoreAll(d);
      seq(|d.keys|, k requires 0 <= k < |d.keys| && d.keys[k] in d.values => d.values[d.keys[k]])
    }

    /**
     * `run_step`: False and no change for an unknown id; otherwise the
     * record under `id` advances by one step, with the transitions `dr`
     * and the random walk `moves` that were drawn.
     */
    method RunStep(id: string) returns (ok: bool, ghost dr: Draws, ghost moves: seq<Move>)
      requires Valid()
      modifies this
      ensures Valid()
      ensures ok <==> id in old(simulations).keys
      ensures !ok ==> simulations == old(simulations)
      ensures ok ==> WellFormed(old(simulations).values[id])
      ensures ok ==> var sim := old(simulations).values[id];
                     && DrawsFit(Latest(sim.stats), dr) && |moves| == |sim.agents| && MovesFit(moves)
                     && simulations == old(simulations).Put(id, Step(sim, dr, moves))
    {
      var found := Get(id);
      if found.None? {
        return false, Draws(0, 0, 0, 0), [];
      }
      var sim := found.value;
      var c := sim.config;
      var dt := c.timeStep;
      var cur := Latest(sim.stats);
      var draws := DrawTransitions(cur, c);
      var next := NextCounts(cur, draws, c.populationSize);
      NextCountsExact(cur, draws, c.populationSize);
      var h := sim.stats;
      var rt := StepRt(draws.newInfections, dt, cur.i, c.infectiousMean);
      var agents, walk := ReconcileAgents(sim.agents, Targets(next), dt, c.gridSize);
      var updated := sim.(currentDay := sim.currentDay + dt,
                          totalSteps := sim.totalSteps + 1,
                          status := if next.i == 0 && next.e == 0 then Completed else Running,
                          stats := History(h.s + [next.s], h.e + [next.e], h.i + [next.i], h.r + [next.r], h.d + [next.d]),
                          rtHistory := sim.rtHistory + [rt],
                          agents := agents);
      assert updated == Step(sim, draws, walk);
      StepWellFormed(sim, draws, walk);
      StoreOkPut(simulations, id, updated);
      simulations := simulations.Put(id, updated);
      ok, dr, moves := true, draws, walk;
    }
  }

  const InvalidConfigMsg := "Invalid simulation configuration"
  const AlreadyCompletedMsg := "Simulation has already completed (no infected/exposed remaining)"
  const RunCompletedMsg := "Simulation has already completed"

  function NotFoundMsg(id: string): string {
    "Simulation not found: " + id
  }

  /** The response of `create_simulation`: a 400 with its detail, or the new id. */
  datatype CreateResponse = Rejected(detail: string) | Accepted(simulationId: string)

  /** `error_message or "Invalid simulation configuration"`. */
  function Detail(message: Option<string>): (d: string)
    ensures message.Some? && message.value != "" ==> d == message.value
    ensures d != ""
  {
    if message.Some? && message.value != "" then message.value else InvalidConfigMsg
  }

  /**
   * `create_simulation`: a configuration the validator rejects is refused
   * with the validator's message and the store is left alone; any other is
   * stored as a new simulation in the Created state.
   */
  method CreateSimulation(store: SimulationStore, hex: string, config: SimulationConfig) returns (r: CreateResponse)
    requires store.Valid()
    modifies store
    ensures store.Valid()
    ensures r.Rejected? <==> !Admissible(config)
    ensures r.Rejected? ==> r.detail == Detail(Validate(config).1) && store.simulations == old(store.simulations)
    ensures r.Accepted? ==> r.simulationId == "sim_" + hex && r.simulationId in store.simulations.values &&
                            store.simulations.values[r.simulationId].status == Created &&
                            store.simulations.values[r.simulationId].config == config
  {
    var verdict := Validate(config);
    ValidateAcceptsExactlyAdmissible(config);
    if !verdict.0 {
      return Rejected(Detail(verdict.1));
    }
    var simId := store.Create(hex, config);
    return Accepted(simId);
  }

  /** The response of `run_simulation_step`: a 404, a 400, or the state after the step. */
  datatype StepResponse = StepNotFound(detail: string) | StepRefused(detail: string) | Stepped(state: Simulation)

  /**
   * `run_simulation_step`: an unknown id is a 404 and a completed
   * simulation a 400, both leaving the store alone; otherwise the
   * simulation advances by exactly one step.
   */
  method RunSimulationStep(store: SimulationStore, id: string) returns (r: StepResponse)
    requires store.Valid()
    modifies store
    ensures store.Valid()
    ensures r.StepNotFound? <==> id !in old(store.simulations).keys
    ensures r.StepNotFound? ==> r.detail == NotFoundMsg(id)
    ensures r.StepRefused? <==> id in old(store.simulations).keys && old(store.simulations).values[id].status == Completed
    ensures r.StepRefused? ==> r.detail == AlreadyCompletedMsg
    ensures !r.Stepped? ==> store.simulations == old(store.simulations)
    ensures r.Stepped? ==> OneStep(old(store.simulations).values[id], r.state) &&
                           store.simulations == old(store.simulations).Put(id, r.state)
  {
    var found := store.Get(id);
    if found.None? {
      return StepNotFound(NotFoundMsg(id));
    }
    if found.value.status == Completed {
      return StepRefused(AlreadyCompletedMsg);
    }
    var ok;
    ghost var dr, moves;
    ok, dr, moves := store.RunStep(id);
    r := Stepped(store.simulations.values[id]);
  }

  /** `SimulationRunRequest`: a number of steps, a number of days, and whether to stop once no one is infectious or exposed. */
  datatype RunRequest = RunRequest(steps: Option<int>, days: Option<real>, stopWhenNoInfected: bool)

  /** The request used when none is given: 100 days, stopping once no one is infectious or exposed. */
  const DefaultRun := RunRequest(None, Some(100.0), true)

  /**
   * The number of steps to run: the steps asked for when that is a
   * non-zero number; else the whole steps of `dt` that fit in the days
   * asked for when that is a non-zero number; else those that fit in 100
   * days. Zero counts as absent, as Python's truthiness has it.
   */
  function MaxSteps(req: RunRequest, dt: real): (n: int)
    requires dt > 0.0
    ensures req.steps.Some? && req.steps.value != 0 ==> n == req.steps.value
    ensures !(req.steps.Some? && req.steps.value != 0) && req.days.Some? && req.days.value > 0.0 ==>
              n >= 0 && n as real * dt <= req.days.value < n as real * dt + dt
    ensures !(req.steps.Some? && req.steps.value != 0) && !(req.days.Some? && req.days.value != 0.0) ==>
              n >= 0 && n as real * dt <= 100.0 < n as real * dt + dt
  {
    if req.steps.Some? && req.steps.value != 0 then req.steps.value
    else
      var days := if req.days.Some? && req.days.value != 0.0 then req.days.value else 100.0;
      var n := StepsIn(days, dt);
      n
  }

  /** `int(days / dt)`: for a span that is not negative, the whole steps of `dt` that fit in it. */
  function StepsIn(days: real, dt: real): (n: int)
    requires dt > 0.0
    ensures days >= 0.0 ==> n >= 0 && n as real * dt <= days < n as real * dt + dt
  {
    var q := days / dt;
    var n := Trunc(q);
    if days >= 0.0 then
      FitsBetween(days, dt, q, n);
      n
    else n
  }

  /** When `q` is `days / dt` and `n <= q < n + 1`, then `n * dt <= days < n * dt + dt`. */
  lemma FitsBetween(days: real, dt: real, q: real, n: int)
    requires dt > 0.0 && q == days / dt && n as real <= q < n as real + 1.0
    ensures n as real * dt <= days < n as real * dt + dt
  {
    var x := n as real;
    assert q * dt == days;
    MulStrict(q, x + 1.0, dt);
    assert (x + 1.0) * dt == x * dt + dt;
  }

  lemma MulStrict(a: real, b: real, c: real)
    requires a < b && c > 0.0
    ensures a * c < b * c
  {
    assert (b - a) * c > 0.0;
  }

  /** The response of `run_simulation`. */
  datatype RunResponse = RunNotFound(detail: string) | RunRefused(detail: string) | Ran(stepsRun: nat, state: Simulation)

  /**
   * What a run of `n` steps from `start` to `sim` promises: `n` steps were
   * taken, each adding one entry to every history; no more than
   * `maxSteps`; fewer only when the request stops once no one is
   * infectious or exposed and the last step left no one so; and with that
   * request, no earlier step of the run left no one so.
   */
  ghost predicate RanFrom(start: Simulation, sim: Simulation, n: nat, req: RunRequest, maxSteps: int) {
    && (exists trace: seq<Simulation> ::
          RunOf(trace, start, sim, n) && (req.stopWhenNoInfected ==> forall t :: 0 < t < n ==> Active(trace[t])))
    && n <= MaxI(0, maxSteps)
    && (n < maxSteps ==> req.stopWhenNoInfected && n > 0 && !Active(sim))
  }

  /** A run that stopped where the loop stops is one `RanFrom` allows. */
  lemma RanFromRun(trace: seq<Simulation>, start: Simulation, sim: Simulation, n: nat, req: RunRequest, maxSteps: int)
    requires RunOf(trace, start, sim, n)
    requires req.stopWhenNoInfected ==> forall t :: 0 < t < n ==> Active(trace[t])
    requires n <= MaxI(0, maxSteps)
    requires n < maxSteps ==> req.stopWhenNoInfected && n > 0 && !Active(sim)
    ensures RanFrom(start, sim, n, req, maxSteps)
  {
  }

  /** One `run_step` on the record stored under `id` is one of the steps `OneStep` allows. */
  lemma RunStepAdvances(d: Dict<string, Simulation>, d': Dict<string, Simulation>, id: string, dr: Draws, moves: seq<Move>)
    requires id in d.values && WellFormed(d.values[id])
    requires DrawsFit(Latest(d.values[id].stats), dr) && |moves| == |d.values[id].agents| && MovesFit(moves)
    requires d' == d.Put(id, Step(d.values[id], dr, moves))
    ensures id in d'.values && d' == d.Put(id, d'.values[id])
    ensures OneStep(d.values[id], d'.values[id])
  {
    StepIsOneStep(d.values[id], dr, moves);
  }

  /** One pass of the run loop: one `run_step` on the record stored under `id`. */
  method Advance(store: SimulationStore, id: string, ghost trace: seq<Simulation>) returns (ghost next: Simulation)
    requires store.Valid() && id in store.simulations.values
    requires |trace| > 0 && trace[|trace| - 1] == store.simulations.values[id] && IsRun(trace)
    modifies store
    ensures store.Valid() && id in store.simulations.values && next == store.simulations.values[id]
    ensures store.simulations == old(store.simulations).Put(id, next)
    ensures IsRun(trace + [next]) && Aligned(next.stats)
  {
    ghost var before := store.simulations;
    var success;
    ghost var dr, moves;
    success, dr, moves := store.RunStep(id);
    RunStepAdvances(before, store.simulations, id, dr, moves);
    next := store.simulations.values[id];
    RunNext(trace, next);
    StoreEntry(store.simulations, id);
  }

  /**
   * The loop of `run_simulation`: up to `maxSteps` calls of `run_step`,
   * leaving early once no one is infectious or exposed if the request says so.
   */
  method RunSteps(store: SimulationStore, id: string, req: RunRequest, maxSteps: int) returns (stepsRun: nat)
    requires store.Valid() && id in store.simulations.values
    modifies store
    ensures store.Valid() && id in store.simulations.values
    ensures store.simulations == old(store.simulations).Put(id, store.simulations.values[id])
    ensures RanFrom(old(store.simulations).values[id], store.simulations.values[id], stepsRun, req, maxSteps)
  {
    ghost var start := store.simulations.values[id];
    ghost var cur := start;
    ghost var trace := [start];
    store.simulations.PutSame(id);
    stepsRun := 0;
    while stepsRun < maxSteps
      invariant store.Valid() && id in store.simulations.values && cur == store.simulations.values[id]
      invariant 0 <= stepsRun <= MaxI(0, maxSteps)
      invariant store.simulations == old(store.simulations).Put(id, cur)
      invariant RunOf(trace, start, cur, stepsRun)
      invariant req.stopWhenNoInfected ==> forall t :: 0 < t <= stepsRun ==> Active(trace[t])
      decreases maxSteps - stepsRun
    {
      ghost var next := Advance(store, id, trace);
      old(store.simulations).PutTwice(id, cur, next);
      cur, trace := next, trace + [next];
      stepsRun := stepsRun + 1;
      var simData := store.simulations.values[id];
      if req.stopWhenNoInfected {
        var stats := simData.stats;
        if stats.i[|stats.i| - 1] == 0 && stats.e[|stats.e| - 1] == 0 {
          break;
        }
      }
    }
    RanFromRun(trace, start, cur, stepsRun, req, maxSteps);
  }

  /**
   * `run_simulation`: an unknown id is a 404 and a completed simulation a
   * 400, both leaving the store alone. Otherwise the request (100 days,
   * stopping once no one is infectious or exposed, when none is given)
   * fixes the number of steps, and the simulation runs them.
   */
  method RunSimulation(store: SimulationStore, id: string, runConfig: Option<RunRequest>) returns (r: RunResponse)
    requires store.Valid()
    modifies store
    ensures store.Valid()
    ensures r.RunNotFound? <==> id !in old(store.simulations).keys
    ensures r.RunNotFound? ==> r.detail == NotFoundMsg(id)
    ensures r.RunRefused? <==> id in old(store.simulations).keys && old(store.simulations).values[id].status == Completed
    ensures r.RunRefused? ==> r.detail == RunCompletedMsg
    ensures !r.Ran? ==> store.simulations == old(store.simulations)
    ensures r.Ran? ==> id in old(store.simulations).values && WellFormed(old(store.simulations).values[id])
    ensures r.Ran? ==>
              var start := old(store.simulations).values[id];
              var req := runConfig.GetOr(DefaultRun);
              && store.simulations == old(store.simulations).Put(id, r.state)
              && RanFrom(start, r.state, r.stepsRun, req, MaxSteps(req, start.config.timeStep))
  {
    var found := store.Get(id);
    if found.None? {
      return RunNotFound(NotFoundMsg(id));
    }
    var start := found.value;
    if start.status == Completed {
      return RunRefused(RunCompletedMsg);
    }
    var req := if runConfig.None? then DefaultRun else runConfig.value;
    var maxSteps := MaxSteps(req, start.config.timeStep);
    var stepsRun := RunSteps(store, id, req, maxSteps);
    r := Ran(stepsRun, store.simulations.values[id]);
  }
}

=== FILE: text.dfy ===
/**
 * The string operations the services apply to location names:
 * `str.lower()` and `str.replace(" ", "_")`. Case folding is modelled on
 * ASCII letters only.
 */
module Text {

  predicate IsUpper(c: char) { 'A' <= c <= 'Z' }

  function LowerChar(c: char): (r: char)
    ensures !IsUpper(r)
    ensures IsUpper(c) ==> r as int == c as int + 32
    ensures !IsUpper(c) ==> r == c
  {
    if IsUpper(c) then (c as int + 32) as char else c
  }

  /** `s.lower()`. */
  function Lower(s: string): (r: string)
    ensures |r| == |s|
    ensures forall k :: 0 <= k < |r| ==> !IsUpper(r[k])
    ensures forall k :: 0 <= k < |s| && IsUpper(s[k]) ==> r[k] as int == s[k] as int + 32
    ensures forall k :: 0 <= k < |s| && !IsUpper(s[k]) ==> r[k] == s[k]
  {
    seq(|s|, k requires 0 <= k < |s| => LowerChar(s[k]))
  }

  /** `s.replace(" ", "_")`. */
  function SpacesToUnderscores(s: string): (r: string)
    ensures |r| == |s|
    ensures forall k :: 0 <= k < |r| ==> r[k] != ' '
    ensures forall k :: 0 <= k < |s| && s[k] == ' ' ==> r[k] == '_'
    ensures forall k :: 0 <= k < |s| && s[k] != ' ' ==> r[k] == s[k]
  {
    seq(|s|, k requires 0 <= k < |s| => if s[k] == ' ' then '_' else s[k])
  }

  /** The location identifier derived from a location name: lower-cased, spaces as underscores. */
  function LocationId(name: string): (r: string)
    ensures |r| == |name|
    ensures forall k :: 0 <= k < |r| ==> r[k] != ' ' && !IsUpper(r[k])
    ensures forall k :: 0 <= k < |name| && name[k] == ' ' ==> r[k] == '_'
    ensures forall k :: 0 <= k < |name| && IsUpper(name[k]) ==> r[k] as int == name[k] as int + 32
    ensures forall k :: 0 <= k < |name| && name[k] != ' ' && !IsUpper(name[k]) ==> r[k] == name[k]
  {
    SpacesToUnderscores(Lower(name))
  }

  /** Normalising a name twice gives the same identifier as normalising it once. */
  lemma LocationIdIdempotent(name: string)
    ensures LocationId(LocationId(name)) == LocationId(name)
  {
    var once := LocationId(name);
    var twice := LocationId(once);
    forall k | 0 <= k < |once|
      ensures twice[k] == once[k]
    {
      assert Lower(once)[k] == LowerChar(once[k]);
    }
  }

  /** Two names that differ only in letter case get the same identifier. */
  lemma LocationIdIgnoresCase(a: string, b: string)
    requires Lower(a) == Lower(b)
    ensures LocationId(a) == LocationId(b)
  {
  }
}

=== FILE: transform.dfy ===
/**
 * The simulation transformer: agent counts per SEIRD state, agent feature
 * risk levels, the agent statistics summary, the SEIRD pivot table, the
 * danger-zone feature of a location and the composite risk score.
 */
module Transform {
  import opened Wrappers
  import opened PyNum
  import opened Text
  import opened Agents
  import opened Dicts
  import DangerZones

  /**
   * An agent as a dict: every key may be missing, and `.get` supplies the
   * defaults (`state` "S", `days_in_state` 0, `is_isolated` False).
   */
  datatype AgentDict = AgentDict(
    id: Option<int>,
    x: Option<real>,
    y: Option<real>,
    state: Option<Label>,
    daysInState: Option<real>,
    isIsolated: Option<bool>)

  /** The dict the store keeps for one of its agents: every key present. */
  function AsDict(a: Agent): AgentDict {
    AgentDict(Some(a.id), Some(a.x), Some(a.y), Some(Known(a.state)), Some(a.daysInState), Some(a.isIsolated))
  }

  /** `agent.get("state", "S")`. */
  function StateOf(a: AgentDict): Label {
    a.state.GetOr(Known(S))
  }

  /** `state_risk_map.get(state, 0)`: positive exactly for the states that carry the infection. */
  function RiskLevel(a: AgentDict): (r: nat)
    ensures r <= 2
    ensures r > 0 <==> StateOf(a) in {Known(E), Known(I)}
    ensures r == 2 <==> StateOf(a) == Known(I)
  {
    match StateOf(a)
    case Known(I) => 2
    case Known(E) => 1
    case _ => 0
  }

  /** The state of each agent, in list order. */
  function Labels(agents: seq<AgentDict>): (ls: seq<Label>)
    ensures |ls| == |agents| && forall k :: 0 <= k < |agents| ==> ls[k] == StateOf(agents[k])
  {
    if agents == [] then [] else Labels(agents[..|agents| - 1]) + [StateOf(agents[|agents| - 1])]
  }

  /** How many agents are in state `l`. */
  function CountLabel(agents: seq<AgentDict>, l: Label): nat {
    Occurrences(Labels(agents), l)
  }

  /** The five compartment counts of `_count_states`: each letter's number of agents. */
  function StateCounts(agents: seq<AgentDict>): Tally {
    Tally(CountLabel(agents, Known(S)), CountLabel(agents, Known(E)), CountLabel(agents, Known(I)),
          CountLabel(agents, Known(R)), CountLabel(agents, Known(D)))
  }

  /** How many agents carry a state that is none of the five letters. */
  function UnknownStates(agents: seq<AgentDict>): nat {
    if agents == [] then 0
    else UnknownStates(agents[..|agents| - 1]) + (if StateOf(agents[|agents| - 1]).Other? then 1 else 0)
  }

  /** One more agent adds one to the count of its own letter, and nothing when its state is no letter. */
  lemma StateCountsOneMore(agents: seq<AgentDict>, k: nat)
    requires k < |agents|
    ensures StateCounts(agents[..k + 1]) ==
              match StateOf(agents[k])
              case Known(c) => StateCounts(agents[..k]).Inc(c)
              case Other(_) => StateCounts(agents[..k])
    ensures UnknownStates(agents[..k + 1]) == UnknownStates(agents[..k]) + (if StateOf(agents[k]).Other? then 1 else 0)
  {
    var ahead := agents[..k + 1];
    assert ahead[..k] == agents[..k];
    var front, l := Labels(agents[..k]), StateOf(agents[k]);
    assert Labels(ahead) == front + [l];
    OccurrencesAppend(front, l, Known(S));
    OccurrencesAppend(front, l, Known(E));
    OccurrencesAppend(front, l, Known(I));
    OccurrencesAppend(front, l, Known(R));
    OccurrencesAppend(front, l, Known(D));
  }

  /**
   * `_count_states`: a tally with exactly the five compartment keys, each
   * holding its number of agents; agents in any other state are skipped.
   */
  method CountStates(agents: seq<AgentDict>) returns (t: Tally)
    ensures t == StateCounts(agents)
  {
    t := NoAgents;
    var k := 0;
    while k < |agents|
      invariant 0 <= k <= |agents|
      invariant t == StateCounts(agents[..k])
    {
      StateCountsOneMore(agents, k);
      var state := StateOf(agents[k]);
      if state.Known? {
        t := t.Inc(state.c);
      }
      k := k + 1;
    }
    assert agents[..k] == agents;
  }

  /** The five counts and the skipped agents together account for every agent. */
  lemma {:induction false} StateCountsPartition(agents: seq<AgentDict>)
    ensures StateCounts(agents).Total() + UnknownStates(agents) == |agents|
  {
    if agents != [] {
      var n := |agents| - 1;
      StateCountsPartition(agents[..n]);
      StateCountsOneMore(agents, n);
      assert agents[..n + 1] == agents;
    }
  }

  /** The counts add up to at most the number of agents, and to exactly that number when every state is a letter. */
  lemma {:induction false} StateCountsBound(agents: seq<AgentDict>)
    ensures StateCounts(agents).Total() <= |agents|
    ensures StateCounts(agents).Total() == |agents| <==> UnknownStates(agents) == 0
  {
    StateCountsPartition(agents);
  }

  /** Counting the store's own agents gives their census. */
  lemma {:induction false} StateCountsOfStoreAgents(agents: seq<Agent>)
    ensures StateCounts(seq(|agents|, k requires 0 <= k < |agents| => AsDict(agents[k]))) == Census(agents)
  {
    var ds := seq(|agents|, k requires 0 <= k < |agents| => AsDict(agents[k]));
    if agents != [] {
      var n := |agents| - 1;
      var front := seq(n, k requires 0 <= k < n => AsDict(agents[k]));
      StateCountsOfStoreAgents(agents[..n]);
      assert seq(n, k requires 0 <= k < n => AsDict(agents[..n][k])) == front;
      assert ds[..n] == front && ds[..n + 1] == ds;
      StateCountsOneMore(ds, n);
      CensusAppend(agents[..n], agents[n]);
      assert agents[..n] + [agents[n]] == agents;
    }
  }

  /** The part of an agent's GeoJSON feature the model keeps: its state and risk level. */
  datatype AgentFeature = AgentFeature(agentId: int, state: Label, riskLevel: nat, daysInState: real, isIsolated: bool)

  /** `agent_to_geojson_feature`: the properties with their `.get` defaults; coordinates are left out. */
  function AgentToFeature(a: AgentDict): (f: AgentFeature)
    ensures f.agentId == if a.id.Some? then a.id.value else 0
    ensures f.state == if a.state.Some? then a.state.value else Known(S)
    ensures f.riskLevel == 2 <==> f.state == Known(I)
    ensures f.riskLevel == 1 <==> f.state == Known(E)
    ensures f.riskLevel == 0 <==> f.state !in {Known(E), Known(I)}
    ensures f.daysInState == if a.daysInState.Some? then a.daysInState.value else 0.0
    ensures f.isIsolated == if a.isIsolated.Some? then a.isIsolated.value else false
  {
    AgentFeature(a.id.GetOr(0), StateOf(a), RiskLevel(a), a.daysInState.GetOr(0.0), a.isIsolated.GetOr(false))
  }

  /** The feature collection of `agents_to_geojson`, without coordinates and timestamp. */
  datatype AgentCollection = AgentCollection(features: seq<AgentFeature>, agentCount: nat, stateSummary: Tally)

  /** One feature per agent, in order, the number of agents and their state counts. */
  function AgentsToGeoJson(agents: seq<AgentDict>): (g: AgentCollection)
    ensures |g.features| == g.agentCount == |agents|
    ensures forall k :: 0 <= k < |agents| ==> g.features[k].riskLevel == RiskLevel(agents[k])
    ensures g.stateSummary.Total() <= g.agentCount
    ensures g.stateSummary == StateCounts(agents)
    ensures forall k :: 0 <= k < |agents| ==> g.features[k] == AgentToFeature(agents[k])
  {
    StateCountsBound(agents);
    AgentCollection(seq(|agents|, k requires 0 <= k < |agents| => AgentToFeature(agents[k])), |agents|,
                    StateCounts(agents))
  }

  /** The result of `aggregate_agent_statistics`; `byState` keeps the order in which states first appear. */
  datatype AgentStatistics = AgentStatistics(
    totalAgents: nat,
    byState: Dict<Label, nat>,
    avgDaysInState: real,
    isolatedCount: nat,
    isolationRate: real)

  /** `sum(agent.get("days_in_state", 0))` over the first `n` agents. */
  function TotalDays(agents: seq<AgentDict>, n: nat): real
    requires n <= |agents|
  {
    if n == 0 then 0.0 else TotalDays(agents, n - 1) + agents[n - 1].daysInState.GetOr(0.0)
  }

  /** The number of agents among the first `n` whose `is_isolated` is true. */
  function Isolated(agents: seq<AgentDict>, n: nat): (c: nat)
    requires n <= |agents|
    ensures c <= n
  {
    if n == 0 then 0 else Isolated(agents, n - 1) + (if agents[n - 1].isIsolated.GetOr(false) then 1 else 0)
  }

  /** `count / total`, a share of the agents. */
  function Rate(count: nat, total: nat): (r: real)
    requires count <= total && total > 0
    ensures 0.0 <= r <= 1.0 && r * total as real == count as real
  {
    count as real / total as real
  }

  /** The loop of `aggregate_agent_statistics`: state counts, total days in state and isolated agents, one agent at a time. */
  method AccumulateAgents(agents: seq<AgentDict>) returns (states: Dict<Label, nat>, totalDays: real, isolatedCount: nat)
    ensures states == Counter(Labels(agents))
    ensures totalDays == TotalDays(agents, |agents|)
    ensures isolatedCount == Isolated(agents, |agents|)
  {
    states, totalDays, isolatedCount := Empty(), 0.0, 0;
    var k := 0;
    while k < |agents|
      invariant 0 <= k <= |agents|
      invariant states == CounterUpTo(Labels(agents), k)
      invariant totalDays == TotalDays(agents, k)
      invariant isolatedCount == Isolated(agents, k)
    {
      var agent := agents[k];
      states := Bump(states, StateOf(agent));
      totalDays := totalDays + agent.daysInState.GetOr(0.0);
      if agent.isIsolated.GetOr(false) {
        isolatedCount := isolatedCount + 1;
      }
      k := k + 1;
    }
    CounterUpToPrefix(Labels(agents), k);
    assert Labels(agents)[..k] == Labels(agents);
  }

  /**
   * `aggregate_agent_statistics`: zeros for no agents; otherwise the count
   * of each state in order of first appearance, the mean days in state and
   * the number and share of isolated agents.
   */
  method AggregateAgentStatistics(agents: seq<AgentDict>) returns (st: AgentStatistics)
    ensures agents == [] ==> st == AgentStatistics(0, Empty(), 0.0, 0, 0.0)
    ensures agents != [] ==>
              st.totalAgents == |agents| && st.byState == Counter(Labels(agents)) &&
              st.avgDaysInState == TotalDays(agents, |agents|) / |agents| as real &&
              st.isolatedCount == Isolated(agents, |agents|) && st.isolationRate == Rate(Isolated(agents, |agents|), |agents|)
  {
    if |agents| == 0 {
      return AgentStatistics(0, Empty(), 0.0, 0, 0.0);
    }
    var states, totalDays, isolatedCount := AccumulateAgents(agents);
    st := AgentStatistics(|agents|, states, totalDays / |agents| as real, isolatedCount, Rate(isolatedCount, |agents|));
  }

  /**
   * The per-state counts of the statistics add up to the number of agents,
   * each state present holds its number of agents, and a state no agent is
   * in is absent.
   */
  lemma ByStateCounts(agents: seq<AgentDict>, l: Label)
    ensures Total(Counter(Labels(agents))) == |agents|
    ensures Counter(Labels(agents)).Get(l) == if CountLabel(agents, l) == 0 then None else Some(CountLabel(agents, l))
  {
    CounterTotal(Labels(agents));
    CounterGet(Labels(agents), l);
  }

  /** A cell of the pivot table: the day, or a count. */
  datatype Cell = Day(day: real) | Count(count: int)

  /** A pivot row as a dict from column name to cell. */
  type Row = Dict<string, Cell>

  /** `{"day": day * time_step}`: a row before the series are added. */
  function RowStart(day: nat, timeStep: real): (r: Row)
    ensures r.Valid()
  {
    Empty<string, Cell>().Put("day", Day(day as real * timeStep))
  }

  /** The row for `day` after the series named in `names`, in order, have each added their count. */
  function RowOver(statistics: Dict<string, seq<int>>, names: seq<string>, day: nat, timeStep: real): (r: Row)
    requires forall n :: n in names ==> n in statistics.values
    ensures r.Valid()
  {
    if names == [] then RowStart(day, timeStep)
    else
      var name := names[|names| - 1];
      var row := RowOver(statistics, names[..|names| - 1], day, timeStep);
      var counts := statistics.values[name];
      if day < |counts| then row.Put(Lower(name), Count(counts[day])) else row
  }

  /** The number of rows: the length of the first series, none for an empty dict. */
  function PivotDays(statistics: Dict<string, seq<int>>): nat
    requires statistics.Valid()
  {
    if statistics.keys == [] then 0 else |statistics.values[statistics.keys[0]]|
  }

  /**
   * `create_seird_pivot_table`: one row per day of the first series, each
   * holding the day and, under its lower-cased name, the count of every
   * series long enough to have one that day.
   */
  method CreateSeirdPivotTable(statistics: Dict<string, seq<int>>, timeStep: real) returns (rows: seq<Row>)
    requires statistics.Valid()
    ensures |rows| == PivotDays(statistics)
    ensures forall day :: 0 <= day < |rows| ==> rows[day] == RowOver(statistics, statistics.keys, day, timeStep)
  {
    if |statistics.keys| == 0 {
      return [];
    }
    var numDays := |statistics.values[statistics.keys[0]]|;
    rows := [];
    var day := 0;
    while day < numDays
      invariant 0 <= day <= numDays
      invariant |rows| == day
      invariant forall d :: 0 <= d < day ==> rows[d] == RowOver(statistics, statistics.keys, d, timeStep)
    {
      var row := PivotRow(statistics, day, timeStep);
      rows := rows + [row];
      day := day + 1;
    }
  }

  /** The inner loop of the pivot table: the row of one day. */
  method PivotRow(statistics: Dict<string, seq<int>>, day: nat, timeStep: real) returns (row: Row)
    requires statistics.Valid()
    ensures row == RowOver(statistics, statistics.keys, day, timeStep)
  {
    row := RowStart(day, timeStep);
    var j := 0;
    while j < |statistics.keys|
      invariant 0 <= j <= |statistics.keys|
      invariant row == RowOver(statistics, statistics.keys[..j], day, timeStep)
    {
      var name := statistics.keys[j];
      var counts := statistics.values[name];
      assert statistics.keys[..j + 1][..j] == statistics.keys[..j];
      if day < |counts| {
        row := row.Put(Lower(name), Count(counts[day]));
      }
      j := j + 1;
    }
    assert statistics.keys[..j] == statistics.keys;
  }

  /** No series in `names` writes to column `col`, so the row keeps its starting value there. */
  lemma {:induction false} RowOverUntouched(statistics: Dict<string, seq<int>>, names: seq<string>, day: nat,
                                            timeStep: real, col: string)
    requires forall n :: n in names ==> n in statistics.values
    requires forall n :: n in names ==> Lower(n) != col
    ensures RowOver(statistics, names, day, timeStep).Get(col) == RowStart(day, timeStep).Get(col)
  {
    if names != [] {
      RowOverUntouched(statistics, names[..|names| - 1], day, timeStep, col);
    }
  }

  /**
   * A series whose lower-cased name no other series shares, and is not
   * "day", shows its count for `day` in that column when it has one, and
   * leaves the column out when it is too short.
   */
  lemma {:induction false} RowOverColumn(statistics: Dict<string, seq<int>>, names: seq<string>, day: nat,
                                         timeStep: real, name: string)
    requires forall n :: n in names ==> n in statistics.values
    requires forall i, j :: 0 <= i < j < |names| ==> names[i] != names[j]
    requires name in names && Lower(name) != "day"
    requires forall n :: n in names && Lower(n) == Lower(name) ==> n == name
    ensures var counts := statistics.values[name];
            RowOver(statistics, names, day, timeStep).Get(Lower(name)) ==
              if day < |counts| then Some(Count(counts[day])) else None
  {
    var n := |names| - 1;
    var front := names[..n];
    assert front <= names;
    if names[n] == name {
      assert name !in front;
      RowOverUntouched(statistics, front, day, timeStep, Lower(name));
    } else {
      assert name in front by {
        var i :| 0 <= i < |names| && names[i] == name;
        assert i < n && front[i] == name;
      }
      assert forall i, j :: 0 <= i < j < |front| ==> front[i] != front[j];
      RowOverColumn(statistics, front, day, timeStep, name);
    }
  }

  /**
   * Row `day` of the pivot table shows `day * time_step` under "day" when no
   * series is called "day" in any case, and every series with a name of its
   * own shows its count for that day, or nothing when it is too short.
   */
  lemma PivotRowContents(statistics: Dict<string, seq<int>>, day: nat, timeStep: real, name: string)
    requires statistics.Valid()
    requires forall n :: n in statistics.keys ==> Lower(n) != "day"
    requires name in statistics.keys
    requires forall n :: n in statistics.keys && Lower(n) == Lower(name) ==> n == name
    ensures RowOver(statistics, statistics.keys, day, timeStep).Get("day") == Some(Day(day as real * timeStep))
    ensures var counts := statistics.values[name];
            RowOver(statistics, statistics.keys, day, timeStep).Get(Lower(name)) ==
              if day < |counts| then Some(Count(counts[day])) else None
  {
    RowOverUntouched(statistics, statistics.keys, day, timeStep, "day");
    RowOverColumn(statistics, statistics.keys, day, timeStep, name);
  }

  /** The danger-zone feature of a location: its band, colour and radius. */
  datatype ZoneFeature = ZoneFeature(
    locationId: string,
    locationName: string,
    latitude: real,
    longitude: real,
    dangerLevel: string,
    riskScore: real,
    agentDensity: real,
    infectedPercentage: real,
    color: string,
    radiusMeters: int)

  /** `max(500, min(5000, int(agent_density * 1000)))`. */
  function ZoneRadius(agentDensity: real): (r: int)
    ensures 500 <= r <= 5000
    ensures 500 <= Trunc(agentDensity * 1000.0) <= 5000 ==> r == Trunc(agentDensity * 1000.0)
    ensures Trunc(agentDensity * 1000.0) < 500 ==> r == 500
    ensures Trunc(agentDensity * 1000.0) > 5000 ==> r == 5000
  {
    var scaled := Trunc(agentDensity * 1000.0);
    var capped := if scaled < 5000 then scaled else 5000;
    if capped > 500 then capped else 500
  }

  /**
   * `create_danger_zone_geojson`: the band of a score (critical from 75,
   * high from 50, moderate from 25, low below) with the band's colour and
   * a radius clamped to [500, 5000] metres.
   */
  function CreateDangerZoneFeature(locationId: string, locationName: string, latitude: real, longitude: real,
                                   riskScore: real, agentDensity: real, infectedPercentage: real): (f: ZoneFeature)
    ensures 500 <= f.radiusMeters <= 5000 && f.radiusMeters == ZoneRadius(agentDensity)
    ensures f.locationId == locationId && f.locationName == locationName
    ensures f.latitude == latitude && f.longitude == longitude
    ensures f.riskScore == riskScore && f.agentDensity == agentDensity && f.infectedPercentage == infectedPercentage
    ensures f.dangerLevel == DangerZones.GetDangerLevel(riskScore).Value()
    ensures f.color == DangerZones.GetDangerColor(DangerZones.GetDangerLevel(riskScore))
  {
    var band :=
      if riskScore >= 75.0 then ("critical", "#F44336")
      else if riskScore >= 50.0 then ("high", "#FF9800")
      else if riskScore >= 25.0 then ("moderate", "#FFC107")
      else ("low", "#4CAF50");
    ZoneFeature(locationId, locationName, latitude, longitude, band.0, riskScore, agentDensity, infectedPercentage,
                band.1, ZoneRadius(agentDensity))
  }

  /** `max(0, 1 - doubling_time / 14)` for a positive doubling time, and 0 for none. */
  function DoublingScore(doublingTime: Option<real>): (r: real)
    ensures 0.0 <= r <= 1.0
    ensures doublingTime.None? || doublingTime.value <= 0.0 ==> r == 0.0
    ensures doublingTime.Some? && 0.0 < doublingTime.value < 14.0 ==> r == 1.0 - doublingTime.value / 14.0
    ensures doublingTime.Some? && doublingTime.value >= 14.0 ==> r == 0.0
  {
    if doublingTime.Some? && doublingTime.value > 0.0 then MaxR(0.0, 1.0 - doublingTime.value / 14.0) else 0.0
  }

  /** A faster doubling never scores lower. */
  lemma DoublingScoreAntitone(a: real, b: real)
    requires 0.0 < a <= b
    ensures DoublingScore(Some(b)) <= DoublingScore(Some(a))
  {
    assert b / 14.0 >= a / 14.0;
  }

  /** `0.3 * infected + 0.3 * growth + 0.2 * rt + 0.2 * doubling`, before scaling. */
  function WeightedScore(infectedPercentage: real, growthRate: real, rt: real, doublingTime: Option<real>,
                         exp: real -> real): real
  {
    var infectedScore := MinR(infectedPercentage / 100.0, 1.0);
    var growthScore := MinR(exp(growthRate) - 1.0, 1.0);
    var rtScore := MaxR(0.0, (rt - 1.0) * 0.5);
    infectedScore * 0.3 + growthScore * 0.3 + rtScore * 0.2 + DoublingScore(doublingTime) * 0.2
  }

  /**
   * `calculate_risk_score`: the weighted score times 100, clipped to
   * [0, 100]. `exp` stands for `numpy.exp`.
   */
  function CalculateRiskScore(infectedPercentage: real, growthRate: real, rt: real, doublingTime: Option<real>,
                              exp: real -> real): (r: real)
    ensures 0.0 <= r <= 100.0
    ensures var w := WeightedScore(infectedPercentage, growthRate, rt, doublingTime, exp);
            0.0 <= w * 100.0 <= 100.0 ==> r == w * 100.0
    ensures WeightedScore(infectedPercentage, growthRate, rt, doublingTime, exp) * 100.0 < 0.0 ==> r == 0.0
    ensures WeightedScore(infectedPercentage, growthRate, rt, doublingTime, exp) * 100.0 > 100.0 ==> r == 100.0
  {
    Clip(WeightedScore(infectedPercentage, growthRate, rt, doublingTime, exp) * 100.0, 0.0, 100.0)
  }

  /** A higher reproduction number never lowers the risk score. */
  lemma RiskScoreMonotoneInRt(infectedPercentage: real, growthRate: real, rt1: real, rt2: real,
                              doublingTime: Option<real>, exp: real -> real)
    requires rt1 <= rt2
    ensures CalculateRiskScore(infectedPercentage, growthRate, rt1, doublingTime, exp) <=
            CalculateRiskScore(infectedPercentage, growthRate, rt2, doublingTime, exp)
  {
    assert MaxR(0.0, (rt1 - 1.0) * 0.5) <= MaxR(0.0, (rt2 - 1.0) * 0.5);
  }

  /** A faster doubling never lowers the risk score. */
  lemma RiskScoreMonotoneInDoubling(infectedPercentage: real, growthRate: real, rt: real, d1: real, d2: real,
                                    exp: real -> real)
    requires 0.0 < d1 <= d2
    ensures CalculateRiskScore(infectedPercentage, growthRate, rt, Some(d2), exp) <=
            CalculateRiskScore(infectedPercentage, growthRate, rt, Some(d1), exp)
  {
    DoublingScoreAntitone(d1, d2);
  }
}

=== FILE: trends.dfy ===
/** The three trend labels every service reports: "increasing", "decreasing" or "stable". */
module Trends {

  datatype Trend = Increasing | Decreasing | Stable
}

=== FILE: validation.dfy ===
/**
 * The simulation configuration and its validator
 * (`SimulationService.validate_simulation_config`): an ordered list of range
 * checks that stops at the first failure and reports that check's message.
 */
module Validation {
  import opened Wrappers

  datatype SimulationConfig = SimulationConfig(
    populationSize: int,
    gridSize: int,
    initialInfected: int,
    infectionRate: real,
    incubationMean: real,
    incubationStd: real,
    infectiousMean: real,
    infectiousStd: real,
    mortalityRate: real,
    interactionRadius: real,
    vaccinationRate: real,
    detectionProbability: real,
    isolationCompliance: real,
    homeAttraction: real,
    randomMovement: real,
    timeStep: real)

  /** The validator's answer: `(True, None)` or `(False, message)`. */
  type Verdict = (bool, Option<string>)

  const PopulationMsg := "Population size must be between 10 and 10000"
  const GridMsg := "Grid size must be between 20 and 500"
  const InfectionRateMsg := "Infection rate (beta) must be between 0 and 5"
  const IncubationMsg := "Incubation period mean must be > 0 and std >= 0"
  const InfectiousMsg := "Infectious period mean must be > 0 and std >= 0"
  const MortalityMsg := "Mortality rate must be between 0 and 1"
  const VaccinationMsg := "Vaccination rate must be between 0 and 1"
  const DetectionMsg := "Detection probability must be between 0 and 1"
  const IsolationMsg := "Isolation compliance must be between 0 and 1"
  const RadiusMsg := "Interaction radius must be > 0"
  const TimeStepMsg := "Time step must be between 0 and 1"
  const HomeAttractionMsg := "Home attraction must be >= 0"
  const RandomMovementMsg := "Random movement must be >= 0"
  const DurationMsg := "Total disease duration exceeds 1 year"
  const InitialTooLargeMsg := "Initial infected must be less than population size"
  const InitialRangeMsg := "Initial infected must be at least 1 and less than population size"

  /** `validate_simulation_config`, check by check in the source's order. */
  function Validate(c: SimulationConfig): (v: Verdict)
    ensures v.0 <==> v.1 == None
  {
    if !(10 <= c.populationSize <= 10000) then (false, Some(PopulationMsg))
    else if !(20 <= c.gridSize <= 500) then (false, Some(GridMsg))
    else if !(0.0 <= c.infectionRate <= 5.0) then (false, Some(InfectionRateMsg))
    else if c.incubationMean <= 0.0 || c.incubationStd < 0.0 then (false, Some(IncubationMsg))
    else if c.infectiousMean <= 0.0 || c.infectiousStd < 0.0 then (false, Some(InfectiousMsg))
    else if !(0.0 <= c.mortalityRate <= 1.0) then (false, Some(MortalityMsg))
    else if !(0.0 <= c.vaccinationRate <= 1.0) then (false, Some(VaccinationMsg))
    else if !(0.0 <= c.detectionProbability <= 1.0) then (false, Some(DetectionMsg))
    else if !(0.0 <= c.isolationCompliance <= 1.0) then (false, Some(IsolationMsg))
    else if c.interactionRadius <= 0.0 then (false, Some(RadiusMsg))
    else if !(0.0 < c.timeStep <= 1.0) then (false, Some(TimeStepMsg))
    else if c.homeAttraction < 0.0 then (false, Some(HomeAttractionMsg))
    else if c.randomMovement < 0.0 then (false, Some(RandomMovementMsg))
    else if c.incubationMean + c.infectiousMean > 365.0 then (false, Some(DurationMsg))
    else if c.initialInfected >= c.populationSize then (false, Some(InitialTooLargeMsg))
    else if !(1 <= c.initialInfected < c.populationSize) then (false, Some(InitialRangeMsg))
    else (true, None)
  }

  /** The configurations the validator is meant to admit, stated as one conjunction of ranges. */
  predicate Admissible(c: SimulationConfig) {
    && 10 <= c.populationSize <= 10000
    && 20 <= c.gridSize <= 500
    && 0.0 <= c.infectionRate <= 5.0
    && c.incubationMean > 0.0 && c.incubationStd >= 0.0
    && c.infectiousMean > 0.0 && c.infectiousStd >= 0.0
    && 0.0 <= c.mortalityRate <= 1.0
    && 0.0 <= c.vaccinationRate <= 1.0
    && 0.0 <= c.detectionProbability <= 1.0
    && 0.0 <= c.isolationCompliance <= 1.0
    && c.interactionRadius > 0.0
    && 0.0 < c.timeStep <= 1.0
    && c.homeAttraction >= 0.0
    && c.randomMovement >= 0.0
    && c.incubationMean + c.infectiousMean <= 365.0
    && 1 <= c.initialInfected < c.populationSize
  }

  /** The validator accepts exactly the admissible configurations. */
  lemma ValidateAcceptsExactlyAdmissible(c: SimulationConfig)
    ensures Validate(c).0 <==> Admissible(c)
  {
  }

  /** A check of the validator: whether the configuration passes it, and the message reported when it does not. */
  type Check = (bool, string)

  const CheckCount := 16

  /** Check number `i` of the validator, numbered in the order it runs them. */
  function CheckAt(c: SimulationConfig, i: nat): Check
    requires i < CheckCount
  {
    match i
    case 0 => (10 <= c.populationSize <= 10000, PopulationMsg)
    case 1 => (20 <= c.gridSize <= 500, GridMsg)
    case 2 => (0.0 <= c.infectionRate <= 5.0, InfectionRateMsg)
    case 3 => (!(c.incubationMean <= 0.0 || c.incubationStd < 0.0), IncubationMsg)
    case 4 => (!(c.infectiousMean <= 0.0 || c.infectiousStd < 0.0), InfectiousMsg)
    case 5 => (0.0 <= c.mortalityRate <= 1.0, MortalityMsg)
    case 6 => (0.0 <= c.vaccinationRate <= 1.0, VaccinationMsg)
    case 7 => (0.0 <= c.detectionProbability <= 1.0, DetectionMsg)
    case 8 => (0.0 <= c.isolationCompliance <= 1.0, IsolationMsg)
    case 9 => (!(c.interactionRadius <= 0.0), RadiusMsg)
    case 10 => (0.0 < c.timeStep <= 1.0, TimeStepMsg)
    case 11 => (!(c.homeAttraction < 0.0), HomeAttractionMsg)
    case 12 => (!(c.randomMovement < 0.0), RandomMovementMsg)
    case 13 => (!(c.incubationMean + c.infectiousMean > 365.0), DurationMsg)
    case 14 => (!(c.initialInfected >= c.populationSize), InitialTooLargeMsg)
    case _ => (1 <= c.initialInfected < c.populationSize, InitialRangeMsg)
  }

  /** The validator's checks, in the order it runs them. */
  function Checks(c: SimulationConfig): (cs: seq<Check>)
    ensures |cs| == CheckCount && forall i :: 0 <= i < CheckCount ==> cs[i] == CheckAt(c, i)
  {
    seq(CheckCount, i requires 0 <= i < CheckCount => CheckAt(c, i))
  }

  /** Fail-fast evaluation of `cs` from check `i` on: the message of the first check that fails. */
  function FailFast(cs: seq<Check>, i: nat): (r: Option<string>)
    requires i <= |cs|
    decreases |cs| - i
    ensures r == None <==> forall k :: i <= k < |cs| ==> cs[k].0
  {
    if i == |cs| then None
    else if !cs[i].0 then Some(cs[i].1)
    else FailFast(cs, i + 1)
  }

  /** A reported message belongs to a failing check that every earlier check passed. */
  lemma {:induction false} FailFastIsFirst(cs: seq<Check>, i: nat)
    requires i <= |cs|
    requires FailFast(cs, i) != None
    decreases |cs| - i
    ensures exists k :: i <= k < |cs| && !cs[k].0 && FailFast(cs, i) == Some(cs[k].1)
                        && forall j :: i <= j < k ==> cs[j].0
  {
    if cs[i].0 {
      FailFastIsFirst(cs, i + 1);
      var k :| i + 1 <= k < |cs| && !cs[k].0 && FailFast(cs, i + 1) == Some(cs[k].1)
               && forall j :: i + 1 <= j < k ==> cs[j].0;
      assert forall j :: i <= j < k ==> cs[j].0;
    }
  }

  /** Checks that pass are skipped: evaluation goes on at the first one that does not. */
  lemma {:induction false} FailFastSkips(cs: seq<Check>, i: nat, j: nat)
    requires i <= j <= |cs|
    requires forall k :: i <= k < j ==> cs[k].0
    decreases j - i
    ensures FailFast(cs, i) == FailFast(cs, j)
  {
    if i < j {
      FailFastSkips(cs, i + 1, j);
    }
  }

  /**
   * The validator is fail-fast over its checks in order: its message is the
   * message of the first failing check, and it accepts when none fails.
   */
  lemma ValidateIsFailFast(c: SimulationConfig)
    ensures Validate(c).1 == FailFast(Checks(c), 0)
  {
    var cs := Checks(c);
    if !CheckAt(c, 0).0 {
    } else if !CheckAt(c, 1).0 {
      FailFastSkips(cs, 0, 1);
    } else if !CheckAt(c, 2).0 {
      FailFastSkips(cs, 0, 2);
    } else if !CheckAt(c, 3).0 {
      FailFastSkips(cs, 0, 3);
    } else if !CheckAt(c, 4).0 {
      FailFastSkips(cs, 0, 4);
    } else if !CheckAt(c, 5).0 {
      FailFastSkips(cs, 0, 5);
    } else if !CheckAt(c, 6).0 {
      FailFastSkips(cs, 0, 6);
    } else if !CheckAt(c, 7).0 {
      FailFastSkips(cs, 0, 7);
    } else if !CheckAt(c, 8).0 {
      FailFastSkips(cs, 0, 8);
    } else if !CheckAt(c, 9).0 {
      FailFastSkips(cs, 0, 9);
    } else if !CheckAt(c, 10).0 {
      FailFastSkips(cs, 0, 10);
    } else if !CheckAt(c, 11).0 {
      FailFastSkips(cs, 0, 11);
    } else if !CheckAt(c, 12).0 {
      FailFastSkips(cs, 0, 12);
    } else if !CheckAt(c, 13).0 {
      FailFastSkips(cs, 0, 13);
    } else if !CheckAt(c, 14).0 {
      FailFastSkips(cs, 0, 14);
    } else if !CheckAt(c, 15).0 {
      FailFastSkips(cs, 0, 15);
    } else {
      FailFastSkips(cs, 0, |cs|);
    }
  }

  /** A configuration whose only departure from the defaults is a zero infection rate is accepted. */
  lemma ZeroInfectionRateAccepted()
    ensures Validate(SimulationConfig(100, 100, 5, 0.0, 5.0, 1.0, 10.0, 2.0, 0.05, 2.0,
                                      0.0, 0.0, 0.0, 0.1, 1.0, 0.5)).0
  {
  }

  /** A population of 10 is accepted, and one of 9 is rejected with the population message. */
  lemma PopulationMinimumIsTen()
    ensures Validate(SimulationConfig(10, 100, 1, 1.5, 5.0, 1.0, 10.0, 2.0, 0.05, 2.0,
                                      0.0, 0.0, 0.0, 0.1, 1.0, 0.5)).0
    ensures Validate(SimulationConfig(9, 100, 1, 1.5, 5.0, 1.0, 10.0, 2.0, 0.05, 2.0,
                                      0.0, 0.0, 0.0, 0.1, 1.0, 0.5)) == (false, Some(PopulationMsg))
  {
  }

  /**
   * The "at least 1" message is reported only for a non-positive initial
   * infected count: a too-large count is caught by the check before it.
   */
  lemma InitialRangeMessageMeansTooFew(c: SimulationConfig)
    requires Validate(c) == (false, Some(InitialRangeMsg))
    ensures c.initialInfected < 1
  {
  }
}

=== FILE: wrappers.dfy ===
/** Optional values, standing for Python's `None` or a present value. */
module Wrappers {

  datatype Option<+T> = None | Some(value: T) {

    /** The present value, or `default` when absent (Python's `x or default` for non-falsy values). */
    function GetOr(default: T): T {
      match this
      case Some(v) => v
      case None => default
    }
  }
}
